=== FILE: README.md ===
# procnanny in Dafny

procnanny is a process supervisor written in C for a Unix operating-systems
course. It reads a configuration file of lines `program runtime`. It finds every
running process with each program's name using `pgrep`. Each such process is
killed once it has run longer than its runtime. The actions go to a log file.

The repository has three generations. This project models all three:

- **First draft** (`proc_nanny.c`). The first line of the file is one monitor time,
  and every later line is a program name. The draft forks one monitor process per
  name. Each monitor kills every still-living process of that name after the
  monitor time, then writes its kill count down a pipe.
- **assignment2** (`assignment2/proc_nanny.c`, `assignment2/linked_list.c`).
  - The configuration becomes a table of `ProgramConfig` slots, one per line.
  - A generic singly linked list holds the processes to watch.
  - A monitor logs "Initializing", kills and "not found" lines to a log pipe.
  - The parent sums the counts written to a count pipe.
- **assignment3**:
  - **Client** (`procnanny_client/proc_nanny_client.c`), the supervision engine:
    - keeps a *watch-list* of monitored processes, deduplicated by pid;
    - keeps a *pool* of reusable worker processes;
    - hands each unmonitored watch-list entry to an idle worker, spawning one
      when none is idle;
    - collects each worker's result ("0" or "1" killed) without blocking;
    - rescans for new processes on SIGALRM;
    - re-reads the configuration on SIGHUP;
    - kills every worker on SIGINT.
  - **Main server** (`assignment3/proc_nanny_server.c`), a `select` reactor:
    - pushes the configuration table, as `name runtime\n` lines, to every client
      that connects;
    - logs what clients send back, counting messages that contain "killed after";
    - re-reads the file on SIGHUP, with signals routed through a self-pipe;
    - sends the sentinel `___KILL___ 0` to every client on SIGINT.
  - **Server variant** (`assignment3/procnanny_server/proc_nanny_server.c`):
    - polls the signal flags at the top of each loop pass instead of using a
      self-pipe;
    - waits in `select` for at most one second;
    - keeps no kill tally.

Each C function becomes a pure Dafny function from state to state. The
operating system is an input to those functions:

- what `pgrep` prints;
- what `fork`, `accept` and `select` return;
- the bytes a worker or a client socket yields;
- whether `kill(pid, 0)` succeeds;
- the configuration file's lines (`None` when it cannot be opened).

What the program sends, kills, closes and logs is the output.

Modules (one file each):

- `Wrappers` — `Option` and `Result`.
- `Limits` — header constants and the `int`/`unsigned int` conversions the code
  relies on.
- `CText` — `isspace`, `trimWhitespace`, `strstr`, NUL cut-off, `getline`
  chunking, newline counting, `snprintf` truncation.
- `CNum` — `%d` printing and scanning, and `atoi`.
- `Config` — the table, the `sscanf("%s %d")` line parser, the four
  configuration readers, and the push format.
- `Records` — the two list records.
- `LinkedList` — `linked_list.c` at node level, plus the operations of the
  assignment3 header.
- `Lookup` — `getPids` and the `{-1}`-initialised pid array.
- `Worker` — the parent-to-worker command line and the worker's body.
- `Events` — the log messages and `logToFileSimple`'s tally.
- `Pairing` — the client's watch-list/pool invariant.
- `ClientNode` — the client.
- `SlotTable` — the servers' `clientSockets` table and the sends and reads on it.
- `ServerNode` — the main server.
- `VariantNode` — the server variant.
- `Assignment2` — the assignment2 draft.
- `FirstDraft` — the first draft.

## Model

| member | source | states |
|---|---|---|
| Limits.ToUint32 | assignment2/proc_nanny.h:44-47 | Storing a scanned `int` into the `unsigned int` runtime keeps non-negative 32-bit values and maps negative ones to value + 2^32 |
| Limits.ToInt32 | assignment3/procnanny_client/proc_nanny_client.c:357 | Printing an `unsigned int` runtime with `%d` yields a 32-bit `int`, negative exactly for values at or above 2^31 |
| Limits.Int32RoundTrip | assignment3/procnanny_client/proc_nanny_client.c:357 | Printing an unsigned runtime with `%d` and storing it back through `%d` restores every 32-bit value |
| CText.TrimLeft | assignment3/procnanny_client/proc_nanny_client.c:193-195 | The leading-blank skip returns a suffix of the input with only white space before it, starting at a non-space |
| CText.TrimRight | assignment3/procnanny_client/proc_nanny_client.c:196-198 | The trailing-blank skip returns a prefix of the input with only white space after it, ending at a non-space |
| CText.Trim | assignment3/procnanny_client/proc_nanny_client.c:189-203 | `trimWhitespace` returns a slice `s[i..j]` with only white space outside it and non-space characters at both ends |
| CText.TrimmedAtUnique | assignment3/procnanny_client/proc_nanny_client.c:189-203 | Any two such slice positions of the same string give the same slice, so the trimmed text is determined by the input |
| CText.TrimToken | assignment3/procnanny_client/proc_nanny_client.c:121 | Trimming a string without white space returns it unchanged |
| CText.TrimWhitespace | assignment3/procnanny_client/proc_nanny_client.c:189-203 | The index loops of `trimWhitespace` (skip leading blanks, back off trailing blanks, shift the rest down) compute exactly the trimmed slice |
| CText.Contains | assignment3/proc_nanny_server.c:467 | `strstr(msg, pat) != NULL` holds exactly when `pat` occurs at some position of `msg` |
| CText.CString | assignment3/proc_nanny_server.c:384-385 | A received buffer read as a C string is its prefix up to the first NUL, and holds no NUL |
| CText.Lines | assignment2/proc_nanny.c:73 | `getline` splits text into non-empty chunks, each ending at its newline except possibly the last |
| CText.LinesConcat | assignment2/proc_nanny.c:73 | The `getline` chunks concatenate back to the whole text |
| CText.LinesOfConcat | assignment2/proc_nanny.c:73 | Splitting the concatenation of well-formed chunks gives those chunks back |
| CText.CountNewlines | proc_nanny.c:178-190 | `getNumberOfLines` returns the number of newline characters in the stream |
| CText.LinesCount | proc_nanny.c:178-190 | The number of `getline` chunks is the newline count plus one for a final unterminated line |
| CText.Truncate | assignment3/procnanny_client/proc_nanny_client.c:454-456 | `snprintf` into a buffer of `size` keeps a prefix shorter than `size`, and the whole text when it fits |
| CNum.NatToString | assignment2/proc_nanny.c:206 | `%d` of a non-negative value prints a non-empty run of digits |
| CNum.IntToString | assignment2/proc_nanny.c:206 | `%d` prints a digit or a minus sign first |
| CNum.ScanInt | assignment2/proc_nanny.c:237 | A `%d` conversion consumes at least one character and leaves a suffix of the input |
| CNum.DigitsValueOfNat | assignment2/proc_nanny.c:206 | The digits `%d` prints denote the value printed |
| CNum.ScanIntToString | assignment2/proc_nanny.c:237 | Scanning `%d` output gives back the printed value and stops right after the number |
| CNum.ScanIntAfterBlank | assignment3/procnanny_client/proc_nanny_client.c:386 | A blank directive followed by `%d` reads back a printed number after a blank |
| CNum.ScanIntSkipsSpace | assignment2/proc_nanny.c:237 | `%d` skips leading white space before the sign and digits |
| CNum.NatToStringLength | assignment2/proc_nanny.c:233-236 | A number below 10^k prints in at most k characters |
| Config.TokenLength | assignment2/proc_nanny.c:76 | `%s` takes the longest run of non-space characters at the start |
| Config.ScanNameInt | assignment2/proc_nanny.c:76 | `sscanf(line, "%s %d")` returns EOF exactly for an all-white-space line; otherwise a `%s` token, then a number when one follows |
| Config.ScanAll | assignment2/proc_nanny.c:73-76 | Every line gets its own scan result, each one possible for `sscanf` |
| Config.TrimLeavesToken | assignment2/proc_nanny.c:82 | `trimWhitespace` on a name a scan stored changes nothing |
| Config.ParsedEntry | assignment3/procnanny_client/proc_nanny_client.c:111-121 | A complete line fills its slot with the line's scanned name and its runtime modulo 2^32 |
| Config.ReadClientFrom | assignment3/procnanny_client/proc_nanny_client.c:108-123 | Reading from line k succeeds iff every remaining scan yields two items; on failure the index reported is the first such line |
| Config.ReadClient | assignment3/procnanny_client/proc_nanny_client.c:94-125 | The client's reader writes past the table (`None`) iff more than `CONFIG_FILE_LINES` lines come and the first `CONFIG_FILE_LINES` are complete; otherwise it succeeds iff the file fits and every line yields a name and a number, and fails at the first bad line; line i fills slot i and later slots are untouched |
| Config.ReadServerFrom | assignment3/proc_nanny_server.c:175-193 | The main server's loop fails iff a scanned line among the first `CONFIG_FILE_LINES` yields only a name |
| Config.ReadServer | assignment3/proc_nanny_server.c:158-195 | The main server's reader rejects exactly a name-only line within the first `CONFIG_FILE_LINES`; blank lines leave their slot empty |
| Config.ReadVariantFrom | assignment3/procnanny_server/proc_nanny_server.c:176-194 | The variant's loop succeeds iff every scanned line among the first `CONFIG_FILE_LINES` yields two items |
| Config.ReadVariant | assignment3/procnanny_server/proc_nanny_server.c:162-196 | The variant's reader accepts exactly the files whose first `CONFIG_FILE_LINES` lines all yield a name and a number |
| Config.ScanInto | assignment2/proc_nanny.c:76 | An EOF scan leaves the slot as it was; a name-only scan replaces only the name |
| Config.ReadLenientAsWritten | assignment2/proc_nanny.c:73-84 | The assignment2 loop reaches `trimWhitespace("")`, which is undefined, exactly when a blank line falls on a slot with an empty name |
| Config.ReadLenient | assignment3/proc_nanny_server.c:186-188 | With the trim guarded by `strlen != 0`, every line's scan is stored into its slot and no slot is undefined |
| Config.LenientBlankLineIsUndefined | assignment2/proc_nanny.c:73-84 | A one-blank-line file read into a fresh table hits the undefined trim |
| Config.LenientBlankLineGuarded | assignment3/proc_nanny_server.c:186-188 | With the guard, the same file leaves the first slot empty |
| Config.NonEmpty | assignment3/proc_nanny_server.c:359-365 | The pushed entries are those with a non-empty name, in table order |
| Config.PushLinesAreNonEmptyEntries | assignment3/proc_nanny_server.c:359-365 | One `name runtime\n` line goes out per non-empty slot, in table order, and empty slots send nothing |
| Config.ScanNameNumber | assignment3/proc_nanny_server.c:362 | A line `name number\n` scans back to its name and number |
| Config.ScanFormatEntry | assignment3/proc_nanny_server.c:362 | A pushed line scans back under `"%s %d"` to the name and `%d` value it was printed from |
| Config.FormatEntryIsChunk | assignment3/proc_nanny_server.c:362 | Every pushed line is one `getline` chunk |
| Config.PushLinesSplit | assignment3/proc_nanny_server.c:359-365 | `getline` over the pushed byte stream returns exactly the pushed lines |
| Config.PushRoundTrip | assignment3/procnanny_client/proc_nanny_client.c:94-125 | A client reading the pushed text into a cleared table gets every non-empty server entry, in order, with its runtime, then empty slots |
| Config.PushLinesParse | assignment3/procnanny_client/proc_nanny_client.c:111 | Every pushed line parses back to its entry |
| Config.Fill | assignment3/procnanny_client/proc_nanny_client.c:144-148 | The given entries followed by empty slots, `CONFIG_FILE_LINES` in all |
| Config.ReadCompleteLines | assignment3/procnanny_client/proc_nanny_client.c:94-125 | Complete lines read into a cleared table give those entries followed by empty slots |
| LinkedList.Init | assignment2/linked_list.c:6-11 | `ll_init` gives an empty, valid list with length 0 and no tail |
| LinkedList.Add | assignment2/linked_list.c:23-38 | `ll_add` always increments length; on a valid list it appends the item at the tail |
| LinkedList.Size | assignment3/procnanny_server/linked_list.h:61 | `ll_size` of a valid list is its number of items |
| LinkedList.ForEach | assignment2/linked_list.c:40-49 | A NULL operation does nothing; otherwise the operation is applied to every item from head to tail |
| LinkedList.VisitAppend | assignment2/linked_list.c:44-48 | The traversal visits the first part of the list before the rest |
| LinkedList.VisitCounts | assignment2/linked_list.c:44-48 | The operation runs exactly once per item |
| LinkedList.Keep | assignment2/linked_list.c:51-91 | The survivors of a removal are the unselected items, in their original order |
| LinkedList.KeepAppend | assignment2/linked_list.c:51-91 | Removal by predicate distributes over concatenation, so order is kept |
| LinkedList.RemoveIfAsWritten | assignment2/linked_list.c:51-91 | As written, `ll_removeIf` relinks the chain to the survivors but never decrements `length`, and can leave `tail` on a freed node |
| LinkedList.RemoveIf | assignment2/linked_list.c:51-91 | The corrected removal keeps the list valid, with exactly the unselected items in order |
| LinkedList.RemoveIfThenAddLosesNode | assignment2/linked_list.c:23-38 | As written, emptying a list by `ll_removeIf` and then calling `ll_add` leaves the added node unreachable from head |
| LinkedList.FreeAsWritten | assignment2/linked_list.c:13-21 | As written, `ll_free` empties the chain but leaves `length` and `tail` stale |
| LinkedList.Free | assignment2/linked_list.c:13-21 | The corrected free leaves a valid empty list as `ll_init` would |
| LinkedList.FreeKeepsStaleFields | assignment2/linked_list.c:13-21 | Freeing a non-empty list as written breaks the list invariant, and the corrected free is idempotent |
| LinkedList.AddUnique | assignment3/procnanny_server/linked_list.h:49-50 | `ll_add_unique` appends iff no comparator is set or no equal item is present, keeping the list valid |
| LinkedList.Remove | assignment3/procnanny_server/linked_list.h:56-57 | `ll_remove` with no comparator removes nothing; with one, it removes exactly the items equal to the key |
| LinkedList.GetIf | assignment3/procnanny_server/linked_list.h:54 | `ll_getIf` is NULL iff no item satisfies the predicate; otherwise it is the first item that does |
| Lookup.PgrepPids | assignment3/procnanny_client/proc_nanny_client.c:205-223 | `getPids` gives one pid per output line, each that line's `atoi` |
| Lookup.PgrepRoundTrip | assignment3/procnanny_client/proc_nanny_client.c:205-223 | Reading back what `pgrep` printed gives the pids it printed |
| Lookup.PidArray | assignment3/procnanny_client/proc_nanny_client.c:303-304 | The `{-1}` array filled by `getPids` has the found pids at the front, -1 at index 0 if none, and 0 elsewhere |
| Lookup.Positives | assignment3/procnanny_client/proc_nanny_client.c:306-307 | The `pids[j] > 0` scan visits the positive entries, in order |
| Lookup.PositivesAppend | assignment3/procnanny_client/proc_nanny_client.c:306-307 | The positive scan distributes over concatenation |
| Lookup.PositivesOfNonPositive | assignment3/procnanny_client/proc_nanny_client.c:306-307 | An array without positive entries yields no pid |
| Lookup.PidArrayPositives | assignment3/procnanny_client/proc_nanny_client.c:303-307 | The -1 and 0 filler adds nothing: the scan visits exactly the positive pids found |
| Worker.MatchLiteral | assignment3/procnanny_client/proc_nanny_client.c:386 | A literal directive of the format matches iff the input starts with it, and leaves the rest |
| Worker.ScanCommand | assignment3/procnanny_client/proc_nanny_client.c:383-386 | A command without the `PID:` prefix leaves the worker's initial pid -1 and runtime 0 |
| Worker.ScanCommandPid | assignment3/procnanny_client/proc_nanny_client.c:386 | After `PID:` a blank and `%d` read the printed pid |
| Worker.MatchPrefix | assignment3/procnanny_client/proc_nanny_client.c:386 | A literal followed by text matches, leaving the text |
| Worker.ScanRuntimeOf | assignment3/procnanny_client/proc_nanny_client.c:386 | `, RUNTIME: %d` reads the printed runtime back into the unsigned field |
| Worker.CommandRoundTrip | assignment3/procnanny_client/proc_nanny_client.c:357-386 | The worker decodes exactly the pid and runtime the parent wrote |
| Worker.Handle | assignment3/procnanny_client/proc_nanny_client.c:383-398 | The worker sleeps the runtime and kills the pid iff the probe finds it alive. A target whose `kill -9` also kills the worker (its own pid, 0, -1, or minus its group) is always killed and leaves no report; any other target gets "1" for a kill and "0" otherwise |
| Worker.AssignmentRoundTrip | assignment3/procnanny_client/proc_nanny_client.c:357-432 | For one assignment, the worker watches the named pid and kills at most once. The report is missing iff that kill ends the worker; otherwise the parent reads back 1 for a kill and 0 otherwise |
| Events.LogText | assignment3/procnanny_client/proc_nanny_client.c:450-456 | The log line fits `LOG_MESSAGE_LENGTH`, is a prefix of `[time] type: msg\n`, and is all of it when short enough |
| Events.CountKill | assignment3/proc_nanny_server.c:466-469 | `logToFileSimple` raises the tally by one exactly when the message contains "killed after" |
| Events.KilledMessageCounts | assignment3/procnanny_client/proc_nanny_client.c:434-436 | The client's Action line contains the marker, so it counts one kill |
| Events.NoBlankAExcludesMarker | assignment3/proc_nanny_server.c:467 | A text with no blank followed by 'a' cannot contain "killed after" |
| Events.InitializingDoesNotCount | assignment3/procnanny_client/proc_nanny_client.c:338-340 | The Initializing line never counts as a kill, whatever the name |
| Events.NotFoundDoesNotCount | assignment3/procnanny_client/proc_nanny_client.c:319-321 | The "not found" line never counts as a kill |
| Events.ExitingDoesNotCount | assignment3/procnanny_client/proc_nanny_client.c:163-166 | The SIGINT exit line never counts as a kill |
| Events.ParentDoesNotCount | assignment3/procnanny_client/proc_nanny_client.c:129-130 | The parent-pid line never counts as a kill |
| Pairing.MonitoredJobs | assignment3/procnanny_client/proc_nanny_client.c:331 | The job set holds the job of every watch-list entry being monitored |
| Pairing.BusyJobs | assignment3/procnanny_client/proc_nanny_client.c:424 | The job set holds the job of every busy worker |
| Pairing.Busy | assignment3/procnanny_client/proc_nanny_client.c:349-354 | `initializeChild` makes the worker busy with the entry's pid, name and runtime and keeps its pid |
| Pairing.Idle | assignment3/procnanny_client/proc_nanny_client.c:438 | `checkChild` makes the worker idle and leaves the rest as it was |
| Pairing.MonitoredJobsMark | assignment3/procnanny_client/proc_nanny_client.c:351 | Marking an entry adds exactly its job to the monitored set |
| Pairing.BusyJobsAssign | assignment3/procnanny_client/proc_nanny_client.c:350-354 | Assigning an entry to an idle worker adds exactly that job to the busy set |
| Pairing.BusyJobsRelease | assignment3/procnanny_client/proc_nanny_client.c:438 | Releasing a busy worker removes exactly its job from the busy set |
| Pairing.MonitoredJobsAppend | assignment3/procnanny_client/proc_nanny_client.c:312-313 | Appending an unmonitored entry leaves the monitored set as it was |
| Pairing.BusyJobsAppend | assignment3/procnanny_client/proc_nanny_client.c:416-417 | Appending an idle worker leaves the busy set as it was |
| Pairing.HasPidMeans | assignment3/procnanny_client/proc_nanny_client.c:289-298 | The comparator-derived predicate holds exactly for entries with the key's pid |
| Pairing.KeepUnique | assignment3/procnanny_client/proc_nanny_client.c:441 | Removing entries keeps watch-list pids unique |
| Pairing.MonitoredJobsRemove | assignment3/procnanny_client/proc_nanny_client.c:439-441 | Removing by pid from a unique-pid list takes exactly that pid's job out of the monitored set |
| Pairing.PairedAfterBind | assignment3/procnanny_client/proc_nanny_client.c:349-354 | Binding an unmonitored entry to an idle worker keeps the one-to-one pairing |
| Pairing.PairedAfterRelease | assignment3/procnanny_client/proc_nanny_client.c:438-441 | Releasing a worker and removing its entry keeps the pairing |
| Pairing.PairedAfterAppend | assignment3/procnanny_client/proc_nanny_client.c:313 | Appending an unmonitored entry keeps the pairing |
| Pairing.PairedAfterSpawn | assignment3/procnanny_client/proc_nanny_client.c:416-417 | Appending an idle worker keeps the pairing |
| Pairing.PairedIsOneToOne | assignment3/procnanny_client/proc_nanny_client.c:329-443 | Under the pairing, each busy worker has a monitored entry with its job, and watch-list pids are distinct |
| ClientNode.Pids | assignment3/procnanny_client/proc_nanny_client.c:289-298 | Every watch-list entry's pid is in the pid set |
| ClientNode.ExtendsPids | assignment3/procnanny_client/proc_nanny_client.c:313 | Appending entries only grows the pid set |
| ClientNode.MonitoredJobsExtend | assignment3/procnanny_client/proc_nanny_client.c:312-313 | Appending unmonitored entries leaves the monitored jobs as they were |
| ClientNode.AddOne | assignment3/procnanny_client/proc_nanny_client.c:313 | `ll_add_unique` either leaves the watch-list or appends the entry, keeping it deduplicated |
| ClientNode.AddUniqueFinds | assignment3/procnanny_client/proc_nanny_client.c:313 | After `ll_add_unique` the entry's pid is on the watch-list |
| ClientNode.AddFound | assignment3/procnanny_client/proc_nanny_client.c:306-316 | Adding the positive pids of an array extends the watch-list, keeping it deduplicated |
| ClientNode.AddFoundStep | assignment3/procnanny_client/proc_nanny_client.c:313 | One unique add keeps pids unique and the monitored jobs unchanged |
| ClientNode.DiscoverSlot | assignment3/procnanny_client/proc_nanny_client.c:302-316 | One named slot's lookup extends the watch-list and counts the positive pids found |
| ClientNode.PositivesEmpty | assignment3/procnanny_client/proc_nanny_client.c:317 | `numberFound == 0` exactly when the lookup found no positive pid |
| ClientNode.DiscoverFrom | assignment3/procnanny_client/proc_nanny_client.c:301-324 | The scan over the slots extends the watch-list and keeps it deduplicated |
| ClientNode.DiscoverFromLog | assignment3/procnanny_client/proc_nanny_client.c:317-322 | A "not found" line is logged exactly for each named slot whose lookup found nothing, in slot order, only under the flag |
| ClientNode.MissingStep | assignment3/procnanny_client/proc_nanny_client.c:317-322 | One slot's contribution to the "not found" lines |
| ClientNode.DiscoverStep | assignment3/procnanny_client/proc_nanny_client.c:302 | A slot with an empty name adds nothing; a named one extends the list |
| ClientNode.TraceFrom | assignment3/procnanny_client/proc_nanny_client.c:301-324 | The scan takes the slots in order, one step per slot, and the last of its states is the scan's result |
| ClientNode.TraceExtends | assignment3/procnanny_client/proc_nanny_client.c:301-324 | Between any two points of the scan the watch-list only grows at the end, so entries already there are kept |
| ClientNode.SlotOf | assignment3/procnanny_client/proc_nanny_client.c:306-313 | Every entry the scan adds came from a named slot at or after the starting point. It carries that slot's name and runtime and a positive pid the lookup found for that name |
| ClientNode.SlotHere | assignment3/procnanny_client/proc_nanny_client.c:306-313 | An entry that first appears at one slot's step was found for that slot's name |
| ClientNode.StepFinds | assignment3/procnanny_client/proc_nanny_client.c:306-313 | After a slot's step, every positive pid found for it is on the watch-list |
| ClientNode.CompleteAt | assignment3/procnanny_client/proc_nanny_client.c:301-324 | Every positive pid found for a named slot is on the watch-list at the end of the scan |
| ClientNode.DiscoverSoundAll | assignment3/procnanny_client/proc_nanny_client.c:300-327 | A whole scan only adds entries found for named slots |
| ClientNode.DiscoverCompleteAll | assignment3/procnanny_client/proc_nanny_client.c:300-327 | After a whole scan every positive pid found for a named slot is watched |
| ClientNode.DiscoverJobs | assignment3/procnanny_client/proc_nanny_client.c:300-327 | A scan leaves the monitored jobs unchanged |
| ClientNode.Discover | assignment3/procnanny_client/proc_nanny_client.c:300-327 | `checkForNewMonitoredProcesses` keeps the node invariant, changes only the watch-list and log, and clears `firstConfigurationReRead` |
| ClientNode.Bind | assignment3/procnanny_client/proc_nanny_client.c:349-360 | `initializeChild` marks the entry, makes the worker busy with its job, writes a command the worker decodes to that job, and logs Initializing |
| ClientNode.SpawnedIsFirstIdle | assignment3/procnanny_client/proc_nanny_client.c:417-419 | With no idle worker in the pool, `ll_getIf` after the spawn returns the new worker |
| ClientNode.SpawnAndBind | assignment3/procnanny_client/proc_nanny_client.c:362-420 | A fork result of -1 ends the node with nothing else changed; otherwise a worker with that pid is appended and bound |
| ClientNode.DispatchOne | assignment3/procnanny_client/proc_nanny_client.c:329-342 | `monitorNewProcesses` keeps the invariant and the watch-list length, and monitored entries are left alone |
| ClientNode.DispatchFrom | assignment3/procnanny_client/proc_nanny_client.c:139 | The forEach keeps the invariant; if the node does not exit, every entry ends monitored |
| ClientNode.KeepNone | assignment3/procnanny_client/proc_nanny_client.c:441 | Removing a pid that is not present changes nothing |
| ClientNode.KeepRemovesOne | assignment3/procnanny_client/proc_nanny_client.c:441 | On unique pids, removing a present pid removes exactly one entry |
| ClientNode.CheckChild | assignment3/procnanny_client/proc_nanny_client.c:422-443 | An idle worker or an empty read changes nothing; otherwise the count is added, an Action line is logged iff nonzero, the worker idles, and its entry is removed |
| ClientNode.CheckChildRemoves | assignment3/procnanny_client/proc_nanny_client.c:439-441 | `ll_remove` with the pid key removes exactly the entry with that pid |
| ClientNode.DrainFrom | assignment3/procnanny_client/proc_nanny_client.c:140 | Draining keeps the pool size, and with well-formed reports the tally grows by at most one per worker |
| ClientNode.ReportCount | assignment3/procnanny_client/proc_nanny_client.c:430 | A worker's report parses to 0 or 1 |
| ClientNode.KillEveryWorker | assignment3/procnanny_client/proc_nanny_client.c:179 | `ll_forEach(killChild)` terminates every worker once, in pool order |
| ClientNode.CleanUp | assignment3/procnanny_client/proc_nanny_client.c:178-182 | `cleanUp` kills every worker and frees both lists |
| ClientNode.ReadTable | assignment3/procnanny_client/proc_nanny_client.c:94-125 | A missing file gives the "Could not read" error; a file that overruns the table is undefined (`None`); otherwise the read succeeds iff the file fits and every line is complete, and a failure names the first bad line |
| ClientNode.ReadConfig | assignment3/procnanny_client/proc_nanny_client.c:94-125 | On success the table is replaced; on an error the line is logged and the node exits with failure; a file that overruns the table leaves the node undefined |
| ClientNode.Reload | assignment3/procnanny_client/proc_nanny_client.c:142-157 | The SIGHUP branch clears the flag and reloads the table read into cleared slots, leaving the lists alone; the next scan reports not-found; the node is undefined iff the new file overruns the table |
| ClientNode.Shutdown | assignment3/procnanny_client/proc_nanny_client.c:159-168 | The SIGINT branch kills every worker, logs the kill total and exits with success |
| ClientNode.Deliver | assignment3/procnanny_client/proc_nanny_client.c:64-80 | A signal raises exactly its own flag |
| ClientNode.Dispatch | assignment3/procnanny_client/proc_nanny_client.c:139 | Dispatch keeps the invariant and only ends the node by a fork failure |
| ClientNode.Drain | assignment3/procnanny_client/proc_nanny_client.c:140 | Draining keeps the pool and never grows the watch-list |
| ClientNode.Iterate | assignment3/procnanny_client/proc_nanny_client.c:138-175 | One loop pass keeps the invariant and ends running, exited with success (only on SIGINT) or failure, or undefined (only on a SIGHUP re-read of a file that overruns the table) |
| ClientNode.Flags | assignment3/procnanny_client/proc_nanny_client.c:142-174 | The flag checks run SIGHUP, SIGINT, SIGALRM; a node still running has every flag down, its pool not shrunk and, without SIGHUP, its table unchanged |
| ClientNode.Start | assignment3/procnanny_client/proc_nanny_client.c:127-136 | Start-up establishes the invariant; the node runs iff the file fits the table and every line is complete, and is undefined iff the file overruns the table |
| ClientNode.Run | assignment3/procnanny_client/proc_nanny_client.c:138-175 | A run keeps the invariant, and an exited node stays as it is |
| SlotTable.FirstFree | assignment3/proc_nanny_server.c:351-356 | None iff every slot from k on is taken; otherwise the lowest free slot |
| SlotTable.Store | assignment3/proc_nanny_server.c:351-356 | The accepted socket fills the lowest free slot, and a full table is unchanged |
| SlotTable.Push | assignment3/proc_nanny_server.c:359-365 | One send of `name runtime\n` per non-empty slot, in order, all to the new socket |
| SlotTable.SentTo | assignment3/proc_nanny_server.c:363 | The texts sent to one descriptor, in order |
| SlotTable.SentToAppend | assignment3/proc_nanny_server.c:363 | What one descriptor receives distributes over successive sends |
| SlotTable.SentToNone | assignment3/proc_nanny_server.c:301 | A descriptor that no send targets receives nothing |
| SlotTable.PushSentTo | assignment3/proc_nanny_server.c:359-365 | The new socket receives exactly the table's non-empty lines |
| SlotTable.SentToAll | assignment3/proc_nanny_server.c:363 | When every send targets one descriptor, it receives all texts in order |
| SlotTable.AcceptDeliversConfig | assignment3/proc_nanny_server.c:358-365 | A connecting client that reads the push into a cleared table gets the server's non-empty entries in order, then empty slots |
| SlotTable.RebroadcastAsWritten | assignment3/proc_nanny_server.c:291-304 | As written, every send of the SIGHUP loop goes to `newSocket` |
| SlotTable.RebroadcastMissesClients | assignment3/proc_nanny_server.c:291-304 | As written, a client on any other descriptor receives nothing of the re-read table |
| SlotTable.RebroadcastExample | assignment3/proc_nanny_server.c:291-304 | With clients 4 and 5 (5 accepted last) and one program, client 4 gets nothing and client 5 gets the line twice |
| SlotTable.NonEmptyOfFirst | assignment3/proc_nanny_server.c:297-298 | A table with only its first slot named pushes only that entry |
| SlotTable.NonEmptyNone | assignment3/proc_nanny_server.c:297-298 | A table with no named slot pushes nothing |
| SlotTable.Occupied | assignment3/proc_nanny_server.c:291-295 | Counts the occupied slots from k on |
| SlotTable.OccupiedExample | assignment3/proc_nanny_server.c:291-295 | Two occupied slots count two |
| SlotTable.OccupiedNone | assignment3/proc_nanny_server.c:291-295 | No occupied slot from k on counts zero |
| SlotTable.RebroadcastAsWrittenCount | assignment3/proc_nanny_server.c:291-304 | As written, `newSocket` receives the push once per occupied slot |
| SlotTable.Rebroadcast | assignment3/proc_nanny_server.c:291-304 | Corrected: every send goes to some occupied slot's own descriptor |
| SlotTable.RebroadcastReachesEveryClient | assignment3/proc_nanny_server.c:291-304 | Corrected: every connected client receives the re-read table exactly once |
| SlotTable.SentinelScans | assignment3/proc_nanny_server.c:320 | A client reads the sentinel as the program `___KILL___` with runtime 0 |
| SlotTable.VariantSentinelScans | assignment3/procnanny_server/proc_nanny_server.c:303 | The variant's sentinel, which has no newline, reads the same |
| SlotTable.ScanNameNumberAtEnd | assignment3/procnanny_server/proc_nanny_server.c:303 | `name number` at the end of the input scans to its name and number |
| SlotTable.BroadcastOnce | assignment3/proc_nanny_server.c:318-323 | A descriptor in exactly one occupied slot receives the sentinel exactly once |
| SlotTable.SentToSingle | assignment3/proc_nanny_server.c:321 | Only the send at one index reaching a descriptor means it receives that one text |
| SlotTable.Kills | assignment3/proc_nanny_server.c:466-469 | The tally of a batch of messages is at most their number |
| SlotTable.Cleared | assignment3/proc_nanny_server.c:377-380 | Closing slots keeps the table size |
| SlotTable.ClearedStep | assignment3/proc_nanny_server.c:377-380 | One slot's close step zeroes it iff it is occupied and its read returned 0 |
| SlotTable.ReadFrom | assignment3/proc_nanny_server.c:368-389 | The read loop zeroes exactly the closed slots and logs every other ready slot's message verbatim |
| SlotTable.ReadOne | assignment3/proc_nanny_server.c:371-387 | One slot: a close zeroes it; data logs its C string |
| SlotTable.KillsAppend | assignment3/proc_nanny_server.c:466-469 | The tally distributes over concatenated batches |
| SlotTable.ReadySince | assignment3/proc_nanny_server.c:264-274 | `select` reports exactly the ready occupied slots of the set it was given |
| SlotTable.MessagesSince | assignment3/procnanny_server/proc_nanny_server.c:322-371 | In the variant, an accept that fills a free slot does not change what the pass's read loop logs |
| SlotTable.MessagesOne | assignment3/proc_nanny_server.c:368-389 | Data on a single occupied slot yields only that slot's message |
| SlotTable.MessagesNone | assignment3/proc_nanny_server.c:368-389 | No ready slot yields no message |
| SlotTable.MessagesFrame | assignment3/proc_nanny_server.c:368-389 | The messages depend only on the slots that are ready |
| ServerNode.ReadTable | assignment3/proc_nanny_server.c:158-195 | A missing file is an error; otherwise the read succeeds iff no line within the limit has only a name, and the table is cleared first |
| ServerNode.ReadServerWellFormed | assignment3/proc_nanny_server.c:175-193 | A table the main server reads holds only `%s` names |
| ServerNode.Deliver | assignment3/proc_nanny_server.c:65-78 | A signal raises its flag and writes one byte to the self-pipe |
| ServerNode.Reload | assignment3/proc_nanny_server.c:287-312 | The SIGHUP branch clears the flag; the server keeps running iff the re-read succeeds |
| ServerNode.Shutdown | assignment3/proc_nanny_server.c:314-333 | The SIGINT branch sends the sentinel, logs the tally and exits with success |
| ServerNode.OnSignal | assignment3/proc_nanny_server.c:283-334 | The self-pipe branch drains the pipe and handles SIGHUP before SIGINT |
| ServerNode.Accept | assignment3/proc_nanny_server.c:337-366 | A failed accept exits with failure and sends nothing; otherwise the socket is stored and receives the table |
| ServerNode.Serve | assignment3/proc_nanny_server.c:368-389 | A read that fills the 1024-byte buffer leaves the server undefined; otherwise every ready client slot is read: closes free it, data is logged and counted |
| ServerNode.Step | assignment3/proc_nanny_server.c:254-390 | A failed `select` changes nothing; exactly one branch runs by priority; the client-data branch keeps the server running iff every read fits the buffer |
| ServerNode.Start | assignment3/proc_nanny_server.c:47-63 | The server runs iff the file was read and the socket listens; the table of sockets starts empty |
| ServerNode.Run | assignment3/proc_nanny_server.c:254-390 | A run keeps the invariant, and an exited server stays as it is |
| ServerNode.SignalHandledAtNextWake | assignment3/proc_nanny_server.c:65-78 | A delivered signal is handled at the next wake-up; afterwards its flag is down, and SIGINT ends the server |
| ServerNode.ReloadMissesClients | assignment3/proc_nanny_server.c:291-304 | On a re-read, a client on any descriptor other than `newSocket` receives nothing new |
| ServerNode.ReloadFloodsNewSocket | assignment3/proc_nanny_server.c:291-304 | On a re-read, `newSocket` receives the table once per occupied slot |
| ServerNode.AcceptDeliversTable | assignment3/proc_nanny_server.c:337-366 | On accept the new descriptor receives the non-empty table lines, which read back into the same entries |
| ServerNode.ShutdownReachesEveryClient | assignment3/proc_nanny_server.c:318-323 | On SIGINT every connected client receives the sentinel exactly once, when descriptors are distinct |
| ServerNode.TallyCountsClientKills | assignment3/proc_nanny_server.c:466-469 | A client message that fits the buffer raises the tally by one iff it contains "killed after"; one that fills it is undefined and counts none |
| VariantNode.ReadTable | assignment3/procnanny_server/proc_nanny_server.c:162-196 | A missing file is an error; otherwise the read succeeds iff every line within the limit yields a name and a number |
| VariantNode.ReadVariantWellFormed | assignment3/procnanny_server/proc_nanny_server.c:176-194 | A table the variant reads holds only `%s` names |
| VariantNode.Deliver | assignment3/procnanny_server/proc_nanny_server.c:67-82 | A signal raises exactly its own flag |
| VariantNode.Reload | assignment3/procnanny_server/proc_nanny_server.c:265-296 | The SIGHUP block clears the flag; the server keeps running iff the re-read succeeds |
| VariantNode.Shutdown | assignment3/procnanny_server/proc_nanny_server.c:298-313 | The SIGINT block sends the sentinel to all 32 slots, logs the tally and exits with success |
| VariantNode.Accept | assignment3/procnanny_server/proc_nanny_server.c:322-350 | A failed accept exits with failure and sends nothing; otherwise the socket is stored and receives the table |
| VariantNode.Serve | assignment3/procnanny_server/proc_nanny_server.c:353-371 | A read that fills the buffer leaves the server undefined; otherwise the read loop zeroes exactly the closed slots, logs the data and never raises the tally |
| VariantNode.Step | assignment3/procnanny_server/proc_nanny_server.c:245-372 | One pass handles SIGHUP, then SIGINT, then accept and reads; a running server has both flags down; with no flag up the pass stays running iff every read fits the buffer |
| VariantNode.AfterSelect | assignment3/procnanny_server/proc_nanny_server.c:321-371 | After `select`, a failed accept exits with failure; otherwise the new socket is stored and gets the table, then the slots that were in the set are read |
| VariantNode.InterruptedWake | assignment3/procnanny_server/proc_nanny_server.c:246-263 | After an interrupted `select` the sets are as built: the listening socket and exactly the occupied slots test ready |
| VariantNode.CheckedStep | assignment3/procnanny_server/proc_nanny_server.c:245-319 | With `activity` checked, a failed `select` only acts on the flags polled at the top of the pass |
| VariantNode.StoreKeepsOccupied | assignment3/procnanny_server/proc_nanny_server.c:329-336 | Storing a socket never overwrites an occupied slot |
| VariantNode.Start | assignment3/procnanny_server/proc_nanny_server.c:48-65 | The variant runs iff the file was read and the socket listens; the table of sockets starts empty |
| VariantNode.Run | assignment3/procnanny_server/proc_nanny_server.c:245-372 | A run keeps the invariant, and an exited server stays as it is |
| VariantNode.SignalHandledAtNextPass | assignment3/procnanny_server/proc_nanny_server.c:265-313 | A signal whose flag is up when a pass starts is handled in that pass; SIGINT ends the server |
| VariantNode.InterruptedPassWaitsForClients | assignment3/procnanny_server/proc_nanny_server.c:319-371 | A pass whose `select` a signal interrupts completes only after `accept` returns a connection, which gets the table, and every connected client has been read |
| VariantNode.CheckedSignalDuringSelect | assignment3/procnanny_server/proc_nanny_server.c:319-323 | With `activity` checked, the interrupted pass changes nothing and the signal is handled in the next pass |
| VariantNode.ReloadMissesClients | assignment3/procnanny_server/proc_nanny_server.c:273-288 | On a re-read, a client on any descriptor other than `newSocket` receives nothing new |
| VariantNode.ShutdownReachesEveryClient | assignment3/procnanny_server/proc_nanny_server.c:301-306 | On SIGINT every connected client receives the sentinel exactly once, when descriptors are distinct |
| Assignment2.ReadConfiguration | assignment2/proc_nanny.c:61-86 | None iff the file cannot be opened; undefined iff the file has more than `CONFIG_FILE_LINES` lines or some line is blank; otherwise line i is scanned into slot i, later slots empty |
| Assignment2.BlankLineUndefined | assignment2/proc_nanny.c:73-84 | A blank line anywhere in the file reaches the undefined trim |
| Assignment2.LenientAgreesWithStrict | assignment2/proc_nanny.c:61-86 | On files whose every line is complete, the assignment2 reader gives the same table as the client's reader |
| Assignment2.NameOnlyLineLoadsZeroRuntime | assignment2/proc_nanny.c:76-82 | A name-only line is accepted and loads that name with runtime 0 |
| Assignment2.AddAll | assignment2/proc_nanny.c:114 | Repeated `ll_add` appends the entries in order and keeps the list valid |
| Assignment2.Watch | assignment2/proc_nanny.c:104-118 | The watch loop adds exactly the positive pids found per named slot: count, prefix kept, every added node found, every found pid added |
| Assignment2.ListedFrom | assignment2/proc_nanny.c:104-118 | Every node added from slot k on was found for a named slot, and every found pid from slot k on is added |
| Assignment2.WatchStep | assignment2/proc_nanny.c:104-118 | One slot's step adds its positive pids and keeps the prefix |
| Assignment2.StepListed | assignment2/proc_nanny.c:105-116 | A node added by one slot's step was found for that slot |
| Assignment2.StepComplete | assignment2/proc_nanny.c:105-116 | A pid found for the slot is added by its step |
| Assignment2.WatchList | assignment2/proc_nanny.c:98-118 | `ll_init` then the loop gives a valid list with one node per positive pid found |
| Assignment2.FoundOfEmpty | assignment2/proc_nanny.c:105 | Slots with empty names contribute no pid |
| Assignment2.DuplicatesKept | assignment2/proc_nanny.c:114 | Without `ll_add_unique`, a process named in two slots is watched twice |
| Assignment2.MonitorProcess | assignment2/proc_nanny.c:147-212 | No count iff nothing was found, with only the not-found line; otherwise kills exactly the live positive pids other than itself, logs them, and writes the kill count |
| Assignment2.MonitorReports | assignment2/proc_nanny.c:170-207 | A monitor always reports: either the not-found line or the kill count matching its kills |
| Assignment2.Fgets | assignment2/proc_nanny.c:236 | `fgets` chunks concatenate back to the stream, each non-empty and shorter than the buffer |
| Assignment2.ReadPipes | assignment2/proc_nanny.c:218-254 | The log pipe is copied verbatim, then one Info line with the exit message of the count pipe's tally |
| Assignment2.FgetsShortLines | assignment2/proc_nanny.c:236-240 | Lines shorter than the buffer come out of `fgets` one per call |
| Assignment2.CountLine | assignment2/proc_nanny.c:205-207 | A monitor's count line is one short chunk that ends in a newline |
| Assignment2.CountLinesAreChunks | assignment2/proc_nanny.c:232-240 | Each count line is a short chunk ending in a newline, so `fgets` returns them one per call |
| Assignment2.CountLinesTally | assignment2/proc_nanny.c:236-240 | `sscanf` reads each count line back to its count, so the tally of the lines is the total killed |
| Assignment2.ReadPipesSumsKills | assignment2/proc_nanny.c:232-247 | The parent's tally of the count pipe equals the sum of the monitors' kills, and the exit line reports that sum |
| FirstDraft.ConfigLines | proc_nanny.c:65-70 | Every `getline` chunk is stored trimmed, one per line |
| FirstDraft.FirstFailure | proc_nanny.c:82-88 | The forks before the returned index all succeeded |
| FirstDraft.LaunchMonitors | proc_nanny.c:72-88 | No first line iff the file is empty; a fork failure iff a fork returns -1; otherwise the time is line 0 and one monitor per later line, with the pid array filled in |
| FirstDraft.ProcessConfigFile | proc_nanny.c:53-97 | Cannot open iff there is no file; more than 128 lines overrun `configLines`; otherwise the trimmed lines are launched |
| FirstDraft.NameLines | proc_nanny.c:65 | One newline-terminated line per name |
| FirstDraft.TrimTerminatedToken | proc_nanny.c:68 | Trimming `name\n` gives the name |
| FirstDraft.FormatConfigLines | proc_nanny.c:65-70 | A written config file splits into the time line and one line per name |
| FirstDraft.MonitorTimeLine | proc_nanny.c:72 | `atoi` of the trimmed time line, cast to unsigned, gives the time |
| FirstDraft.TrimmedNames | proc_nanny.c:65-70 | The trimmed lines after the first are the names |
| FirstDraft.TrimmedName | proc_nanny.c:65-70 | Each name line trims back to its name |
| FirstDraft.TrimmedMonitorTime | proc_nanny.c:72 | The first trimmed line reads back as the monitor time |
| FirstDraft.ConfigRoundTrip | proc_nanny.c:53-97 | A file written from a time and names launches with that time and those names when no fork fails |
| FirstDraft.SignalsAsWritten | proc_nanny.c:134-148 | As written, the kill loop skips -1 and kills the pids the probe accepts. It stops at the first fatal entry (0, its own process group, or its own pid), and it ends on a fatal entry iff the array holds one; without one the kills are exactly the accepted pids in order |
| FirstDraft.SignalsStopAtFirstFatal | proc_nanny.c:134-148 | The kills are the accepted pids before the first fatal entry, in order, followed by that entry |
| FirstDraft.PidArrayMembers | proc_nanny.c:117-118 | The pid array holds only found pids, 0 and -1 |
| FirstDraft.MonitorAsWritten | proc_nanny.c:116-156 | As written, the count is written iff the last signal did not end the monitor (0 or its own pid), and then matches the kills; the log holds every kill before a fatal one, since that kill ends the monitor before it can log it |
| FirstDraft.AsWrittenKillsOwnGroup | proc_nanny.c:134-148 | With fewer than 512 pids found, the monitor's last signal ends it (its own group, or itself earlier) and it never writes its count |
| FirstDraft.LookupKillsItself | proc_nanny.c:117-148 | When `pgrep` lists the monitor's own pid before any fatal entry, the kills are the accepted pids before it and then the monitor itself |
| FirstDraft.AsWrittenKillsItself | proc_nanny.c:116-156 | In that case the monitor kills itself after the accepted pids before it, logs only those kills, and writes no count |
| FirstDraft.AsWrittenFindsItself | proc_nanny.c:134-148 | `pgrep` finds the monitor's own pid 777 before a live 888: the monitor kills itself, 888 is never signalled, and only the Initializing lines are logged |
| FirstDraft.AsWrittenExample | proc_nanny.c:134-148 | One live pid 4242 found, the monitor's own pid elsewhere: the monitor signals 4242 and then 0 |
| FirstDraft.GuardedMonitor | proc_nanny.c:116-156 | Corrected with `pids[i] > 0 && pids[i] != getpid()`: the count is always written and equals the kills, which are exactly the live positive pids found other than the monitor's own |
| FirstDraft.MonitorReported | proc_nanny.c:150-152 | The corrected monitor always reports its count |
| FirstDraft.Present | proc_nanny.c:216-223 | The allocated lines are some of the slots |
| FirstDraft.FreeConfigLines | proc_nanny.c:216-223 | Every slot ends NULL, and exactly the allocated ones are freed |
| FirstDraft.PresentOfNone | proc_nanny.c:218 | All-NULL slots allocate nothing |
| FirstDraft.FreeTwiceFreesNothing | proc_nanny.c:216-223 | A second `freeConfigLines` frees nothing, so it never double-frees |

## Left out

- `checkInputs`, `getCurrentTime` and time stamps. Environment variables, the
  clock and `access` are I/O; log lines carry no time.
- `killAllProcNannys` of every generation. It is process-table I/O that runs
  before the model starts, and each generation skips its own pid:
  - the first draft runs `pgrep 'procnanny'` and kills with `kill(pid, SIGKILL)`
    (proc_nanny.c:41-51);
  - assignment2 and the client run `pgrep -x 'procnanny'` and kill with
    `killPid`, that is `system("kill -9 ...")`;
  - the main server runs `pidof procnanny.server` and sends `kill(pid, SIGINT)`
    (assignment3/proc_nanny_server.c:146-156 and 412-414);
  - the server variant runs `pgrep -x 'procnanny.server'` and kills with
    `killPid`.
- Running `pgrep`, `kill` and `sleep`. Lookup results are parameters, and so are
  the answers to `kill(pid, 0)`. `killPid`'s `system("kill -9 ...")` is recorded as a
  pid in a list.
- Sockets, pipes and `fcntl` flags. Descriptors are integers; `send` and `write`
  are list entries.
- The server's `gethostbyaddr`, the `clientNames` list, and the
  `PROCNANNYSERVERINFO` file are not modelled. A NULL result of
  `gethostbyaddr` is dereferenced (`host->h_name`), and a long host name
  overflows its buffer; both are undefined behaviour. The `strncpy` without a
  terminating NUL is not modelled either.
- `strncpy(tempBuff, line, charsRead)` copies without a terminating NUL. Lines are
  taken as if terminated.
- Names of 128 characters or more overflow `programName`, which is undefined
  behaviour. The model stores the whole `%s` token, as if `programName` were
  unbounded. A `%d` value outside `int` is undefined behaviour as well. The
  model takes the scanned value modulo 2^32 (`Limits.ToUint32`).
- A read that returns the full 1024 bytes makes `buffer[valread] = '\0'`
  write past the buffer. `ReadsFit` holds when no read on an occupied ready
  slot does; otherwise `Serve` leaves the server `Undefined`.
- ServerNode.Serve: a failed `read` (-1) is not modelled; `buffer[-1] = '\0'`
  would write before `buffer`. A `Data` value stands for a read of 1 to 1024
  bytes.
- VariantNode.Serve: a failed `read` (-1) is not modelled either; it writes
  before `buffer` in the same way.
- The client's `read()` returning 0 (an unwritten buffer) is not modelled. An
  absent report means the read returned -1.
- ClientNode.CheckChild: `reports[i]` stands for the bytes `sscanf` sees, not
  only the bytes `read` returned. The 255-byte `command` buffer is not
  NUL-terminated after the read (proc_nanny_client.c:426-430), so stack bytes
  after a short report can follow it. A worker that a `Worker.Handle` kill
  ended writes nothing, and the read that follows is likewise not modelled.
- SIGALRM's `alarm` re-arm and `REFRESH_RATE` timing. The main server's
  failed `select`, `EINTR` included, is `SelectFailed`. The variant never
  checks `select`'s result, so its interrupted `select` is the wake
  `InterruptedWake` builds.
- VariantNode.Step: an `accept` or `read` that waits forever (after an
  interrupted `select`, when no client connects or a client sends nothing)
  is a pass that never completes. There is no event for it, so a run simply
  ends there.
- `printf` and `fflush` to stdout ("new procnanny: pid=%d", "not a good sd").
  They are output only.
- Assignment2 leaves `beingMonitored` uninitialised in its watch entries. It is
  modelled as `false`.
- Assignment2 comments out its fork loop and `readPipes`. `ReadPipes` and
  `MonitorProcess` model the functions as written, not a call to them.
- Assignment2.ReadPipes: the log pipe's bytes appear as one `Raw` record.
  Interleaving of monitors' writes is abstracted.
- Assignment2.ReadPipesSumsKills: count lines are taken in the order they arrive.
  Counts of 10 or more digits, which `fgets(…, 10, …)` would split, cannot occur
  because at most `MAX_PROCESSES` pids are killed.
- Assignment2.Watch: the lookup is assumed to return at most `MAX_PROCESSES`
  pids (`Bounded`); `getPids` writes past the array otherwise.
- ClientNode.EnvBounded: the client's lookup is assumed to return at most
  `MAX_PROCESSES` pids for every name; the client's `getPids` also stores into
  an array of that size without a bound check.
- Assignment2.MonitorProcess: requires at most `MAX_PROCESSES` pids found, as
  does `Assignment2.MonitorReports`. `getPids` stores every line `pgrep` prints
  with no bound check (assignment2/proc_nanny.c:299-300), so a longer output
  writes past the array.
- FirstDraft.MonitorAsWritten: requires at most `FIRST_DRAFT_MAX_PROCESSES`
  pids found, as do `FirstDraft.AsWrittenKillsItself` and
  `FirstDraft.LookupKillsItself`. The first draft's `getPids` has no bound
  check either (proc_nanny.c:237-240).
- FirstDraft.GuardedMonitor: keeps the same bound, as does
  `FirstDraft.MonitorReported`, for the same reason.
- ClientNode.Discover: the client's scan adds every pid above 0 and does not
  skip its own pid (proc_nanny_client.c:300-307). A configured name that
  matches the client's program therefore puts the client and its workers on
  the watch-list. A worker assigned one of those pids kills the client or a
  sibling worker, which the model records only as an assignment: the client
  stays `Running`. `Worker.KillsWorker` covers only kills that end the worker
  itself.
- A configuration file longer than the table is modelled, not excluded. The
  client's reader returns `None` and the node becomes `Undefined`;
  assignment2's reader returns `Undefined`; the first draft returns `Overrun`.
- FirstDraft.LaunchMonitors: takes the at most 128 lines that `configLines`
  holds. A longer file is the `Overrun` outcome of `ProcessConfigFile`.
- FirstDraft.MonitorAsWritten: `kill(0, SIGKILL)` signals the whole process
  group, so it also kills the parent and the sibling monitors. Only the
  monitor's own output is modelled. Whether `pgrep` lists the monitor's own
  pid depends on the configured pattern; the model takes the pid list and
  the monitor's pid as inputs.
- FirstDraft.LaunchMonitors: `atoi(configLines[0])` on an empty file dereferences
  NULL; this is modelled as the `NoFirstLine` outcome. `monitorProcess` running in
  each forked child is modelled separately.
- The first draft's pipe creation failures are not modelled (`pipe` is assumed
  to succeed).
- `exitError`'s stderr text is not logged; only the exit status is modelled.
- The assignment3 `ll_free` body is not part of this model. The client uses
  the corrected `LinkedList.Free`.
- The assignment3 `linked_list.c` is not part of this model. The bodies of
  `LinkedList.AddUnique`, `LinkedList.Remove` and `LinkedList.GetIf` follow the
  comments of `procnanny_server/linked_list.h` (lines 49-57).

## Findings

| source | as written | input that shows it | evidently intended | confidence | as-written member | corrected member |
|---|---|---|---|---|---|---|
| assignment2/linked_list.c:51-91 | `ll_removeIf` never decrements `length` and, removing the last node through the head branch, leaves `tail` on the freed node | list [a]; remove every item; then `ll_add(b)`: `length` stays 1, and `b` is linked after the freed node, so head stays NULL | decrement `length` per removal and reset `tail` when the list empties | not executed | LinkedList.RemoveIfThenAddLosesNode | LinkedList.RemoveIf |
| assignment2/linked_list.c:13-21 | `ll_free` releases every node but leaves `length` and `tail` as they were | free a one-item list: head NULL, length 1, tail dangling; a later `ll_add` writes into freed memory | reset the list as `ll_init` does | not executed | LinkedList.FreeKeepsStaleFields | LinkedList.Free |
| assignment2/proc_nanny.c:73-84 | `trimWhitespace` runs on the name even when the line stored none, and `strlen("") - 1` wraps around | a configuration file with one blank line | trim only a non-empty name, as the main server does at assignment3/proc_nanny_server.c:186-188 | not executed | Config.LenientBlankLineIsUndefined | Config.LenientBlankLineGuarded |
| proc_nanny.c:134-148 | the kill loop tests `pids[i] != -1`, so the 0 filler of `{-1}` reaches `kill(0, ...)`, which signals the monitor's own process group before the count is written | `pgrep` finds one live process 4242: the monitor kills 4242 and then its own group | test `pids[i] > 0 && pids[i] != getpid()`, as assignment2/proc_nanny.c:187 does | not executed | FirstDraft.AsWrittenExample | FirstDraft.GuardedMonitor |
| proc_nanny.c:134-148 | the kill loop has no `!= getpid()` test, and `pgrep` matches by pattern, so the monitor can kill itself in the middle of the loop | `pgrep` finds the monitor's own pid 777 before a live 888: the monitor dies at 777, 888 is never signalled, and no count is written | test `pids[i] > 0 && pids[i] != getpid()`, as assignment2/proc_nanny.c:187 does | not executed | FirstDraft.AsWrittenFindsItself | FirstDraft.GuardedMonitor |
| assignment3/proc_nanny_server.c:291-304 | the SIGHUP loop sends every line to `newSocket` once per occupied slot instead of to each slot's descriptor `sd` | clients on descriptors 4 and 5, 5 accepted last, one program configured: 4 gets nothing, 5 gets the line twice | `send(sd, ...)` | not executed | SlotTable.RebroadcastExample | SlotTable.RebroadcastReachesEveryClient |
| assignment3/procnanny_server/proc_nanny_server.c:319-323 | `activity` is never checked; `select` leaves the sets unmodified when a signal interrupts it, so the listening socket still tests ready and `accept` waits for a new connection before the pass can end and the flag be polled | SIGINT arrives while `select` waits and no client ever connects: `accept` never returns and the server never shuts down | start the loop over on `activity == -1`, as the main server does at assignment3/proc_nanny_server.c:276-280 | not executed | VariantNode.InterruptedPassWaitsForClients | VariantNode.CheckedSignalDuringSelect |

=== FILE: assignment2.dfy ===
/** The assignment2 draft of the client. It has
    - a lenient configuration reader that never rejects a line;
    - a watch-list built with plain `ll_add` from every pid `pgrep -x` finds
      for each configured name;
    - the monitor a forked child runs for one name;
    - the parent's tally of the counts the monitors write back on a pipe.
    In the draft as written the fork loop and `readPipes` are commented
    out of `beginProcNanny`, so the monitor and the tally are modelled as
    the functions they are, not as steps of a run. */
module Assignment2 {
  import opened Wrappers
  import opened Limits
  import opened CText
  import opened CNum
  import opened Config
  import opened Records
  import opened Lookup
  import opened Events
  import LL = LinkedList

  // ---------------------------------------------------------------------------
  // readConfigurationFile: every line is scanned into the zero-initialised
  // global table and the stored name is trimmed; no line is an error.

  /** Outcome of `readConfigurationFile`.
      - `CannotOpen`: `fopen` failed and the program exits with `EXIT_FAILURE`.
      - `Undefined`: a blank line led `trimWhitespace` into an empty name,
        or the file has more lines than the table and the loop stores past
        its end.
      - `Loaded`: the table the reader left. */
  datatype Loaded = CannotOpen | Undefined | Loaded(table: Table)

  /** `readConfigurationFile`. The loop has no bound: line
      `CONFIG_FILE_LINES` is scanned into a slot past the end of the table. */
  function ReadConfiguration(file: Option<seq<string>>): (r: Loaded)
    ensures file.None? <==> r.CannotOpen?
    ensures file.Some? ==> (r.Undefined? <==>
      CONFIG_FILE_LINES < |file.value| || exists i :: 0 <= i < |file.value| && AllSpace(file.value[i]))
    ensures r.Loaded? ==> |r.table| == CONFIG_FILE_LINES && |file.value| <= CONFIG_FILE_LINES
    ensures r.Loaded? ==> forall i :: 0 <= i < |file.value| ==> r.table[i] == ScanInto(EmptySlot, ScanNameInt(file.value[i]))
    ensures r.Loaded? ==> forall i :: |file.value| <= i < CONFIG_FILE_LINES ==> r.table[i] == EmptySlot
  {
    match file
    case None => CannotOpen
    case Some(lines) =>
      if CONFIG_FILE_LINES < |lines| then Loaded.Undefined
      else
        var scans := ScanAll(lines);
        match ReadLenientAsWritten(ClearedTable(), scans, 0)
        case None =>
          BlankLineUndefined(lines);
          Loaded.Undefined
        case Some(t) =>
          BlankLineUndefined(lines);
          Loaded(t)
  }

  /** A fresh table has no name, so the trim goes wrong exactly on a blank
      line. */
  lemma BlankLineUndefined(lines: seq<string>)
    requires |lines| <= CONFIG_FILE_LINES
    ensures ReadLenientAsWritten(ClearedTable(), ScanAll(lines), 0).None?
            <==> exists i :: 0 <= i < |lines| && AllSpace(lines[i])
  {
    var scans := ScanAll(lines);
    var t := ClearedTable();
    if exists i :: 0 <= i < |lines| && AllSpace(lines[i]) {
      var i :| 0 <= i < |lines| && AllSpace(lines[i]);
      assert scans[i].NoItems? && t[i].name == [];
    } else {
      forall i | 0 <= i < |scans| ensures !(scans[i].NoItems? && t[i].name == []) {
        assert !AllSpace(lines[i]);
      }
    }
  }

  /** On a file whose every line holds a name and a number the lenient reader
      loads the same table as the assignment3 client's strict reader. */
  lemma LenientAgreesWithStrict(lines: seq<string>)
    requires |lines| <= CONFIG_FILE_LINES
    requires forall i :: 0 <= i < |lines| ==> Complete(lines[i])
    ensures ReadClient(ClearedTable(), lines).Some? && ReadClient(ClearedTable(), lines).value.Success?
    ensures ReadConfiguration(Some(lines)) == Loaded(ReadClient(ClearedTable(), lines).value.value)
  {
    forall i | 0 <= i < |lines| ensures !AllSpace(lines[i]) {
      assert ScanNameInt(lines[i]).NameAndNumber?;
    }
    var r := ReadConfiguration(Some(lines));
    var s := ReadClient(ClearedTable(), lines).value.value;
    assert |r.table| == |s|;
    forall i | 0 <= i < |s| ensures r.table[i] == s[i] {
      if i < |lines| {
        assert Complete(lines[i]);
      }
    }
  }

  /** A line with a name and no number keeps the runtime the zeroed table
      held, 0, instead of being rejected. */
  lemma NameOnlyLineLoadsZeroRuntime(name: string)
    requires Token(name)
    ensures ReadConfiguration(Some([name + "\n"])).Loaded?
    ensures ReadConfiguration(Some([name + "\n"])).table[0] == ProgramConfig(name, 0)
  {
    TokenLengthOfToken(name, "\n");
    var line := name + "\n";
    assert line[..|name|] == name && line[|name|..] == "\n";
    assert !AllSpace(line) by {
      assert !IsSpace(line[0]);
    }
    assert ScanNameInt(line) == NameOnly(name);
  }

  // ---------------------------------------------------------------------------
  // beginProcNanny: the watch-list.

  /** The nodes `beginProcNanny` adds for one slot: one per positive pid of
      the lookup, in order, with the slot's name and runtime. */
  function SlotEntries(c: ProgramConfig, pids: seq<int>): (r: seq<MonitoredProcess>)
    ensures |r| == |Positives(pids)|
    ensures forall j :: 0 <= j < |r| ==> r[j] == MonitoredProcess(Positives(pids)[j], c.name, c.runtime, false)
  {
    var ps := Positives(pids);
    seq(|ps|, j requires 0 <= j < |ps| => MonitoredProcess(ps[j], c.name, c.runtime, false))
  }

  /** `ll_add` applied to each element in turn. */
  function AddAll(l: LL.List<MonitoredProcess>, es: seq<MonitoredProcess>): (r: LL.List<MonitoredProcess>)
    requires LL.Valid(l)
    ensures LL.Valid(r) && r.items == l.items + es
    ensures r.nodeSize == l.nodeSize && r.comparator == l.comparator
    decreases |es|
  {
    if |es| == 0 then l
    else
      var r := AddAll(LL.Add(l, es[0]), es[1..]);
      assert l.items + [es[0]] + es[1..] == l.items + es;
      r
  }

  /** The number of pids the watch-list receives from slot `k` on: every
      positive pid of every non-empty name, duplicates included. */
  function Found(table: Table, lookup: string -> seq<int>, k: nat): nat
    requires k <= |table|
    decreases |table| - k
  {
    if k == |table| then 0
    else (if table[k].name == [] then 0 else |Positives(lookup(table[k].name))|) + Found(table, lookup, k + 1)
  }

  /** `e` is a node some slot from `k` on accounts for. */
  ghost predicate Listed(table: Table, lookup: string -> seq<int>, k: nat, e: MonitoredProcess) {
    exists i :: k <= i < |table| && table[i].name != [] && e == MonitoredProcess(e.pid, table[i].name, table[i].runtime, false)
                && e.pid > 0 && e.pid in lookup(table[i].name)
  }

  /** Every `getPids` result fits the `MAX_PROCESSES` array. */
  ghost predicate Bounded(lookup: string -> seq<int>) {
    forall name :: |lookup(name)| <= MAX_PROCESSES
  }

  /** The `for (i ...)` loop of `beginProcNanny` from slot `k` on, with
      `lookup` standing for `pgrep -x`. Each slot's pids land in a
      `{-1}`-initialised array first. */
  function Watch(table: Table, lookup: string -> seq<int>, k: nat, l: LL.List<MonitoredProcess>): (r: LL.List<MonitoredProcess>)
    requires k <= |table| && LL.Valid(l) && Bounded(lookup)
    ensures LL.Valid(r) && r.nodeSize == l.nodeSize && r.comparator == l.comparator
    ensures |r.items| == |l.items| + Found(table, lookup, k)
    ensures r.items[..|l.items|] == l.items
    ensures forall j :: |l.items| <= j < |r.items| ==> Listed(table, lookup, k, r.items[j])
    ensures forall i, p :: k <= i < |table| && table[i].name != [] && p > 0 && p in lookup(table[i].name)
              ==> MonitoredProcess(p, table[i].name, table[i].runtime, false) in r.items[|l.items|..]
    decreases |table| - k
  {
    if k == |table| then l
    else if table[k].name == [] then
      var r := Watch(table, lookup, k + 1, l);
      ListedFrom(table, lookup, k, l, r);
      r
    else
      var found := lookup(table[k].name);
      var pids := PidArray(found, MAX_PROCESSES);
      PidArrayPositives(found, MAX_PROCESSES);
      var es := SlotEntries(table[k], pids);
      var l1 := AddAll(l, es);
      var r := Watch(table, lookup, k + 1, l1);
      WatchStep(table, lookup, k, l, es, l1, r);
      r
  }

  /** The frame of an empty slot: nothing is added for it. */
  lemma ListedFrom(table: Table, lookup: string -> seq<int>, k: nat, l: LL.List<MonitoredProcess>, r: LL.List<MonitoredProcess>)
    requires k < |table| && table[k].name == []
    requires |l.items| <= |r.items|
    requires forall j :: |l.items| <= j < |r.items| ==> Listed(table, lookup, k + 1, r.items[j])
    requires forall i, p :: k + 1 <= i < |table| && table[i].name != [] && p > 0 && p in lookup(table[i].name)
              ==> MonitoredProcess(p, table[i].name, table[i].runtime, false) in r.items[|l.items|..]
    ensures forall j :: |l.items| <= j < |r.items| ==> Listed(table, lookup, k, r.items[j])
    ensures forall i, p :: k <= i < |table| && table[i].name != [] && p > 0 && p in lookup(table[i].name)
              ==> MonitoredProcess(p, table[i].name, table[i].runtime, false) in r.items[|l.items|..]
  {
    forall j | |l.items| <= j < |r.items| ensures Listed(table, lookup, k, r.items[j]) {
      var e := r.items[j];
      var i :| k + 1 <= i < |table| && table[i].name != [] && e == MonitoredProcess(e.pid, table[i].name, table[i].runtime, false)
                && e.pid > 0 && e.pid in lookup(table[i].name);
    }
  }

  /** One non-empty slot: its nodes follow the earlier ones and precede the
      later slots' nodes. */
  lemma WatchStep(table: Table, lookup: string -> seq<int>, k: nat, l: LL.List<MonitoredProcess>,
                  es: seq<MonitoredProcess>, l1: LL.List<MonitoredProcess>, r: LL.List<MonitoredProcess>)
    requires k < |table| && table[k].name != [] && Bounded(lookup)
    requires es == SlotEntries(table[k], lookup(table[k].name))
    requires l1.items == l.items + es
    requires |r.items| == |l1.items| + Found(table, lookup, k + 1) && r.items[..|l1.items|] == l1.items
    requires forall j :: |l1.items| <= j < |r.items| ==> Listed(table, lookup, k + 1, r.items[j])
    requires forall i, p :: k + 1 <= i < |table| && table[i].name != [] && p > 0 && p in lookup(table[i].name)
              ==> MonitoredProcess(p, table[i].name, table[i].runtime, false) in r.items[|l1.items|..]
    ensures |r.items| == |l.items| + Found(table, lookup, k)
    ensures r.items[..|l.items|] == l.items
    ensures forall j :: |l.items| <= j < |r.items| ==> Listed(table, lookup, k, r.items[j])
    ensures forall i, p :: k <= i < |table| && table[i].name != [] && p > 0 && p in lookup(table[i].name)
              ==> MonitoredProcess(p, table[i].name, table[i].runtime, false) in r.items[|l.items|..]
  {
    assert r.items[..|l.items|] == r.items[..|l1.items|][..|l.items|];
    forall j | |l.items| <= j < |r.items| ensures Listed(table, lookup, k, r.items[j]) {
      StepListed(table, lookup, k, l.items, es, r.items, j);
    }
    forall i, p | k <= i < |table| && table[i].name != [] && p > 0 && p in lookup(table[i].name)
      ensures MonitoredProcess(p, table[i].name, table[i].runtime, false) in r.items[|l.items|..]
    {
      StepComplete(table, lookup, k, l.items, es, r.items, i, p);
    }
  }

  /** A node of the step is accounted for by slot `k` or a later one. */
  lemma StepListed(table: Table, lookup: string -> seq<int>, k: nat, before: seq<MonitoredProcess>,
                   es: seq<MonitoredProcess>, after: seq<MonitoredProcess>, j: nat)
    requires k < |table| && table[k].name != []
    requires es == SlotEntries(table[k], lookup(table[k].name))
    requires |before + es| <= |after| && after[..|before + es|] == before + es
    requires forall j :: |before + es| <= j < |after| ==> Listed(table, lookup, k + 1, after[j])
    requires |before| <= j < |after|
    ensures Listed(table, lookup, k, after[j])
  {
    var e := after[j];
    if j < |before + es| {
      assert e == (before + es)[j] == es[j - |before|];
      assert e.pid in Positives(lookup(table[k].name));
      assert k <= k < |table| && table[k].name != [] && e == MonitoredProcess(e.pid, table[k].name, table[k].runtime, false)
                && e.pid > 0 && e.pid in lookup(table[k].name);
    } else {
      assert Listed(table, lookup, k + 1, e);
      var i :| k + 1 <= i < |table| && table[i].name != [] && e == MonitoredProcess(e.pid, table[i].name, table[i].runtime, false)
                && e.pid > 0 && e.pid in lookup(table[i].name);
    }
  }

  /** A pid of slot `k` or a later one is on the list after the step. */
  lemma StepComplete(table: Table, lookup: string -> seq<int>, k: nat, before: seq<MonitoredProcess>,
                     es: seq<MonitoredProcess>, after: seq<MonitoredProcess>, i: nat, p: int)
    requires k < |table| && table[k].name != []
    requires es == SlotEntries(table[k], lookup(table[k].name))
    requires |before + es| <= |after| && after[..|before + es|] == before + es
    requires forall i, p :: k + 1 <= i < |table| && table[i].name != [] && p > 0 && p in lookup(table[i].name)
              ==> MonitoredProcess(p, table[i].name, table[i].runtime, false) in after[|before + es|..]
    requires k <= i < |table| && table[i].name != [] && p > 0 && p in lookup(table[i].name)
    ensures MonitoredProcess(p, table[i].name, table[i].runtime, false) in after[|before|..]
  {
    var e := MonitoredProcess(p, table[i].name, table[i].runtime, false);
    var n := |before|;
    var n1 := |before + es|;
    if i == k {
      var ps := Positives(lookup(table[k].name));
      var m :| 0 <= m < |ps| && ps[m] == p;
      assert after[n + m] == (before + es)[n + m] == es[m] == e;
      assert after[n..][m] == e;
    } else {
      assert e in after[n1..];
      var m :| 0 <= m < |after[n1..]| && after[n1..][m] == e;
      assert after[n..][n1 - n + m] == e;
    }
  }

  /** `beginProcNanny`'s watch-list: `ll_init` (the assignment2 list has no
      comparator) followed by the slot loop. */
  function WatchList(table: Table, lookup: string -> seq<int>): (r: LL.List<MonitoredProcess>)
    requires Bounded(lookup)
    ensures LL.Valid(r) && r.comparator.None?
    ensures |r.items| == Found(table, lookup, 0)
    ensures forall j :: 0 <= j < |r.items| ==> Listed(table, lookup, 0, r.items[j])
    ensures forall i, p :: 0 <= i < |table| && table[i].name != [] && p > 0 && p in lookup(table[i].name)
              ==> MonitoredProcess(p, table[i].name, table[i].runtime, false) in r.items
  {
    var l := LL.Init(0, None);
    var r := Watch(table, lookup, 0, l);
    assert r.items[|l.items|..] == r.items;
    r
  }

  lemma {:induction false} FoundOfEmpty(table: Table, lookup: string -> seq<int>, k: nat)
    requires k <= |table|
    requires forall i :: k <= i < |table| ==> table[i].name == []
    ensures Found(table, lookup, k) == 0
    decreases |table| - k
  {
    if k < |table| {
      FoundOfEmpty(table, lookup, k + 1);
    }
  }

  /** Two slots naming the same program put every one of its pids on the
      list twice: `ll_add` does not look for an equal node. */
  lemma DuplicatesKept(name: string, runtime: Uint32, p: int)
    requires |name| > 0 && p > 0
    ensures var c := ProgramConfig(name, runtime);
            var e := MonitoredProcess(p, name, runtime, false);
            WatchList(ClearedTable()[0 := c][1 := c], _ => [p]).items == [e, e]
  {
    var c := ProgramConfig(name, runtime);
    var e := MonitoredProcess(p, name, runtime, false);
    var table := ClearedTable()[0 := c][1 := c];
    var lookup: string -> seq<int> := _ => [p];
    FoundOfEmpty(table, lookup, 2);
    assert Positives([p]) == [p];
    var r := WatchList(table, lookup);
    assert |r.items| == 2;
    forall j | 0 <= j < 2 ensures r.items[j] == e {
      assert Listed(table, lookup, 0, r.items[j]);
    }
  }

  // ---------------------------------------------------------------------------
  // monitorProcess: one forked child per configured name.

  /** What a monitor child leaves behind: the log lines it writes to the log
      pipe, the pids it killed in order, and the text it writes to the count
      pipe (`None` when it exits early without writing). */
  datatype Monitor = Monitor(log: seq<LogLine>, killed: seq<int>, count: Option<string>)

  function Initializing(name: string, ps: seq<int>): (r: seq<LogLine>)
    ensures |r| == |ps|
    ensures forall j :: 0 <= j < |ps| ==> r[j] == Logged("Info", InitializingMessage(name, ps[j]))
  {
    seq(|ps|, j requires 0 <= j < |ps| => Logged("Info", InitializingMessage(name, ps[j])))
  }

  function Killings(name: string, runtime: Uint32, ps: seq<int>): (r: seq<LogLine>)
    ensures |r| == |ps|
    ensures forall j :: 0 <= j < |ps| ==> r[j] == Logged("Action", KilledMessage(ps[j], name, runtime))
  {
    seq(|ps|, j requires 0 <= j < |ps| => Logged("Action", KilledMessage(ps[j], name, runtime)))
  }

  /** `monitorProcess(name, runtime)`. `found` is what `pgrep -x` printed,
      `self` is `getpid()` and `alive` answers `kill(pid, 0) == 0` after the
      sleep. */
  function MonitorProcess(name: string, runtime: Uint32, found: seq<int>, self: int, alive: int -> bool): (r: Monitor)
    requires |found| <= MAX_PROCESSES
    ensures r.count.None? <==> Positives(found) == []
    ensures r.count.None? ==> r.killed == [] && r.log == [Logged("Info", NotFoundMessage(name))]
    ensures r.count.Some? ==> r.count.value == IntToString(|r.killed|) + "\n"
    ensures r.count.Some? ==> r.log == Initializing(name, Positives(found)) + Killings(name, runtime, r.killed)
    ensures |r.killed| <= |Positives(found)|
    ensures forall p :: p in r.killed <==> p in found && p > 0 && p != self && alive(p)
  {
    var pids := PidArray(found, MAX_PROCESSES);
    PidArrayPositives(found, MAX_PROCESSES);
    var ps := Positives(pids);
    if |ps| == 0 then Monitor([Logged("Info", NotFoundMessage(name))], [], None)
    else
      var killed := LL.Keep(ps, p => p == self || !alive(p));
      Monitor(Initializing(name, ps) + Killings(name, runtime, killed), killed, Some(IntToString(|killed|) + "\n"))
  }

  /** A monitor's count line agrees with its kills, which fit in the pid
      array. */
  predicate Reported(m: Monitor) {
    |m.killed| <= MAX_PROCESSES
    && (m.count.None? ==> m.killed == [])
    && (m.count.Some? ==> m.count.value == IntToString(|m.killed|) + "\n")
  }

  lemma MonitorReports(name: string, runtime: Uint32, found: seq<int>, self: int, alive: int -> bool)
    requires |found| <= MAX_PROCESSES
    ensures Reported(MonitorProcess(name, runtime, found, self, alive))
  {
  }

  // ---------------------------------------------------------------------------
  // readPipes: the parent's tally of the count pipe.

  /** `fgets(buf, size, fp)` until end of file: each chunk ends after a
      newline or after `size - 1` characters. */
  function Fgets(text: string, size: nat): (r: seq<string>)
    requires size >= 2
    ensures Concat(r) == text
    ensures forall k :: 0 <= k < |r| ==> 0 < |r[k]| < size
    decreases |text|
  {
    if |text| == 0 then []
    else
      var nl := NewlineIndex(text);
      var line := if nl < |text| then nl + 1 else |text|;
      var n := if line < size - 1 then line else size - 1;
      var rest := Fgets(text[n..], size);
      assert text == text[..n] + text[n..];
      assert ([text[..n]] + rest)[1..] == rest;
      [text[..n]] + rest
  }

  /** The `while (fgets(...))` loop: each chunk's `%d` value is added, and a
      chunk without one adds 0 because `numberInteger` is reset every time. */
  function Tally(chunks: seq<string>): int {
    if |chunks| == 0 then 0 else Atoi(chunks[0]) + Tally(chunks[1..])
  }

  /** The total `readPipes` reports for what the count pipe delivered. */
  function ReadCounts(counts: string): int {
    Tally(Fgets(counts, 10))
  }

  /** "Exiting. %d process(es) killed." */
  function ExitMessage(total: int): string {
    "Exiting. " + IntToString(total) + " process(es) killed."
  }

  /** What `readPipes` appends to the log file: the log pipe's bytes as they
      came, then the exit line with the tally of the count pipe. */
  function ReadPipes(messages: string, counts: string): (r: seq<LogLine>)
    ensures |r| == 2 && r[0] == Raw(messages)
    ensures r[1] == Logged("Info", ExitMessage(ReadCounts(counts)))
  {
    [Raw(messages), Logged("Info", ExitMessage(ReadCounts(counts)))]
  }

  /** Short newline-terminated lines come back from `fgets` unchanged. */
  lemma {:induction false} FgetsShortLines(ls: seq<string>, size: nat)
    requires size >= 2
    requires forall k :: 0 <= k < |ls| ==> IsChunk(ls[k]) && ls[k][|ls[k]| - 1] == '\n' && |ls[k]| < size
    ensures Fgets(Concat(ls), size) == ls
    decreases |ls|
  {
    if |ls| > 0 {
      var l := ls[0];
      var text := Concat(ls);
      assert text == l + Concat(ls[1..]);
      assert text[..|l|] == l;
      NewlineIndexPrefix(l, Concat(ls[1..]));
      assert text[|l|..] == Concat(ls[1..]);
      FgetsShortLines(ls[1..], size);
    }
  }

  /** The count lines the monitors that got as far as counting wrote, in the
      order the pipe delivered them. */
  function CountLines(ms: seq<Monitor>): seq<string> {
    if |ms| == 0 then []
    else (if ms[0].count.Some? then [ms[0].count.value] else []) + CountLines(ms[1..])
  }

  function TotalKilled(ms: seq<Monitor>): nat {
    if |ms| == 0 then 0 else |ms[0].killed| + TotalKilled(ms[1..])
  }

  /** A count line is one short chunk that ends in a newline. */
  lemma CountLine(n: nat)
    requires n <= MAX_PROCESSES
    ensures var l := IntToString(n) + "\n";
            IsChunk(l) && l[|l| - 1] == '\n' && |l| < 10
  {
    var l := IntToString(n) + "\n";
    assert Pow10(4) == 10000;
    NatToStringLength(n, 4);
    forall m | 0 <= m < |l| - 1 ensures l[m] != '\n' {
      assert l[m] == IntToString(n)[m];
    }
  }

  /** Every count line on the pipe is a short chunk ending in a newline. */
  lemma {:induction false} CountLinesAreChunks(ms: seq<Monitor>)
    requires forall k :: 0 <= k < |ms| ==> Reported(ms[k])
    ensures forall k :: 0 <= k < |CountLines(ms)| ==> var l := CountLines(ms)[k];
              IsChunk(l) && l[|l| - 1] == '\n' && |l| < 10
    decreases |ms|
  {
    if |ms| > 0 {
      CountLinesAreChunks(ms[1..]);
      var rest := CountLines(ms[1..]);
      if ms[0].count.Some? {
        var l := ms[0].count.value;
        CountLine(|ms[0].killed|);
        assert CountLines(ms) == [l] + rest;
      } else {
        assert CountLines(ms) == rest;
      }
    }
  }

  /** Tallying the count lines one by one adds up the monitors' kills. */
  lemma {:induction false} CountLinesTally(ms: seq<Monitor>)
    requires forall k :: 0 <= k < |ms| ==> Reported(ms[k])
    ensures Tally(CountLines(ms)) == TotalKilled(ms)
    decreases |ms|
  {
    if |ms| > 0 {
      CountLinesTally(ms[1..]);
      var rest := CountLines(ms[1..]);
      if ms[0].count.Some? {
        var l := ms[0].count.value;
        ScanIntToString(|ms[0].killed|, "\n");
        assert Atoi(l) == |ms[0].killed|;
        assert CountLines(ms) == [l] + rest;
        assert ([l] + rest)[1..] == rest;
      } else {
        assert CountLines(ms) == rest;
      }
    }
  }

  /** The exit total is the sum of the monitors' kills, whatever order their
      count lines reached the pipe in. */
  lemma ReadPipesSumsKills(ms: seq<Monitor>, messages: string)
    requires forall k :: 0 <= k < |ms| ==> Reported(ms[k])
    ensures ReadCounts(Concat(CountLines(ms))) == TotalKilled(ms)
    ensures ReadPipes(messages, Concat(CountLines(ms)))[1] == Logged("Info", ExitMessage(TotalKilled(ms)))
  {
    CountLinesAreChunks(ms);
    CountLinesTally(ms);
    FgetsShortLines(CountLines(ms), 10);
  }
}

=== FILE: client.dfy ===
/** The assignment3 client node: the supervision loop of `beginProcNanny`
    over the watch-list (`monitoredProcesses`) and the worker pool
    (`childProcesses`). Each call of a C function becomes a function from
    state to state; the operating system is abstract: process lookup, the
    result of `fork`, the bytes a worker has written back, and the content
    of the configuration file are inputs, and what the node writes to
    workers, kills and logs is recorded in the state. */
module ClientNode {
  import opened Wrappers
  import opened Limits
  import opened Config
  import opened Records
  import opened Lookup
  import opened Worker
  import opened Events
  import opened Pairing
  import LL = LinkedList

  /** A command line written into the pipe of the worker at position `worker`
      of the pool. */
  datatype Command = Command(worker: nat, text: string)

  /** The client's globals. `terminated` lists the pids `cleanUp` sent
      `kill -9` to, in order. */
  datatype Client = Client(
    config: Table,
    watch: LL.List<MonitoredProcess>,
    pool: LL.List<ChildProcess>,
    killed: int,
    firstReRead: bool,
    hup: bool,
    interrupt: bool,
    alarm: bool,
    commands: seq<Command>,
    terminated: seq<int>,
    log: seq<LogLine>,
    status: Status)

  /** What the node reads from outside during one step: the configuration
      file's path and lines (`None` when it cannot be opened), the pids
      `pgrep -x` prints for a name, and the result of the n-th `fork` as
      the parent sees it. */
  datatype Env = Env(configPath: string, configFile: Option<seq<string>>,
                     lookup: string -> seq<int>, fork: nat -> int)

  /** Lookups the C code can hold: `getPids` stores into an array of
      `MAX_PROCESSES` pids without a bound check. */
  ghost predicate EnvBounded(env: Env) {
    forall name :: |env.lookup(name)| <= MAX_PROCESSES
  }

  /** The watch-list as `ll_init` set it up: deduplicated by pid. */
  ghost predicate WatchList(l: LL.List<MonitoredProcess>) {
    LL.Valid(l) && l.comparator == Some(SamePid)
  }

  /** The pool as `ll_init` set it up: no comparator. */
  ghost predicate PoolList(l: LL.List<ChildProcess>) {
    LL.Valid(l) && l.comparator == None
  }

  /** The node's invariant: well-formed lists, a full configuration table,
      and the monitored entries paired one to one with the busy workers. */
  ghost predicate Inv(s: Client) {
    WatchList(s.watch) && PoolList(s.pool) && |s.config| == CONFIG_FILE_LINES
    && Paired(s.watch.items, s.pool.items)
  }

  // ---------------------------------------------------------------------------
  // Discovery: `checkForNewMonitoredProcesses`.

  /** The entry discovery builds for pid `pid` of configuration entry `c`. */
  function Found(c: ProgramConfig, pid: int): (e: MonitoredProcess)
    ensures !e.beingMonitored && e.pid == pid
  {
    MonitoredProcess(pid, c.name, c.runtime, false)
  }

  /** The pids on a watch-list. */
  function Pids(items: seq<MonitoredProcess>): (r: set<int>)
    ensures forall k :: 0 <= k < |items| ==> items[k].pid in r
  {
    set k | 0 <= k < |items| :: items[k].pid
  }

  /** `b` is `a` with entries appended. */
  predicate Extends(a: seq<MonitoredProcess>, b: seq<MonitoredProcess>) {
    |a| <= |b| && forall k {:trigger b[k]} :: 0 <= k < |a| ==> b[k] == a[k]
  }

  lemma ExtendsTrans(a: seq<MonitoredProcess>, b: seq<MonitoredProcess>, c: seq<MonitoredProcess>)
    requires Extends(a, b) && Extends(b, c)
    ensures Extends(a, c)
  {
  }

  lemma ExtendsPids(a: seq<MonitoredProcess>, b: seq<MonitoredProcess>)
    requires Extends(a, b)
    ensures Pids(a) <= Pids(b)
  {
    forall x | x in Pids(a) ensures x in Pids(b) {
      var k :| 0 <= k < |a| && a[k].pid == x;
      assert b[k] == a[k];
    }
  }

  /** Appending unmonitored entries leaves the monitored jobs as they were. */
  lemma MonitoredJobsExtend(a: seq<MonitoredProcess>, b: seq<MonitoredProcess>)
    requires Extends(a, b)
    requires forall k :: |a| <= k < |b| ==> !b[k].beingMonitored
    ensures MonitoredJobs(b) == MonitoredJobs(a)
  {
    forall x | x in MonitoredJobs(b) ensures x in MonitoredJobs(a) {
      var k :| 0 <= k < |b| && b[k].beingMonitored && EntryJob(b[k]) == x;
      assert a[k] == b[k];
    }
    forall x | x in MonitoredJobs(a) ensures x in MonitoredJobs(b) {
      var k :| 0 <= k < |a| && a[k].beingMonitored && EntryJob(a[k]) == x;
      assert a[k] == b[k];
    }
  }

  /** An entry discovery made for `c` from one of `pids`. */
  predicate FoundIn(c: ProgramConfig, pids: seq<int>, e: MonitoredProcess) {
    e == Found(c, e.pid) && e.pid in pids && e.pid > 0
  }

  /** `ll_add_unique` of an unmonitored entry on the watch-list: afterwards
      the pid is present exactly once when it was absent before, and the
      monitored jobs are as they were. */
  function AddOne(watch: LL.List<MonitoredProcess>, e: MonitoredProcess): (r: LL.List<MonitoredProcess>)
    requires WatchList(watch) && !e.beingMonitored
    ensures WatchList(r) && r.nodeSize == watch.nodeSize
    ensures r.items == watch.items || r.items == watch.items + [e]
    ensures e.pid in Pids(r.items)
    ensures (forall k :: 0 <= k < |watch.items| ==> watch.items[k].pid != e.pid) ==> r.items == watch.items + [e]
    ensures UniquePids(watch.items) ==> UniquePids(r.items)
    ensures MonitoredJobs(r.items) == MonitoredJobs(watch.items)
  {
    var r := LL.AddUnique(watch, e);
    AddUniqueFinds(watch, e);
    AddFoundStep(watch, e, r);
    r
  }

  lemma AddUniqueFinds(watch: LL.List<MonitoredProcess>, e: MonitoredProcess)
    requires WatchList(watch)
    ensures e.pid in Pids(LL.AddUnique(watch, e).items)
  {
    var r := LL.AddUnique(watch, e);
    if LL.Member(watch.items, SamePid, e) {
      var i :| 0 <= i < |watch.items| && SamePid(watch.items[i], e);
      assert r.items[i].pid == e.pid;
    } else {
      assert r.items[|watch.items|] == e;
    }
  }

  /** Adding, with `ll_add_unique`, an entry for every pid > 0 of the array. */
  function AddFound(watch: LL.List<MonitoredProcess>, c: ProgramConfig, pids: seq<int>): (r: LL.List<MonitoredProcess>)
    requires WatchList(watch)
    ensures WatchList(r) && r.nodeSize == watch.nodeSize
    ensures Extends(watch.items, r.items)
    ensures forall k :: |watch.items| <= k < |r.items| ==> FoundIn(c, pids, r.items[k])
    ensures forall j :: 0 <= j < |pids| && pids[j] > 0 ==> pids[j] in Pids(r.items)
    ensures UniquePids(watch.items) ==> UniquePids(r.items)
    decreases |pids|
  {
    if |pids| == 0 then watch
    else
      var w := if pids[0] > 0 then AddOne(watch, Found(c, pids[0])) else watch;
      var r := AddFound(w, c, pids[1..]);
      ExtendsPids(w.items, r.items);
      assert forall j :: 1 <= j < |pids| ==> pids[j] == pids[1..][j - 1];
      assert forall k :: |watch.items| <= k < |r.items| ==> FoundIn(c, pids, r.items[k]) by {
        forall k | |watch.items| <= k < |r.items| ensures FoundIn(c, pids, r.items[k]) {
          if k < |w.items| {
            assert r.items[k] == w.items[k];
          } else {
            assert FoundIn(c, pids[1..], r.items[k]);
          }
        }
      }
      r
  }

  /** One `ll_add_unique` of an unmonitored entry keeps the pids unique and
      the monitored jobs as they were. */
  lemma AddFoundStep(watch: LL.List<MonitoredProcess>, e: MonitoredProcess, w: LL.List<MonitoredProcess>)
    requires WatchList(watch) && !e.beingMonitored
    requires w.items == watch.items || (w.items == watch.items + [e] && !LL.Member(watch.items, SamePid, e))
    ensures UniquePids(watch.items) ==> UniquePids(w.items)
    ensures MonitoredJobs(w.items) == MonitoredJobs(watch.items)
  {
    if w.items != watch.items {
      MonitoredJobsAppend(watch.items, e);
      if UniquePids(watch.items) {
        forall a, b | 0 <= a < b < |w.items| ensures PidAt(w.items, a) != PidAt(w.items, b) {
          if b == |watch.items| {
            assert !SamePid(watch.items[a], e);
          } else {
            UniqueAt(watch.items, a, b);
          }
        }
      }
    }
  }

  /** No pid > 0 among those found. */
  predicate NoneFound(pids: seq<int>) {
    forall j :: 0 <= j < |pids| ==> pids[j] <= 0
  }

  /** The work for one slot with a name: `{-1}` array, `getPids`, and an
      `ll_add_unique` per pid > 0; `numberFound` is the number of those. */
  function DiscoverSlot(watch: LL.List<MonitoredProcess>, c: ProgramConfig, found: seq<int>, cap: nat): (r: (LL.List<MonitoredProcess>, nat))
    requires WatchList(watch) && 0 < cap && |found| <= cap
    ensures WatchList(r.0)
    ensures Extends(watch.items, r.0.items)
    ensures forall k :: |watch.items| <= k < |r.0.items| ==> FoundIn(c, found, r.0.items[k])
    ensures forall j :: 0 <= j < |found| && found[j] > 0 ==> found[j] in Pids(r.0.items)
    ensures UniquePids(watch.items) ==> UniquePids(r.0.items)
    ensures r.1 == 0 <==> NoneFound(found)
  {
    var pids := PidArray(found, cap);
    var w := AddFound(watch, c, pids);
    PidArrayPositives(found, cap);
    assert forall k :: |watch.items| <= k < |w.items| ==> FoundIn(c, found, w.items[k]) by {
      forall k | |watch.items| <= k < |w.items| ensures FoundIn(c, found, w.items[k]) {
        var x := w.items[k].pid;
        assert x in Positives(pids);
      }
    }
    assert forall j :: 0 <= j < |found| ==> found[j] == pids[j];
    PositivesEmpty(found);
    (w, |Positives(pids)|)
  }

  lemma PositivesEmpty(found: seq<int>)
    ensures |Positives(found)| == 0 <==> NoneFound(found)
  {
    if |Positives(found)| > 0 {
      var x := Positives(found)[0];
      var j :| 0 <= j < |found| && found[j] == x;
    }
  }

  /** The lines "No '%s' processes found." for the named slots from `i` on
      whose lookup found nothing. */
  function Missing(config: Table, lookup: string -> seq<int>, i: nat): (r: seq<LogLine>)
    requires i <= |config|
    decreases |config| - i
  {
    if i == |config| then []
    else if NotFoundAt(config, lookup, i) then
      [Logged("Info", NotFoundMessage(config[i].name))] + Missing(config, lookup, i + 1)
    else Missing(config, lookup, i + 1)
  }

  /** What discovery changes: the watch-list and the log. */
  datatype Discovered = Discovered(watch: LL.List<MonitoredProcess>, log: seq<LogLine>)

  /** The slots `i..` of `checkForNewMonitoredProcesses`. */
  function DiscoverFrom(d: Discovered, config: Table, lookup: string -> seq<int>, cap: nat, logNotFound: bool, i: nat): (r: Discovered)
    requires WatchList(d.watch) && i <= |config|
    requires 0 < cap && forall name :: |lookup(name)| <= cap
    ensures WatchList(r.watch) && r.watch.nodeSize == d.watch.nodeSize
    ensures Extends(d.watch.items, r.watch.items)
    ensures UniquePids(d.watch.items) ==> UniquePids(r.watch.items)
    decreases |config| - i
  {
    if i == |config| then d
    else DiscoverFrom(DiscoverStep(d, config, lookup, cap, logNotFound, i), config, lookup, cap, logNotFound, i + 1)
  }

  /** The log gains a "No '%s' processes found." line exactly for the named
      slots whose lookup found no pid > 0, in slot order, and only when the
      flag is set. */
  lemma {:induction false} DiscoverFromLog(d: Discovered, config: Table, lookup: string -> seq<int>, cap: nat, logNotFound: bool, i: nat)
    requires WatchList(d.watch) && i <= |config|
    requires 0 < cap && forall name :: |lookup(name)| <= cap
    ensures var r := DiscoverFrom(d, config, lookup, cap, logNotFound, i);
      r.log == d.log + (if logNotFound then Missing(config, lookup, i) else [])
    decreases |config| - i
  {
    if i < |config| {
      var d1 := DiscoverStep(d, config, lookup, cap, logNotFound, i);
      DiscoverFromLog(d1, config, lookup, cap, logNotFound, i + 1);
      MissingStep(d.log, d1.log, DiscoverFrom(d1, config, lookup, cap, logNotFound, i + 1).log, config, lookup, logNotFound, i);
    }
  }

  /** Whether slot `i` earns a "No '%s' processes found." line. */
  predicate NotFoundAt(config: Table, lookup: string -> seq<int>, i: nat)
    requires i < |config|
  {
    config[i].name != "" && NoneFound(lookup(config[i].name))
  }

  lemma MissingStep(log: seq<LogLine>, log1: seq<LogLine>, log2: seq<LogLine>, config: Table,
                    lookup: string -> seq<int>, logNotFound: bool, i: nat)
    requires i < |config|
    requires log1 == log + (if logNotFound && NotFoundAt(config, lookup, i) then [Logged("Info", NotFoundMessage(config[i].name))] else [])
    requires log2 == log1 + (if logNotFound then Missing(config, lookup, i + 1) else [])
    ensures log2 == log + (if logNotFound then Missing(config, lookup, i) else [])
  {
    if logNotFound && NotFoundAt(config, lookup, i) {
      assert log2 == log + ([Logged("Info", NotFoundMessage(config[i].name))] + Missing(config, lookup, i + 1));
    } else if !logNotFound {
      assert log2 == log + [];
    }
  }

  /** Slot `i`: nothing for an empty name. */
  function DiscoverStep(d: Discovered, config: Table, lookup: string -> seq<int>, cap: nat, logNotFound: bool, i: nat): (r: Discovered)
    requires WatchList(d.watch) && i < |config|
    requires 0 < cap && forall name :: |lookup(name)| <= cap
    ensures WatchList(r.watch) && r.watch.nodeSize == d.watch.nodeSize
    ensures Extends(d.watch.items, r.watch.items)
    ensures config[i].name == "" ==> r.watch.items == d.watch.items
    ensures UniquePids(d.watch.items) ==> UniquePids(r.watch.items)
    ensures r.log == d.log + (if logNotFound && NotFoundAt(config, lookup, i) then [Logged("Info", NotFoundMessage(config[i].name))] else [])
  {
    var c := config[i];
    if c.name == "" then d
    else
      var slot := DiscoverSlot(d.watch, c, lookup(c.name), cap);
      Discovered(slot.0, if logNotFound && slot.1 == 0 then d.log + [Logged("Info", NotFoundMessage(c.name))] else d.log)
  }

  /** `ds` lists the states of a scan from slot `i` on: `ds[0]` before slot
      `i`, each next state the step of the one before, the last one after
      the final slot. */
  ghost predicate Trace(ds: seq<Discovered>, config: Table, lookup: string -> seq<int>, cap: nat, logNotFound: bool, i: nat)
    requires 0 < cap && forall name :: |lookup(name)| <= cap
  {
    i <= |config| && |ds| == |config| - i + 1 &&
    (forall k :: 0 <= k < |ds| ==> WatchList(ds[k].watch)) &&
    forall k, k1 {:trigger ds[k], ds[k1]} :: 0 <= k && k1 == k + 1 && k1 < |ds| ==>
      ds[k1] == DiscoverStep(ds[k], config, lookup, cap, logNotFound, i + k)
  }

  /** The scan from `d` has a trace, and it ends in the scan's own result. */
  lemma {:induction false} TraceFrom(d: Discovered, config: Table, lookup: string -> seq<int>, cap: nat, logNotFound: bool, i: nat)
    returns (ds: seq<Discovered>)
    requires WatchList(d.watch) && i <= |config|
    requires 0 < cap && forall name :: |lookup(name)| <= cap
    ensures Trace(ds, config, lookup, cap, logNotFound, i) && ds[0] == d
    ensures ds[|ds| - 1] == DiscoverFrom(d, config, lookup, cap, logNotFound, i)
    decreases |config| - i
  {
    if i == |config| {
      ds := [d];
    } else {
      var d1 := DiscoverStep(d, config, lookup, cap, logNotFound, i);
      var rest := TraceFrom(d1, config, lookup, cap, logNotFound, i + 1);
      ds := [d] + rest;
      TraceCons(d, rest, ds, config, lookup, cap, logNotFound, i);
    }
  }

  /** A state followed by the trace of its step is a trace. */
  lemma TraceCons(d: Discovered, rest: seq<Discovered>, ds: seq<Discovered>, config: Table, lookup: string -> seq<int>, cap: nat,
                  logNotFound: bool, i: nat)
    requires WatchList(d.watch) && i < |config|
    requires 0 < cap && forall name :: |lookup(name)| <= cap
    requires Trace(rest, config, lookup, cap, logNotFound, i + 1)
    requires rest[0] == DiscoverStep(d, config, lookup, cap, logNotFound, i)
    requires ds == [d] + rest
    ensures Trace(ds, config, lookup, cap, logNotFound, i)
  {
    TraceConsLists(d, rest, ds, config, lookup, cap, logNotFound, i);
    TraceConsSteps(d, rest, ds, config, lookup, cap, logNotFound, i);
  }

  lemma TraceConsLists(d: Discovered, rest: seq<Discovered>, ds: seq<Discovered>, config: Table, lookup: string -> seq<int>, cap: nat,
                       logNotFound: bool, i: nat)
    requires WatchList(d.watch) && i < |config|
    requires 0 < cap && forall name :: |lookup(name)| <= cap
    requires Trace(rest, config, lookup, cap, logNotFound, i + 1)
    requires ds == [d] + rest
    ensures forall k :: 0 <= k < |ds| ==> WatchList(ds[k].watch)
  {
    forall k | 0 < k < |ds| ensures WatchList(ds[k].watch) {
      assert ds[k] == rest[k - 1];
    }
  }

  lemma TraceConsSteps(d: Discovered, rest: seq<Discovered>, ds: seq<Discovered>, config: Table, lookup: string -> seq<int>, cap: nat,
                       logNotFound: bool, i: nat)
    requires WatchList(d.watch) && i < |config|
    requires 0 < cap && forall name :: |lookup(name)| <= cap
    requires Trace(rest, config, lookup, cap, logNotFound, i + 1)
    requires rest[0] == DiscoverStep(d, config, lookup, cap, logNotFound, i)
    requires ds == [d] + rest
    requires forall k :: 0 <= k < |ds| ==> WatchList(ds[k].watch)
    ensures forall k, k1 {:trigger ds[k], ds[k1]} :: 0 <= k && k1 == k + 1 && k1 < |ds| ==>
      ds[k1] == DiscoverStep(ds[k], config, lookup, cap, logNotFound, i + k)
  {
    forall k, k1 | 0 <= k && k1 == k + 1 && k1 < |ds|
      ensures ds[k1] == DiscoverStep(ds[k], config, lookup, cap, logNotFound, i + k)
    {
      assert ds[k1] == rest[k];
      if k > 0 {
        assert ds[k] == rest[k - 1];
        assert rest[k] == DiscoverStep(rest[k - 1], config, lookup, cap, logNotFound, i + 1 + (k - 1));
      }
    }
  }

  /** Along a trace the watch-list only grows at the end. */
  lemma {:induction false} TraceExtends(ds: seq<Discovered>, config: Table, lookup: string -> seq<int>, cap: nat, logNotFound: bool,
                                        i: nat, a: nat, b: nat)
    requires 0 < cap && forall name :: |lookup(name)| <= cap
    requires Trace(ds, config, lookup, cap, logNotFound, i) && a <= b < |ds|
    ensures Extends(ds[a].watch.items, ds[b].watch.items)
    decreases b - a
  {
    if a < b {
      assert ds[a + 1] == DiscoverStep(ds[a], config, lookup, cap, logNotFound, i + a);
      TraceExtends(ds, config, lookup, cap, logNotFound, i, a + 1, b);
      ExtendsTrans(ds[a].watch.items, ds[a + 1].watch.items, ds[b].watch.items);
    }
  }

  /** The slot, from state `a` of the trace on, whose step added the final
      entry at `k`. */
  lemma {:induction false} SlotOf(ds: seq<Discovered>, config: Table, lookup: string -> seq<int>, cap: nat, logNotFound: bool,
                                   i: nat, a: nat, k: nat) returns (m: nat)
    requires 0 < cap && forall name :: |lookup(name)| <= cap
    requires Trace(ds, config, lookup, cap, logNotFound, i) && a < |ds|
    requires |ds[a].watch.items| <= k < |ds[|ds| - 1].watch.items|
    ensures i + a <= m < |config| && config[m].name != ""
    ensures FoundIn(config[m], lookup(config[m].name), ds[|ds| - 1].watch.items[k])
    decreases |ds| - a
  {
    if a == |ds| - 1 {
      assert false;
    }
    if k < |ds[a + 1].watch.items| {
      SlotHere(ds, config, lookup, cap, logNotFound, i, a, k);
      m := i + a;
    } else {
      m := SlotOf(ds, config, lookup, cap, logNotFound, i, a + 1, k);
    }
  }

  /** An entry that first appears after state `a` was added by slot `i + a`. */
  lemma SlotHere(ds: seq<Discovered>, config: Table, lookup: string -> seq<int>, cap: nat, logNotFound: bool, i: nat, a: nat, k: nat)
    requires 0 < cap && forall name :: |lookup(name)| <= cap
    requires Trace(ds, config, lookup, cap, logNotFound, i) && a + 1 < |ds|
    requires |ds[a].watch.items| <= k < |ds[a + 1].watch.items| && k < |ds[|ds| - 1].watch.items|
    ensures i + a < |config| && config[i + a].name != ""
    ensures FoundIn(config[i + a], lookup(config[i + a].name), ds[|ds| - 1].watch.items[k])
  {
    assert ds[a + 1] == DiscoverStep(ds[a], config, lookup, cap, logNotFound, i + a);
    StepSound(ds[a], config, lookup, cap, logNotFound, i + a, k);
    TraceExtends(ds, config, lookup, cap, logNotFound, i, a + 1, |ds| - 1);
  }

  /** The entries slot `i` adds were found for its name. */
  lemma StepSound(d: Discovered, config: Table, lookup: string -> seq<int>, cap: nat, logNotFound: bool, i: nat, k: nat)
    requires WatchList(d.watch) && i < |config|
    requires 0 < cap && forall name :: |lookup(name)| <= cap
    requires |d.watch.items| <= k < |DiscoverStep(d, config, lookup, cap, logNotFound, i).watch.items|
    ensures config[i].name != ""
    ensures FoundIn(config[i], lookup(config[i].name), DiscoverStep(d, config, lookup, cap, logNotFound, i).watch.items[k])
  {
  }

  lemma StepFinds(d: Discovered, config: Table, lookup: string -> seq<int>, cap: nat, logNotFound: bool, i: nat, j: nat)
    requires WatchList(d.watch) && i < |config| && config[i].name != ""
    requires 0 < cap && forall name :: |lookup(name)| <= cap
    requires j < |lookup(config[i].name)| && lookup(config[i].name)[j] > 0
    ensures lookup(config[i].name)[j] in Pids(DiscoverStep(d, config, lookup, cap, logNotFound, i).watch.items)
  {
  }

  /** A pid > 0 found for slot `m` is added by its step and kept to the end
      of the trace. */
  lemma CompleteAt(ds: seq<Discovered>, config: Table, lookup: string -> seq<int>, cap: nat, logNotFound: bool, i: nat, m: nat, j: nat)
    requires 0 < cap && forall name :: |lookup(name)| <= cap
    requires Trace(ds, config, lookup, cap, logNotFound, i)
    requires i <= m < |config| && config[m].name != ""
    requires j < |lookup(config[m].name)| && lookup(config[m].name)[j] > 0
    ensures lookup(config[m].name)[j] in Pids(ds[|ds| - 1].watch.items)
  {
    var a := m - i;
    assert ds[a + 1] == DiscoverStep(ds[a], config, lookup, cap, logNotFound, m);
    StepFinds(ds[a], config, lookup, cap, logNotFound, m, j);
    TraceExtends(ds, config, lookup, cap, logNotFound, i, a + 1, |ds| - 1);
    ExtendsPids(ds[a + 1].watch.items, ds[|ds| - 1].watch.items);
  }

  /** Every entry past `before` was found, for some named slot, among the
      pids looked up for its name. */
  ghost predicate ScanSound(config: Table, lookup: string -> seq<int>, before: seq<MonitoredProcess>, after: seq<MonitoredProcess>) {
    forall k :: |before| <= k < |after| ==> FoundForSlot(config, lookup, after[k])
  }

  /** The entry was found for a named slot among the pids looked up for its name. */
  ghost predicate FoundForSlot(config: Table, lookup: string -> seq<int>, e: MonitoredProcess) {
    exists m :: 0 <= m < |config| && config[m].name != "" && FoundIn(config[m], lookup(config[m].name), e)
  }

  /** Every pid > 0 looked up for a named slot is on the watch-list. */
  ghost predicate ScanComplete(config: Table, lookup: string -> seq<int>, items: seq<MonitoredProcess>) {
    forall m, j :: 0 <= m < |config| && config[m].name != "" && 0 <= j < |lookup(config[m].name)| && lookup(config[m].name)[j] > 0 ==>
      lookup(config[m].name)[j] in Pids(items)
  }

  /** Every entry a whole scan adds was found for a named slot. */
  lemma DiscoverSoundAll(d: Discovered, config: Table, lookup: string -> seq<int>, logNotFound: bool, r: Discovered)
    requires WatchList(d.watch)
    requires forall name :: |lookup(name)| <= MAX_PROCESSES
    requires r == DiscoverFrom(d, config, lookup, MAX_PROCESSES, logNotFound, 0)
    ensures ScanSound(config, lookup, d.watch.items, r.watch.items)
  {
    var ds := TraceFrom(d, config, lookup, MAX_PROCESSES, logNotFound, 0);
    var items := r.watch.items;
    forall k | |d.watch.items| <= k < |items| ensures FoundForSlot(config, lookup, items[k]) {
      var m := SlotOf(ds, config, lookup, MAX_PROCESSES, logNotFound, 0, 0, k);
    }
  }

  /** Every pid > 0 found for a named slot is on the watch-list after a whole scan. */
  lemma DiscoverCompleteAll(d: Discovered, config: Table, lookup: string -> seq<int>, logNotFound: bool, r: Discovered)
    requires WatchList(d.watch)
    requires forall name :: |lookup(name)| <= MAX_PROCESSES
    requires r == DiscoverFrom(d, config, lookup, MAX_PROCESSES, logNotFound, 0)
    ensures ScanComplete(config, lookup, r.watch.items)
  {
    var ds := TraceFrom(d, config, lookup, MAX_PROCESSES, logNotFound, 0);
    forall m, j | 0 <= m < |config| && config[m].name != "" && 0 <= j < |lookup(config[m].name)| && lookup(config[m].name)[j] > 0
      ensures lookup(config[m].name)[j] in Pids(r.watch.items)
    {
      CompleteAt(ds, config, lookup, MAX_PROCESSES, logNotFound, 0, m, j);
    }
  }

  /** A whole scan only adds unmonitored entries, so the monitored jobs stay. */
  lemma DiscoverJobs(d: Discovered, config: Table, lookup: string -> seq<int>, logNotFound: bool, r: Discovered)
    requires WatchList(d.watch)
    requires forall name :: |lookup(name)| <= MAX_PROCESSES
    requires r == DiscoverFrom(d, config, lookup, MAX_PROCESSES, logNotFound, 0)
    ensures MonitoredJobs(r.watch.items) == MonitoredJobs(d.watch.items)
  {
    var ds := TraceFrom(d, config, lookup, MAX_PROCESSES, logNotFound, 0);
    forall k | |d.watch.items| <= k < |r.watch.items| ensures !r.watch.items[k].beingMonitored {
      var m := SlotOf(ds, config, lookup, MAX_PROCESSES, logNotFound, 0, 0, k);
    }
    MonitoredJobsExtend(d.watch.items, r.watch.items);
  }

  /** `checkForNewMonitoredProcesses(logNoProcessesFound)`: every named slot
      is looked up, every pid > 0 found is on the watch-list afterwards (each
      pid once), new entries are unmonitored and carry their slot's name and
      runtime, the "not found" lines are logged only under the flag, and the
      flag `firstConfigurationReRead` is cleared. Workers are not touched. */
  function Discover(s: Client, lookup: string -> seq<int>, logNotFound: bool): (r: Client)
    requires Inv(s)
    requires forall name :: |lookup(name)| <= MAX_PROCESSES
    ensures Inv(r)
    ensures r == s.(watch := r.watch, log := r.log, firstReRead := false)
    ensures Extends(s.watch.items, r.watch.items)
    ensures ScanSound(s.config, lookup, s.watch.items, r.watch.items)
    ensures ScanComplete(s.config, lookup, r.watch.items)
    ensures r.log == s.log + (if logNotFound then Missing(s.config, lookup, 0) else [])
  {
    var d0 := Discovered(s.watch, s.log);
    var d := DiscoverFrom(d0, s.config, lookup, MAX_PROCESSES, logNotFound, 0);
    DiscoverSoundAll(d0, s.config, lookup, logNotFound, d);
    DiscoverCompleteAll(d0, s.config, lookup, logNotFound, d);
    DiscoverJobs(d0, s.config, lookup, logNotFound, d);
    DiscoverFromLog(d0, s.config, lookup, MAX_PROCESSES, logNotFound, 0);
    s.(watch := d.watch, log := d.log, firstReRead := false)
  }

  // ---------------------------------------------------------------------------
  // Dispatch: `ll_forEach(&monitoredProcesses, &monitorNewProcesses)`.

  /** The part of the client dispatch changes: the two lists, the command
      lines written to workers, the log, and whether `fork` failed (which
      ends the node through `exitError`). */
  datatype Work = Work(watch: LL.List<MonitoredProcess>, pool: LL.List<ChildProcess>,
                       commands: seq<Command>, log: seq<LogLine>, failed: bool)

  ghost predicate WorkInv(w: Work) {
    WatchList(w.watch) && PoolList(w.pool) && Paired(w.watch.items, w.pool.items)
  }

  /** `initializeChild(worker i, entry k)`: the worker turns busy with the
      entry's job, the entry is marked as monitored, the command line goes
      down the worker's pipe, and "Initializing monitoring" is logged (the
      last by `monitorNewProcesses`). The worker decodes exactly the pid
      and runtime of the entry from that line. */
  function Bind(w: Work, k: nat, i: nat): (r: Work)
    requires WorkInv(w) && k < |w.watch.items| && !w.watch.items[k].beingMonitored
    requires i < |w.pool.items| && w.pool.items[i].isAvailable
    ensures WorkInv(r) && r.failed == w.failed
    ensures r.watch.items == w.watch.items[k := Mark(w.watch.items[k])]
    ensures r.pool.items == w.pool.items[i := Busy(w.pool.items[i], w.watch.items[k])]
    ensures |r.commands| == |w.commands| + 1 && r.commands[..|w.commands|] == w.commands
    ensures r.commands[|w.commands|].worker == i
    ensures ScanCommand(r.commands[|w.commands|].text) == Assignment(w.watch.items[k].pid, w.watch.items[k].runtime)
    ensures r.log == w.log + [Logged("Info", InitializingMessage(w.watch.items[k].name, w.watch.items[k].pid))]
  {
    var e := w.watch.items[k];
    PairedAfterBind(w.watch.items, w.pool.items, k, i);
    CommandRoundTrip(e.pid, e.runtime);
    Work(w.watch.(items := w.watch.items[k := Mark(e)]),
         w.pool.(items := w.pool.items[i := Busy(w.pool.items[i], e)]),
         w.commands + [Command(i, FormatCommand(e.pid, e.runtime))],
         w.log + [Logged("Info", InitializingMessage(e.name, e.pid))],
         w.failed)
  }

  /** After a spawn that found no idle worker, `ll_getIf` returns the new
      worker: it is the first idle one. */
  lemma SpawnedIsFirstIdle(pool: seq<ChildProcess>, c: ChildProcess)
    requires LL.GetIf(pool, IsAvailable).None? && c.isAvailable
    ensures LL.GetIf(pool + [c], IsAvailable) == Some(|pool|)
  {
    assert IsAvailable((pool + [c])[|pool|]);
    assert forall i :: 0 <= i < |pool| ==> (pool + [c])[i] == pool[i];
  }

  /** The `NULL` branch of `monitorNewProcesses`, `spawnNewChildWorker` as
      the parent sees it: `fork` returned `forkResult`; -1 ends the node,
      anything else is the new worker's pid. The idle worker is appended
      and `ll_getIf` hands it the entry. The worker's own side is
      `Worker.Handle`. */
  function SpawnAndBind(w: Work, forkResult: int, k: nat): (r: Work)
    requires WorkInv(w) && k < |w.watch.items| && !w.watch.items[k].beingMonitored
    requires LL.GetIf(w.pool.items, IsAvailable).None?
    ensures WorkInv(r)
    ensures forkResult == -1 ==> r == w.(failed := true)
    ensures forkResult != -1 ==>
      && r.failed == w.failed
      && r.watch.items == w.watch.items[k := Mark(w.watch.items[k])]
      && |r.pool.items| == |w.pool.items| + 1
      && r.pool.items[|w.pool.items|].childPid == forkResult
      && WorkerJob(r.pool.items[|w.pool.items|]) == EntryJob(w.watch.items[k])
    ensures forall i :: 0 <= i < |w.pool.items| ==> r.pool.items[i] == w.pool.items[i]
  {
    if forkResult == -1 then w.(failed := true)
    else
      var n := |w.pool.items|;
      var c := NewWorker(forkResult);
      PairedAfterSpawn(w.watch.items, w.pool.items, c);
      SpawnedIsFirstIdle(w.pool.items, c);
      var w1 := w.(pool := LL.Add(w.pool, c));
      assert w1.pool.items == w.pool.items + [c];
      Bind(w1, k, n)
  }

  /** `monitorNewProcesses` on the entry at position `k`: nothing for an entry
      already monitored; otherwise the first idle worker gets it, and a worker
      is spawned (with the `|pool|`-th fork) only when no worker is idle. The
      pool never shrinks and keeps its workers' pids. */
  function DispatchOne(w: Work, fork: nat -> int, k: nat): (r: Work)
    requires WorkInv(w) && k < |w.watch.items| && !w.failed
    ensures WorkInv(r)
    ensures |r.watch.items| == |w.watch.items|
    ensures forall j :: 0 <= j < |w.watch.items| ==> EntryJob(r.watch.items[j]) == EntryJob(w.watch.items[j])
    ensures forall j :: 0 <= j < |w.watch.items| && j != k ==> r.watch.items[j] == w.watch.items[j]
    ensures |w.pool.items| <= |r.pool.items| <= |w.pool.items| + 1
    ensures forall i :: 0 <= i < |w.pool.items| ==> r.pool.items[i].childPid == w.pool.items[i].childPid
    ensures w.watch.items[k].beingMonitored ==> r == w
    ensures !r.failed ==> r.watch.items[k].beingMonitored
    ensures |r.pool.items| > |w.pool.items| ==>
      && LL.GetIf(w.pool.items, IsAvailable).None?
      && r.pool.items[|w.pool.items|].childPid == fork(|w.pool.items|)
    ensures r.failed ==> LL.GetIf(w.pool.items, IsAvailable).None? && fork(|w.pool.items|) == -1
  {
    if w.watch.items[k].beingMonitored then w
    else match LL.GetIf(w.pool.items, IsAvailable)
      case Some(i) => Bind(w, k, i)
      case None =>
        var forkResult := fork(|w.pool.items|);
        var r := SpawnAndBind(w, forkResult, k);
        SpawnDispatches(w, forkResult, k, r);
        r
  }

  /** What a spawn means for the dispatch of entry `k`. */
  lemma SpawnDispatches(w: Work, forkResult: int, k: nat, r: Work)
    requires WorkInv(w) && k < |w.watch.items| && !w.watch.items[k].beingMonitored && !w.failed
    requires LL.GetIf(w.pool.items, IsAvailable).None?
    requires r == SpawnAndBind(w, forkResult, k)
    ensures |r.watch.items| == |w.watch.items|
    ensures forall j :: 0 <= j < |w.watch.items| ==> EntryJob(r.watch.items[j]) == EntryJob(w.watch.items[j])
    ensures forall j :: 0 <= j < |w.watch.items| && j != k ==> r.watch.items[j] == w.watch.items[j]
    ensures |w.pool.items| <= |r.pool.items| <= |w.pool.items| + 1
    ensures forall i :: 0 <= i < |w.pool.items| ==> r.pool.items[i].childPid == w.pool.items[i].childPid
    ensures !r.failed ==> r.watch.items[k].beingMonitored
    ensures |r.pool.items| > |w.pool.items| ==> r.pool.items[|w.pool.items|].childPid == forkResult
    ensures r.failed ==> forkResult == -1
  {
  }

  /** The `ll_forEach` over the watch-list from position `k` on, stopping when
      the node exits. If it does not exit, every entry ends up monitored and
      so (by `Paired`) held by exactly one busy worker. */
  function DispatchFrom(w: Work, fork: nat -> int, k: nat): (r: Work)
    requires WorkInv(w) && k <= |w.watch.items| && !w.failed
    ensures WorkInv(r)
    ensures |r.watch.items| == |w.watch.items|
    ensures forall j :: 0 <= j < |w.watch.items| ==> EntryJob(r.watch.items[j]) == EntryJob(w.watch.items[j])
    ensures forall j :: 0 <= j < k ==> r.watch.items[j] == w.watch.items[j]
    ensures |w.pool.items| <= |r.pool.items|
    ensures forall i :: 0 <= i < |w.pool.items| ==> r.pool.items[i].childPid == w.pool.items[i].childPid
    ensures !r.failed ==> forall j :: k <= j < |r.watch.items| ==> r.watch.items[j].beingMonitored
    decreases |w.watch.items| - k
  {
    if k == |w.watch.items| then w
    else
      var w1 := DispatchOne(w, fork, k);
      if w1.failed then w1
      else DispatchFrom(w1, fork, k + 1)
  }

  // ---------------------------------------------------------------------------
  // Result draining: `ll_forEach(&childProcesses, &checkChild)`.

  /** The part of the client draining changes. */
  datatype Drained = Drained(watch: LL.List<MonitoredProcess>, pool: LL.List<ChildProcess>,
                             killed: int, log: seq<LogLine>)

  ghost predicate DrainInv(d: Drained) {
    WatchList(d.watch) && PoolList(d.pool) && Paired(d.watch.items, d.pool.items)
  }

  /** Keeping what does not match `p` changes nothing when nothing matches. */
  lemma {:induction false} KeepNone(items: seq<MonitoredProcess>, p: MonitoredProcess -> bool)
    requires forall k :: 0 <= k < |items| ==> !p(items[k])
    ensures LL.Keep(items, p) == items
    decreases |items|
  {
    if |items| > 0 {
      KeepNone(items[1..], p);
    }
  }

  /** On a watch-list with unique pids, removing by a pid that is present
      removes exactly one entry. */
  lemma {:induction false} KeepRemovesOne(items: seq<MonitoredProcess>, pid: int, k: nat)
    requires UniquePids(items) && k < |items| && items[k].pid == pid
    ensures |LL.Keep(items, HasPid(pid))| == |items| - 1
    decreases |items|
  {
    HasPidMeans(pid, items[0]);
    if k == 0 {
      forall j | 0 <= j < |items[1..]| ensures !HasPid(pid)(items[1..][j]) {
        HasPidMeans(pid, items[1..][j]);
        assert items[1..][j] == items[j + 1];
        UniqueAt(items, 0, j + 1);
      }
      KeepNone(items[1..], HasPid(pid));
    } else {
      UniqueAt(items, 0, k);
      UniqueTail(items);
      KeepRemovesOne(items[1..], pid, k - 1);
    }
  }

  /** `checkChild` on the worker at position `i`: an idle worker, or a read
      that returned -1 (no entry in `reports`), changes nothing. Otherwise
      the count the worker wrote is added to `numProcessesKilled`, an Action
      line is logged only when it is nonzero, the worker turns idle, and
      exactly one watch-list entry, the one with the worker's pid, is
      removed. */
  function CheckChild(d: Drained, reports: map<nat, string>, i: nat): (r: Drained)
    requires DrainInv(d) && i < |d.pool.items|
    ensures DrainInv(r)
    ensures d.pool.items[i].isAvailable || i !in reports ==> r == d
    ensures WorkerReports(reports) ==> d.killed <= r.killed <= d.killed + 1
    ensures !d.pool.items[i].isAvailable && i in reports ==>
      && r.pool.items == d.pool.items[i := Idle(d.pool.items[i])]
      && |r.watch.items| == |d.watch.items| - 1
      && (forall k :: 0 <= k < |d.watch.items| ==> (d.watch.items[k] in r.watch.items <==> d.watch.items[k].pid != d.pool.items[i].pid))
      && r.killed == d.killed + ParseCount(reports[i])
      && (ParseCount(reports[i]) == 0 ==> r.log == d.log)
      && (ParseCount(reports[i]) != 0 ==> r.log == d.log + [Logged("Action", KilledMessage(d.pool.items[i].pid, d.pool.items[i].name, d.pool.items[i].runtime))])
  {
    var c := d.pool.items[i];
    if c.isAvailable || i !in reports then d
    else
      var n := ParseCount(reports[i]);
      var watch := LL.Remove(d.watch, Probe(c.pid));
      PairedAfterRelease(d.watch.items, d.pool.items, i);
      PairedIsOneToOne(d.watch.items, d.pool.items, i);
      CheckChildRemoves(d.watch.items, c.pid, watch.items);
      ReportCount(reports, i);
      Drained(watch, d.pool.(items := d.pool.items[i := Idle(c)]), d.killed + n,
              d.log + (if n != 0 then [Logged("Action", KilledMessage(c.pid, c.name, c.runtime))] else []))
  }

  lemma CheckChildRemoves(items: seq<MonitoredProcess>, pid: int, kept: seq<MonitoredProcess>)
    requires UniquePids(items) && kept == LL.Keep(items, HasPid(pid))
    requires exists k :: 0 <= k < |items| && items[k].beingMonitored && items[k].pid == pid
    ensures |kept| == |items| - 1
    ensures forall k :: 0 <= k < |items| ==> (items[k] in kept <==> items[k].pid != pid)
  {
    var k :| 0 <= k < |items| && items[k].beingMonitored && items[k].pid == pid;
    KeepRemovesOne(items, pid, k);
    forall j | 0 <= j < |items| ensures items[j] in kept <==> items[j].pid != pid {
      HasPidMeans(pid, items[j]);
      if items[j] in kept {
        var m :| 0 <= m < |kept| && kept[m] == items[j];
        HasPidMeans(pid, kept[m]);
      }
    }
  }

  /** What a worker writes back: "0" or "1". */
  predicate WorkerReports(reports: map<nat, string>) {
    forall i :: i in reports ==> reports[i] == "0" || reports[i] == "1"
  }

  /** The `ll_forEach` over the pool from position `i` on. The pool keeps its
      workers; with reports as workers write them, the tally grows by at
      most one per worker visited. */
  function DrainFrom(d: Drained, reports: map<nat, string>, i: nat): (r: Drained)
    requires DrainInv(d) && i <= |d.pool.items|
    ensures DrainInv(r)
    ensures |r.pool.items| == |d.pool.items|
    ensures forall j :: 0 <= j < |d.pool.items| ==> r.pool.items[j].childPid == d.pool.items[j].childPid
    ensures |r.watch.items| <= |d.watch.items|
    ensures WorkerReports(reports) ==> d.killed <= r.killed <= d.killed + (|d.pool.items| - i)
    decreases |d.pool.items| - i
  {
    if i == |d.pool.items| then d
    else
      DrainFrom(CheckChild(d, reports, i), reports, i + 1)
  }

  lemma ReportCount(reports: map<nat, string>, i: nat)
    ensures WorkerReports(reports) && i in reports ==> 0 <= ParseCount(reports[i]) <= 1
  {
    if WorkerReports(reports) && i in reports {
      AssignmentRoundTrip(1, 0, 2, 3, reports[i] == "1");
    }
  }

  // ---------------------------------------------------------------------------
  // Shutdown, configuration, signals, and the loop of `beginProcNanny`.

  /** The pids of the workers, head to tail. */
  function ChildPids(pool: seq<ChildProcess>): (r: seq<int>)
    ensures |r| == |pool| && forall i :: 0 <= i < |pool| ==> r[i] == pool[i].childPid
  {
    seq(|pool|, i requires 0 <= i < |pool| => pool[i].childPid)
  }

  /** `killChild` as a `NodeOperation`: `kill -9` of the worker's pid,
      recorded in the list of terminated pids. */
  function KillChild(terminated: seq<int>, c: ChildProcess): seq<int> {
    terminated + [c.childPid]
  }

  /** `ll_forEach(&childProcesses, &killChild)` terminates every worker once,
      in pool order. */
  lemma {:induction false} KillEveryWorker(pool: seq<ChildProcess>, terminated: seq<int>)
    ensures LL.Visit(pool, KillChild, terminated) == terminated + ChildPids(pool)
    decreases |pool|
  {
    if |pool| > 0 {
      KillEveryWorker(pool[1..], KillChild(terminated, pool[0]));
      assert ChildPids(pool) == [pool[0].childPid] + ChildPids(pool[1..]);
    }
  }

  /** `cleanUp`: every worker is killed, then both lists are freed. */
  function CleanUp(s: Client): (r: Client)
    requires Inv(s)
    ensures Inv(r)
    ensures r.terminated == s.terminated + ChildPids(s.pool.items)
    ensures r.watch.items == [] && r.pool.items == []
    ensures r == s.(watch := r.watch, pool := r.pool, terminated := r.terminated)
  {
    KillEveryWorker(s.pool.items, s.terminated);
    s.(terminated := LL.ForEach(s.pool, Some(KillChild), s.terminated),
       watch := LL.Free(s.watch), pool := LL.Free(s.pool))
  }

  /** `readConfigurationFile` of the client on its current table: the
      table it leaves, or the Error line it logs before ending the node, or
      `None` when the file runs past the table. A file that cannot be
      opened, or a line that does not yield a name and a number, is an
      error. Otherwise line `i` fills slot `i` and the slots past the last
      line keep what they held. */
  function ReadTable(table: Table, path: string, file: Option<seq<string>>): (r: Option<Result<Table, LogLine>>)
    requires |table| == CONFIG_FILE_LINES
    ensures file.None? ==> r == Some(Failure(Logged("Error", NoConfigMessage)))
    ensures r.None? <==> file.Some? && Overruns(file.value)
    ensures file.Some? && r.Some? ==>
      (r.value.Success? <==> |file.value| <= CONFIG_FILE_LINES && forall i :: 0 <= i < |file.value| ==> Complete(file.value[i]))
    ensures r.Some? && r.value.Success? ==> var t := r.value.value;
      && file.Some? && |t| == CONFIG_FILE_LINES && |file.value| <= CONFIG_FILE_LINES
      && (forall i :: 0 <= i < |file.value| ==> Complete(file.value[i]) && t[i] == ParsedEntry(file.value[i]))
      && (forall i :: |file.value| <= i < CONFIG_FILE_LINES ==> t[i] == table[i])
    ensures r.Some? && r.value.Failure? && file.Some? ==>
      exists k :: 0 <= k < |file.value| && k < CONFIG_FILE_LINES && !Complete(file.value[k])
        && (forall i :: 0 <= i < k ==> Complete(file.value[i]))
        && r.value.error == Logged("Error", BadLineMessage(k, path))
  {
    match file
    case None => Some(Failure(Logged("Error", NoConfigMessage)))
    case Some(lines) =>
      match ReadClient(table, lines)
      case None => None
      case Some(Success(t)) => Some(Success(t))
      case Some(Failure(k)) => Some(Failure(Logged("Error", BadLineMessage(k, path))))
  }

  /** A file whose first `CONFIG_FILE_LINES` lines all hold a name and a
      number and that has more: the reader goes on past `configLines`. */
  ghost predicate Overruns(lines: seq<string>) {
    CONFIG_FILE_LINES < |lines| && forall i :: 0 <= i < CONFIG_FILE_LINES ==> Complete(lines[i])
  }

  /** `readConfigurationFile` on the client: on an error the line is logged
      and the node ends with `EXIT_FAILURE`, after `cleanUp` when the file
      was opened; a file that runs past the table leaves the node
      `Undefined`. */
  function ReadConfig(s: Client, path: string, file: Option<seq<string>>): (r: Client)
    requires Inv(s)
    ensures Inv(r)
    ensures file.Some? && Overruns(file.value) ==> r == s.(status := Undefined)
    ensures var t := ReadTable(s.config, path, file);
      t.Some? && t.value.Success? ==> r == s.(config := t.value.value)
    ensures var t := ReadTable(s.config, path, file);
      t.Some? && t.value.Failure? ==>
      && r.status == Exited(EXIT_FAILURE)
      && r.log == s.log + [t.value.error]
      && r.terminated == s.terminated + (if file.Some? then ChildPids(s.pool.items) else [])
  {
    match ReadTable(s.config, path, file)
    case None => s.(status := Undefined)
    case Some(Success(t)) => s.(config := t)
    case Some(Failure(line)) =>
      var s1 := s.(log := s.log + [line]);
      if file.None? then s1.(status := Exited(EXIT_FAILURE))
      else CleanUp(s1).(status := Exited(EXIT_FAILURE))
  }

  /** The SIGHUP branch: every slot is zeroed and the file re-read; on
      success the re-read is logged and the next scan reports programs not
      found. The watch-list and the workers are not touched, so work in
      flight keeps the runtime it was given. */
  function Reload(s: Client, path: string, file: Option<seq<string>>): (r: Client)
    requires Inv(s) && s.status == Running
    ensures Inv(r) && !r.hup
    ensures r.status == Running || r.status == Exited(EXIT_FAILURE) || r.status == Undefined
    ensures r.status == Undefined <==> file.Some? && Overruns(file.value)
    ensures r.status == Running ==>
      && r.watch == s.watch && r.pool == s.pool && r.killed == s.killed && r.firstReRead
      && r.log == s.log + [Logged("Info", RereadMessage(path))]
    ensures r.status == Running ==> file.Some? && ReloadedFrom(r.config, file.value)
  {
    var s1 := ReadConfig(s.(hup := false, config := ClearedTable()), path, file);
    if s1.status != Running then s1
    else s1.(log := s1.log + [Logged("Info", RereadMessage(path))], firstReRead := true)
  }

  /** A table read into cleared slots: line `i` in slot `i`, the rest empty. */
  ghost predicate ReloadedFrom(config: Table, lines: seq<string>) {
    && |config| == CONFIG_FILE_LINES && |lines| <= CONFIG_FILE_LINES
    && (forall i :: 0 <= i < |lines| ==> Complete(lines[i]) && config[i] == ParsedEntry(lines[i]))
    && (forall i :: |lines| <= i < CONFIG_FILE_LINES ==> config[i] == EmptySlot)
  }

  /** The SIGINT branch: `cleanUp` kills every worker, the number of
      processes killed is logged, and the node exits with `EXIT_SUCCESS`. */
  function Shutdown(s: Client): (r: Client)
    requires Inv(s)
    ensures Inv(r) && !r.interrupt
    ensures r.status == Exited(EXIT_SUCCESS)
    ensures r.terminated == s.terminated + ChildPids(s.pool.items)
    ensures r.killed == s.killed && r.log == s.log + [Logged("Info", ExitingMessage(s.killed))]
  {
    var s1 := CleanUp(s.(interrupt := false));
    s1.(log := s1.log + [Logged("Info", ExitingMessage(s1.killed))], status := Exited(EXIT_SUCCESS))
  }

  datatype Signal = SigInt | SigHup | SigAlrm | SigOther

  /** `signalHandler`: each signal only raises its flag (SIGALRM also
      re-arms the alarm, which is not modelled). */
  function Deliver(s: Client, sig: Signal): (r: Client)
    ensures r.interrupt == (s.interrupt || sig == SigInt)
    ensures r.hup == (s.hup || sig == SigHup)
    ensures r.alarm == (s.alarm || sig == SigAlrm)
    ensures r.(interrupt := s.interrupt, hup := s.hup, alarm := s.alarm) == s
  {
    match sig
    case SigInt => s.(interrupt := true)
    case SigHup => s.(hup := true)
    case SigAlrm => s.(alarm := true)
    case SigOther => s
  }

  /** `ll_forEach(&monitoredProcesses, &monitorNewProcesses)` on the client. */
  function Dispatch(s: Client, fork: nat -> int): (r: Client)
    requires Inv(s) && s.status == Running
    ensures Inv(r)
    ensures r.status == s.status || r.status == Exited(EXIT_FAILURE)
    ensures |s.pool.items| <= |r.pool.items|
    ensures r.status == s.status ==> forall j :: 0 <= j < |r.watch.items| ==> r.watch.items[j].beingMonitored
    ensures r.config == s.config && r.killed == s.killed
  {
    var w := DispatchFrom(Work(s.watch, s.pool, s.commands, s.log, false), fork, 0);
    var r := s.(watch := w.watch, pool := w.pool, commands := w.commands, log := w.log);
    if w.failed then r.(status := Exited(EXIT_FAILURE)) else r
  }

  /** `ll_forEach(&childProcesses, &checkChild)` on the client. */
  function Drain(s: Client, reports: map<nat, string>): (r: Client)
    requires Inv(s)
    ensures Inv(r)
    ensures |r.pool.items| == |s.pool.items| && |r.watch.items| <= |s.watch.items|
    ensures WorkerReports(reports) ==> s.killed <= r.killed <= s.killed + |s.pool.items|
    ensures r == s.(watch := r.watch, pool := r.pool, killed := r.killed, log := r.log)
  {
    var d := DrainFrom(Drained(s.watch, s.pool, s.killed, s.log), reports, 0);
    s.(watch := d.watch, pool := d.pool, killed := d.killed, log := d.log)
  }

  /** One pass of the `while (true)` loop of `beginProcNanny`: dispatch,
      drain, then the raised flags in the order SIGHUP, SIGINT, SIGALRM.
      Each raised flag is cleared in the same pass unless the node exits. */
  function Iterate(s: Client, env: Env, reports: map<nat, string>): (r: Client)
    requires Inv(s) && s.status == Running && EnvBounded(env)
    ensures Inv(r)
    ensures r.status == Running || r.status == Exited(EXIT_SUCCESS) || r.status == Exited(EXIT_FAILURE) || r.status == Undefined
    ensures r.status == Undefined ==> s.hup && env.configFile.Some? && Overruns(env.configFile.value)
    ensures r.status == Running ==> !r.hup && !r.interrupt && !r.alarm
    ensures r.status == Running ==> |s.pool.items| <= |r.pool.items|
    ensures r.status == Exited(EXIT_SUCCESS) ==> s.interrupt
    ensures r.status == Running && !s.hup ==> r.config == s.config
  {
    var s1 := Dispatch(s, env.fork);
    if s1.status != Running then s1
    else Flags(Drain(s1, reports), env)
  }

  /** The end of a pass: the raised flags in the order SIGHUP, SIGINT,
      SIGALRM. */
  function Flags(s: Client, env: Env): (r: Client)
    requires Inv(s) && s.status == Running && EnvBounded(env)
    ensures Inv(r)
    ensures r.status == Running || r.status == Exited(EXIT_SUCCESS) || r.status == Exited(EXIT_FAILURE) || r.status == Undefined
    ensures r.status == Undefined ==> s.hup && env.configFile.Some? && Overruns(env.configFile.value)
    ensures r.status == Running ==> !r.hup && !r.interrupt && !r.alarm
    ensures r.status == Running ==> |s.pool.items| <= |r.pool.items|
    ensures r.status == Exited(EXIT_SUCCESS) ==> s.interrupt
    ensures r.status == Running && !s.hup ==> r.config == s.config
  {
    var s1 := if s.hup then Reload(s, env.configPath, env.configFile) else s;
    if s1.status != Running then s1
    else if s1.interrupt then Shutdown(s1)
    else if s1.alarm then Discover(s1.(alarm := false), env.lookup, s1.firstReRead)
    else s1
  }

  /** `readConfigurationFile` and the start of `beginProcNanny`: the lists
      are initialised (the watch-list deduplicated by pid, the pool without
      a comparator), the parent's pid is logged, and the first scan reports
      programs not found. `self` is `getpid()`; `entrySize` and
      `workerSize` are the `sizeof`s given to `ll_init`. */
  function Start(env: Env, self: int, entrySize: nat, workerSize: nat): (r: Client)
    requires EnvBounded(env)
    ensures Inv(r)
    ensures r.status == Running || r.status == Exited(EXIT_FAILURE) || r.status == Undefined
    ensures r.status == Undefined <==> env.configFile.Some? && Overruns(env.configFile.value)
    ensures r.status == Running <==>
      (env.configFile.Some? && |env.configFile.value| <= CONFIG_FILE_LINES
       && forall i :: 0 <= i < |env.configFile.value| ==> Complete(env.configFile.value[i]))
    ensures r.status == Running ==>
      && !r.firstReRead && r.killed == 0 && r.pool.items == []
      && |r.log| >= 1 && r.log[0] == Logged("Info", ParentMessage(self))
      && r.watch.nodeSize == entrySize && r.pool.nodeSize == workerSize
      && ScanComplete(r.config, env.lookup, r.watch.items)
  {
    var s0 := Client(ClearedTable(), LL.Init(entrySize, Some(SamePid)), LL.Init(workerSize, None),
                     0, false, false, false, false, [], [], [], Running);
    var s1 := ReadConfig(s0, env.configPath, env.configFile);
    if s1.status != Running then s1
    else
      var s2 := s1.(log := s1.log + [Logged("Info", ParentMessage(self))], firstReRead := true);
      Discover(s2, env.lookup, s2.firstReRead)
  }

  /** Something that happens to a running node: a signal arrives, or the
      loop makes one pass with the given outside world and worker reports. */
  datatype Event = Arrive(sig: Signal) | Pass(env: Env, reports: map<nat, string>)

  ghost predicate EventsBounded(events: seq<Event>) {
    forall i :: 0 <= i < |events| && events[i].Pass? ==> EnvBounded(events[i].env)
  }

  /** A run of the node from state `s`; events after it exits are ignored. */
  function Run(s: Client, events: seq<Event>): (r: Client)
    requires Inv(s) && EventsBounded(events)
    ensures Inv(r)
    ensures s.status != Running ==> r == s
    ensures r.status == Running ==> |s.pool.items| <= |r.pool.items|
    decreases |events|
  {
    if |events| == 0 || s.status != Running then s
    else
      var s1 := match events[0]
        case Arrive(sig) => Deliver(s, sig)
        case Pass(env, reports) => Iterate(s, env, reports);
      assert EventsBounded(events[1..]) by {
        forall i | 0 <= i < |events[1..]| && events[1..][i].Pass? ensures EnvBounded(events[1..][i].env) {
          assert events[1..][i] == events[i + 1];
        }
      }
      Run(s1, events[1..])
  }
}

=== FILE: cnum.dfy ===
/** Decimal integers as the drafts print them (`%d` in `snprintf`) and read
    them back (`%d` in `sscanf`, and `atoi`). Values are unbounded here; the
    conversions in `Limits` put the C widths back where they matter. */
module CNum {
  import opened Wrappers
  import opened CText

  predicate IsDigit(c: char) {
    '0' <= c <= '9'
  }

  predicate AllDigits(s: string) {
    forall i :: 0 <= i < |s| ==> IsDigit(s[i])
  }

  function DigitChar(d: nat): (c: char)
    requires d < 10
    ensures IsDigit(c)
  {
    ('0' as int + d) as char
  }

  function DigitValue(c: char): (d: nat)
    requires IsDigit(c)
    ensures d < 10
  {
    c as int - '0' as int
  }

  /** The digits of `n`, most significant first, without leading zeros. */
  function NatToString(n: nat): (r: string)
    ensures |r| > 0 && AllDigits(r)
    decreases n
  {
    if n < 10 then [DigitChar(n)] else NatToString(n / 10) + [DigitChar(n % 10)]
  }

  /** `%d` in a `printf` format. */
  function IntToString(n: int): (r: string)
    ensures |r| > 0 && (IsDigit(r[0]) || r[0] == '-')
    ensures forall i :: 0 < i < |r| ==> IsDigit(r[i])
  {
    if n < 0 then "-" + NatToString(-n) else NatToString(n)
  }

  /** The value of a run of decimal digits. */
  function DigitsValue(d: string): nat
    requires AllDigits(d)
  {
    if |d| == 0 then 0 else DigitsValue(d[..|d| - 1]) * 10 + DigitValue(d[|d| - 1])
  }

  /** Length of the longest run of digits that starts `s`. */
  function LeadingDigits(s: string): (n: nat)
    ensures n <= |s| && AllDigits(s[..n])
    ensures n < |s| ==> !IsDigit(s[n])
  {
    if |s| > 0 && IsDigit(s[0]) then
      var n := 1 + LeadingDigits(s[1..]);
      assert s[..n] == [s[0]] + s[1..][..n - 1];
      n
    else 0
  }

  /** What a `%d` conversion consumed and what it left behind. */
  datatype Scan = Scan(value: int, rest: string)

  /** At least one digit at the very start of `u`, and all the digits that
      follow it. */
  function ScanDigits(u: string): (r: Option<Scan>)
    ensures r.Some? ==> |r.value.rest| < |u| && r.value.rest == u[|u| - |r.value.rest|..]
    ensures r.Some? && |r.value.rest| > 0 ==> !IsDigit(r.value.rest[0])
  {
    var n := LeadingDigits(u);
    if n == 0 then None else Some(Scan(DigitsValue(u[..n]), u[n..]))
  }

  /** A sign then digits, at the very start of `t`. */
  function ScanSigned(t: string): (r: Option<Scan>)
    ensures r.Some? ==> |r.value.rest| < |t| && r.value.rest == t[|t| - |r.value.rest|..]
    ensures r.Some? && |r.value.rest| > 0 ==> !IsDigit(r.value.rest[0])
  {
    if |t| > 0 && (t[0] == '-' || t[0] == '+') then
      match ScanDigits(t[1..])
      case None => None
      case Some(sc) =>
        SuffixOfSuffix(t, t[1..], sc.rest);
        Some(Scan(if t[0] == '-' then -sc.value else sc.value, sc.rest))
    else ScanDigits(t)
  }

  /** The `%d` conversion of `sscanf` (and `strtol`, which `atoi` uses): skip
      white space, accept one optional sign, then at least one digit, taking
      all digits that follow. `None` is a matching or input failure. */
  function ScanInt(s: string): (r: Option<Scan>)
    ensures r.Some? ==> |r.value.rest| < |s| && r.value.rest == s[|s| - |r.value.rest|..]
    ensures r.Some? && |r.value.rest| > 0 ==> !IsDigit(r.value.rest[0])
    decreases |s|
  {
    if |s| > 0 && IsSpace(s[0]) then
      var r := ScanInt(s[1..]);
      if r.Some? then SuffixOfSuffix(s, s[1..], r.value.rest); r else r
    else ScanSigned(s)
  }

  /** A suffix of a suffix is a suffix. */
  lemma SuffixOfSuffix(s: string, t: string, u: string)
    requires |t| <= |s| && t == s[|s| - |t|..]
    requires |u| <= |t| && u == t[|t| - |u|..]
    ensures u == s[|s| - |u|..]
  {
    assert t[|t| - |u|..] == s[|s| - |u|..];
  }

  /** `atoi`: the leading integer, or 0 when there is none. */
  function Atoi(s: string): int {
    match ScanInt(s)
    case Some(sc) => sc.value
    case None => 0
  }

  lemma {:induction false} DigitsValueOfNat(n: nat)
    ensures DigitsValue(NatToString(n)) == n
    decreases n
  {
    if n >= 10 {
      var d := NatToString(n);
      assert d[..|d| - 1] == NatToString(n / 10);
      DigitsValueOfNat(n / 10);
    }
  }

  lemma {:induction false} LeadingDigitsOfDigits(d: string, rest: string)
    requires AllDigits(d)
    requires |rest| == 0 || !IsDigit(rest[0])
    ensures LeadingDigits(d + rest) == |d|
    decreases |d|
  {
    if |d| > 0 {
      assert (d + rest)[1..] == d[1..] + rest;
      LeadingDigitsOfDigits(d[1..], rest);
    }
  }

  lemma TrimLeftNoSpace(s: string)
    requires |s| == 0 || !IsSpace(s[0])
    ensures TrimLeft(s) == s
  {
  }

  /** Digits, then something that is not a digit, scan to their value. */
  lemma ScanDigitsOf(d: string, rest: string)
    requires AllDigits(d) && |d| > 0
    requires |rest| == 0 || !IsDigit(rest[0])
    ensures ScanDigits(d + rest) == Some(Scan(DigitsValue(d), rest))
  {
    var u := d + rest;
    LeadingDigitsOfDigits(d, rest);
    assert u[..|d|] == d && u[|d|..] == rest;
    assert DigitsValue(u[..|d|]) == DigitsValue(d);
  }

  /** Digits without a sign scan to their value. */
  lemma ScanSignedDigits(d: string, rest: string)
    requires AllDigits(d) && |d| > 0
    requires |rest| == 0 || !IsDigit(rest[0])
    ensures ScanSigned(d + rest) == Some(Scan(DigitsValue(d), rest))
  {
    assert (d + rest)[0] == d[0];
    ScanDigitsOf(d, rest);
  }

  /** A minus sign then digits scan to the negated value. */
  lemma ScanSignedNegative(t: string, d: string, rest: string)
    requires AllDigits(d) && |d| > 0
    requires |rest| == 0 || !IsDigit(rest[0])
    requires |t| > 0 && t[0] == '-' && t[1..] == d + rest
    ensures ScanSigned(t) == Some(Scan(0 - DigitsValue(d), rest))
  {
    ScanDigitsOf(d, rest);
    assert ScanDigits(t[1..]) == Some(Scan(DigitsValue(d), rest));
  }

  /** `%d` at a non-blank: the white-space skip does nothing. */
  lemma ScanIntAtSign(s: string)
    requires |s| > 0 && !IsSpace(s[0])
    ensures ScanInt(s) == ScanSigned(s)
  {
  }

  /** Printed digits, then something that is not a digit, scan back. */
  lemma ScanIntDigits(d: string, rest: string)
    requires AllDigits(d) && |d| > 0
    requires |rest| == 0 || !IsDigit(rest[0])
    ensures ScanInt(d + rest) == Some(Scan(DigitsValue(d), rest))
  {
    var s := d + rest;
    assert s[0] == d[0];
    ScanIntAtSign(s);
    ScanSignedDigits(d, rest);
  }

  /** Reading back what `%d` printed: the same value, and scanning stops right
      after the number when the next character is not a digit. */
  lemma ScanIntToString(n: int, rest: string)
    requires |rest| == 0 || !IsDigit(rest[0])
    ensures ScanInt(IntToString(n) + rest) == Some(Scan(n, rest))
  {
    if n < 0 {
      ScanIntNegative(0 - n, rest);
    } else {
      var d := NatToString(n);
      DigitsValueOfNat(n);
      ScanIntDigits(d, rest);
    }
  }

  /** A printed negative number scans back to itself. */
  lemma ScanIntNegative(m: nat, rest: string)
    requires m > 0
    requires |rest| == 0 || !IsDigit(rest[0])
    ensures ScanInt(IntToString(0 - m) + rest) == Some(Scan(0 - m, rest))
  {
    var d := NatToString(m);
    var s := IntToString(0 - m) + rest;
    PrintedNegative(m, rest);
    assert s[1..] == d + rest;
    DigitsValueOfNat(m);
    ScanSignedNegative(s, d, rest);
    assert Scan(0 - DigitsValue(d), rest) == Scan(0 - m, rest);
    ScanIntAtSign(s);
  }

  lemma PrintedNegative(m: nat, rest: string)
    requires m > 0
    ensures IntToString(0 - m) + rest == "-" + (NatToString(m) + rest)
  {
    assert IntToString(0 - m) == "-" + NatToString(m);
    AppendAssoc("-", NatToString(m), rest);
  }

  lemma TrimLeftSkipsBlank(s: string)
    ensures TrimLeft(" " + s) == TrimLeft(s)
  {
    assert (" " + s)[1..] == s;
  }

  /** A blank directive followed by `%d` reads back a printed number. */
  lemma ScanIntAfterBlank(n: int, rest: string)
    requires |rest| == 0 || !IsDigit(rest[0])
    ensures ScanInt(" " + IntToString(n) + rest) == Some(Scan(n, rest))
  {
    var s := IntToString(n) + rest;
    var b := " " + s;
    AppendAssoc(" ", IntToString(n), rest);
    ScanIntToString(n, rest);
    ScanIntAfterBlankOf(b, s);
  }

  /** `%d` after one blank scans what follows the blank. */
  lemma ScanIntAfterBlankOf(b: string, s: string)
    requires |b| > 0 && b[0] == ' ' && b[1..] == s
    ensures ScanInt(b) == ScanInt(s)
  {
  }

  lemma {:induction false} ScanIntSkipsSpace(s: string)
    ensures ScanInt(s) == ScanSigned(TrimLeft(s))
    decreases |s|
  {
    if |s| > 0 && IsSpace(s[0]) {
      ScanIntSkipsSpace(s[1..]);
    }
  }

  /** The length of a printed number is bounded by its number of decimal digits. */
  lemma {:induction false} NatToStringLength(n: nat, k: nat)
    requires n < Pow10(k)
    requires k > 0
    ensures |NatToString(n)| <= k
    decreases n
  {
    if n >= 10 {
      NatToStringLength(n / 10, k - 1);
    }
  }

  function Pow10(k: nat): nat {
    if k == 0 then 1 else 10 * Pow10(k - 1)
  }
}

=== FILE: config.dfy ===
/** The configuration table every draft keeps (`ProgramConfig configLines[256]`),
    the `sscanf(line, "%s %d", ...)` line parser, the four readers of the
    drafts, and the `name runtime\n` lines the servers push to clients. */
module Config {
  import opened Wrappers
  import opened Limits
  import opened CText
  import opened CNum

  /** `ProgramConfig`: a program name (empty for an unused slot) and its
      runtime limit in seconds. */
  datatype ProgramConfig = ProgramConfig(name: string, runtime: Uint32)

  type Table = seq<ProgramConfig>

  const EmptySlot := ProgramConfig("", 0)

  /** The table after the loop that zeroes every slot (and the zero-initialised
      global at start-up). */
  function ClearedTable(): (t: Table)
    ensures |t| == CONFIG_FILE_LINES
    ensures forall i :: 0 <= i < |t| ==> t[i] == EmptySlot
  {
    seq(CONFIG_FILE_LINES, _ => EmptySlot)
  }

  /** Length of the run of non-space characters that starts `s`: what `%s` takes. */
  function TokenLength(s: string): (n: nat)
    ensures n <= |s| && NoSpace(s[..n])
    ensures n < |s| ==> IsSpace(s[n])
  {
    if |s| > 0 && !IsSpace(s[0]) then
      var n := 1 + TokenLength(s[1..]);
      assert s[..n] == [s[0]] + s[1..][..n - 1];
      n
    else 0
  }

  /** The value `sscanf(line, "%s %d", ...)` returns, with what it stored:
      `NoItems` is EOF (only white space before the end), `NameOnly` is 1 and
      `NameAndNumber` is 2. */
  datatype ScanResult = NoItems | NameOnly(name: string) | NameAndNumber(name: string, number: int)

  function ScanNameInt(line: string): (r: ScanResult)
    ensures r.NoItems? <==> AllSpace(line)
    ensures !r.NoItems? ==> |r.name| > 0 && NoSpace(r.name)
    decreases |line|
  {
    if |line| == 0 then NoItems
    else if IsSpace(line[0]) then
      // `%s` skips leading white space
      var r := ScanNameInt(line[1..]);
      assert AllSpace(line) <==> AllSpace(line[1..]) by {
        assert forall i :: 0 < i < |line| ==> line[i] == line[1..][i - 1];
      }
      r
    else
      var n := TokenLength(line);
      // the ' ' directive and `%d` both skip white space
      match ScanInt(line[n..])
      case None => NameOnly(line[..n])
      case Some(sc) => NameAndNumber(line[..n], sc.value)
  }

  /** A `%s` token: non-empty, no white space. */
  predicate Token(s: string) {
    |s| > 0 && NoSpace(s)
  }

  /** Names a reader can have stored: non-empty slots hold `%s` tokens. */
  predicate WellFormed(table: Table) {
    forall i :: 0 <= i < |table| ==> table[i].name == [] || NoSpace(table[i].name)
  }

  /** What `ScanNameInt` can return. */
  predicate ValidScan(sc: ScanResult) {
    sc.NoItems? || Token(sc.name)
  }

  predicate AllValid(scans: seq<ScanResult>) {
    forall i :: 0 <= i < |scans| ==> ValidScan(scans[i])
  }

  /** `sscanf` applied to every line of the file. */
  function ScanAll(lines: seq<string>): (r: seq<ScanResult>)
    ensures |r| == |lines| && AllValid(r)
    ensures forall i :: 0 <= i < |lines| ==> r[i] == ScanNameInt(lines[i])
  {
    seq(|lines|, i requires 0 <= i < |lines| => ScanNameInt(lines[i]))
  }

  /** A line that yields both items. */
  predicate Complete(line: string) {
    ScanNameInt(line).NameAndNumber?
  }

  /** The slot a two-item scan fills: the name and the runtime stored
      through the `unsigned int` field. The readers then trim the name, which
      leaves a `%s` token as it is (`TrimLeavesToken`), so the trim is not
      repeated here. */
  function Entry(sc: ScanResult): (e: ProgramConfig)
    requires sc.NameAndNumber? && Token(sc.name)
    ensures e.name == sc.name && e.runtime == ToUint32(sc.number)
  {
    ProgramConfig(sc.name, ToUint32(sc.number))
  }

  /** `trimWhitespace` applied to a name a scan stored changes nothing. */
  lemma TrimLeavesToken(sc: ScanResult)
    requires ValidScan(sc) && !sc.NoItems?
    ensures Trim(sc.name) == sc.name
  {
    TrimToken(sc.name);
  }

  /** The slot a complete line fills. */
  function ParsedEntry(line: string): (e: ProgramConfig)
    requires Complete(line)
    ensures e.name == ScanNameInt(line).name && e.runtime == ToUint32(ScanNameInt(line).number)
  {
    Entry(ScanNameInt(line))
  }

  // ---------------------------------------------------------------------------
  // assignment3 client: every line must yield two items, otherwise the node
  // logs an Error and exits; there is no bound on the number of lines.

  /** `readConfigurationFile` of the client from scanned line `k` on;
      `Failure(k)` is the first line that does not yield two items, the index
      the error message reports. */
  function ReadClientFrom(table: Table, scans: seq<ScanResult>, k: nat): (r: Result<Table, nat>)
    requires k <= |scans| <= |table| && AllValid(scans)
    ensures r.Success? <==> forall i :: k <= i < |scans| ==> scans[i].NameAndNumber?
    ensures r.Failure? ==> k <= r.error < |scans| && !scans[r.error].NameAndNumber?
    ensures r.Failure? ==> forall i :: k <= i < r.error ==> scans[i].NameAndNumber?
    ensures r.Success? ==> |r.value| == |table|
    ensures r.Success? ==> forall i :: k <= i < |scans| ==> r.value[i] == Entry(scans[i])
    ensures r.Success? ==> forall i :: 0 <= i < |table| && !(k <= i < |scans|) ==> r.value[i] == table[i]
    decreases |scans| - k
  {
    if k == |scans| then Success(table)
    else if scans[k].NameAndNumber? then ReadClientFrom(table[k := Entry(scans[k])], scans, k + 1)
    else Failure(k)
  }

  /** The client's reader over a whole file. The loop has no bound: once the
      first `CONFIG_FILE_LINES` lines have all been stored, a further line
      makes `sscanf` address slot `CONFIG_FILE_LINES`, past the end of
      `configLines`, which C leaves undefined; `None` marks that outcome.
      Otherwise the first line without a name and a number is the error,
      or every line fills its slot. */
  function ReadClient(table: Table, lines: seq<string>): (r: Option<Result<Table, nat>>)
    requires |table| == CONFIG_FILE_LINES
    ensures r.None? <==> CONFIG_FILE_LINES < |lines| && forall i :: 0 <= i < CONFIG_FILE_LINES ==> Complete(lines[i])
    ensures r.Some? ==> (r.value.Success? <==> |lines| <= CONFIG_FILE_LINES && forall i :: 0 <= i < |lines| ==> Complete(lines[i]))
    ensures r.Some? && r.value.Failure? ==> var k := r.value.error;
      k < |lines| && k < CONFIG_FILE_LINES && !Complete(lines[k]) && forall i :: 0 <= i < k ==> Complete(lines[i])
    ensures r.Some? && r.value.Success? ==> var t := r.value.value;
      && |t| == CONFIG_FILE_LINES
      && (forall i :: 0 <= i < |lines| ==> t[i] == ParsedEntry(lines[i]))
      && (forall i :: |lines| <= i < CONFIG_FILE_LINES ==> t[i] == table[i])
  {
    var n := if |lines| <= CONFIG_FILE_LINES then |lines| else CONFIG_FILE_LINES;
    var head := lines[..n];
    assert forall i :: 0 <= i < n ==> head[i] == lines[i];
    match ReadClientFrom(table, ScanAll(head), 0)
    case Failure(k) => Some(Failure(k))
    case Success(t) => if n < |lines| then None else Some(Success(t))
  }

  // ---------------------------------------------------------------------------
  // assignment3 main server: clears all slots, accepts a line with no items
  // (the slot stays empty), rejects a name without a number, reads at most
  // CONFIG_FILE_LINES lines.

  function ReadServerFrom(table: Table, scans: seq<ScanResult>, k: nat): (r: Result<Table, nat>)
    requires |table| == CONFIG_FILE_LINES && k <= |scans| && AllValid(scans)
    ensures r.Success? <==> forall i :: k <= i < |scans| && i < CONFIG_FILE_LINES ==> !scans[i].NameOnly?
    ensures r.Failure? ==> k <= r.error < |scans| && r.error < CONFIG_FILE_LINES && scans[r.error].NameOnly?
    ensures r.Success? ==> |r.value| == CONFIG_FILE_LINES
    ensures r.Success? ==> forall i :: k <= i < |scans| && i < CONFIG_FILE_LINES && scans[i].NameAndNumber? ==> r.value[i] == Entry(scans[i])
    ensures r.Success? ==> forall i :: 0 <= i < CONFIG_FILE_LINES && !(k <= i < |scans| && scans[i].NameAndNumber?) ==> r.value[i] == table[i]
    decreases |scans| - k
  {
    if k == |scans| || k >= CONFIG_FILE_LINES then Success(table)
    else match scans[k]
      case NoItems => ReadServerFrom(table, scans, k + 1)
      case NameOnly(_) => Failure(k)
      case NameAndNumber(_, _) => ReadServerFrom(table[k := Entry(scans[k])], scans, k + 1)
  }

  /** The main server's `readConfigurationFile`. */
  function ReadServer(lines: seq<string>): (r: Result<Table, nat>)
    ensures r.Success? <==> forall i :: 0 <= i < |lines| && i < CONFIG_FILE_LINES ==> !ScanNameInt(lines[i]).NameOnly?
    ensures r.Failure? ==> r.error < |lines| && r.error < CONFIG_FILE_LINES && ScanNameInt(lines[r.error]).NameOnly?
    ensures r.Success? ==> |r.value| == CONFIG_FILE_LINES
    ensures r.Success? ==> forall i :: 0 <= i < CONFIG_FILE_LINES ==>
      r.value[i] == (if i < |lines| && Complete(lines[i]) then ParsedEntry(lines[i]) else EmptySlot)
  {
    ReadServerFrom(ClearedTable(), ScanAll(lines), 0)
  }

  // ---------------------------------------------------------------------------
  // procnanny_server variant: every line must yield two items (a blank line is
  // fatal too), at most CONFIG_FILE_LINES lines are read, and the reader does
  // not clear the table itself.

  function ReadVariantFrom(table: Table, scans: seq<ScanResult>, k: nat): (r: Result<Table, nat>)
    requires |table| == CONFIG_FILE_LINES && k <= |scans| && AllValid(scans)
    ensures r.Success? <==> forall i :: k <= i < |scans| && i < CONFIG_FILE_LINES ==> scans[i].NameAndNumber?
    ensures r.Failure? ==> k <= r.error < |scans| && r.error < CONFIG_FILE_LINES && !scans[r.error].NameAndNumber?
    ensures r.Failure? ==> forall i :: k <= i < r.error ==> scans[i].NameAndNumber?
    ensures r.Success? ==> |r.value| == CONFIG_FILE_LINES
    ensures r.Success? ==> forall i :: k <= i < |scans| && i < CONFIG_FILE_LINES ==> r.value[i] == Entry(scans[i])
    ensures r.Success? ==> forall i :: 0 <= i < CONFIG_FILE_LINES && !(k <= i < |scans|) ==> r.value[i] == table[i]
    decreases |scans| - k
  {
    if k == |scans| || k >= CONFIG_FILE_LINES then Success(table)
    else if scans[k].NameAndNumber? then ReadVariantFrom(table[k := Entry(scans[k])], scans, k + 1)
    else Failure(k)
  }

  /** The variant server's `readConfigurationFile`. */
  function ReadVariant(table: Table, lines: seq<string>): (r: Result<Table, nat>)
    requires |table| == CONFIG_FILE_LINES
    ensures r.Success? <==> forall i :: 0 <= i < |lines| && i < CONFIG_FILE_LINES ==> Complete(lines[i])
    ensures r.Failure? ==> r.error < |lines| && r.error < CONFIG_FILE_LINES && !Complete(lines[r.error])
    ensures r.Failure? ==> forall i :: 0 <= i < r.error ==> Complete(lines[i])
    ensures r.Success? ==> |r.value| == CONFIG_FILE_LINES
    ensures r.Success? ==> forall i :: 0 <= i < |lines| && i < CONFIG_FILE_LINES ==> r.value[i] == ParsedEntry(lines[i])
    ensures r.Success? ==> forall i :: |lines| <= i < CONFIG_FILE_LINES ==> r.value[i] == table[i]
  {
    ReadVariantFrom(table, ScanAll(lines), 0)
  }

  // ---------------------------------------------------------------------------
  // assignment2: the error handling is commented out, so no line is fatal;
  // whatever `sscanf` stored stays, and the name is trimmed unconditionally.

  /** The slot after a scan has been stored into it and before the trim. */
  function ScanInto(slot: ProgramConfig, sc: ScanResult): (r: ProgramConfig)
    ensures sc.NoItems? ==> r == slot
    ensures !sc.NoItems? ==> r.name == sc.name
    ensures sc.NameAndNumber? ==> r.runtime == ToUint32(sc.number)
    ensures sc.NameOnly? ==> r.runtime == slot.runtime
  {
    match sc
    case NoItems => slot
    case NameOnly(n) => slot.(name := n)
    case NameAndNumber(n, v) => ProgramConfig(n, ToUint32(v))
  }

  /** The lenient reader as written: `trimWhitespace` runs even on an empty
      name, where `strlen(str) - 1` wraps around and the copy loop runs off
      the buffer; `None` marks that undefined behaviour. */
  function ReadLenientAsWritten(table: Table, scans: seq<ScanResult>, k: nat): (r: Option<Table>)
    requires |scans| <= |table| && k <= |scans| && AllValid(scans) && WellFormed(table)
    ensures r.None? <==> exists i :: k <= i < |scans| && scans[i].NoItems? && table[i].name == []
    ensures r.Some? ==> r.value == ReadLenient(table, scans, k)
    decreases |scans| - k
  {
    if k == |scans| then Some(table)
    else
      var slot := ScanInto(table[k], scans[k]);
      if slot.name == [] then None
      else ReadLenientAsWritten(table[k := slot], scans, k + 1)
  }

  /** The lenient reader with the trim guarded by `strlen(...) != 0`, as the
      main server does. */
  function ReadLenient(table: Table, scans: seq<ScanResult>, k: nat): (r: Table)
    requires |scans| <= |table| && k <= |scans| && AllValid(scans) && WellFormed(table)
    ensures |r| == |table|
    ensures forall i :: k <= i < |scans| ==> r[i] == ScanInto(table[i], scans[i])
    ensures forall i :: 0 <= i < |table| && !(k <= i < |scans|) ==> r[i] == table[i]
    decreases |scans| - k
  {
    if k == |scans| then table
    else
      var slot := ScanInto(table[k], scans[k]);
      if slot.name == [] then ReadLenient(table, scans, k + 1)
      else ReadLenient(table[k := slot], scans, k + 1)
  }

  /** A blank line in a fresh table reaches `trimWhitespace("")`. */
  lemma LenientBlankLineIsUndefined()
    ensures ReadLenientAsWritten(ClearedTable(), ScanAll(["\n"]), 0).None?
  {
    assert AllSpace("\n");
  }

  /** With the guard the same file leaves the slot empty. */
  lemma LenientBlankLineGuarded()
    ensures ReadLenient(ClearedTable(), ScanAll(["\n"]), 0)[0] == EmptySlot
  {
    assert AllSpace("\n");
  }

  // ---------------------------------------------------------------------------
  // The configuration push: `snprintf(buffer, 1024, "%s %d\n", name, runtime)`
  // for every slot with a non-empty name, in table order.

  function FormatEntry(e: ProgramConfig): string {
    e.name + " " + IntToString(ToInt32(e.runtime)) + "\n"
  }

  /** The lines sent, one `send` each. */
  function PushLines(table: Table): seq<string> {
    if |table| == 0 then []
    else (if table[0].name != [] then [FormatEntry(table[0])] else []) + PushLines(table[1..])
  }

  /** The entries with a non-empty name, in table order. */
  function NonEmpty(table: Table): (r: seq<ProgramConfig>)
    ensures |r| <= |table|
    ensures forall e :: e in r <==> e in table && e.name != []
  {
    if |table| == 0 then []
    else (if table[0].name != [] then [table[0]] else []) + NonEmpty(table[1..])
  }

  /** Exactly one line per non-empty slot, in table order; empty slots send nothing. */
  lemma {:induction false} PushLinesAreNonEmptyEntries(table: Table)
    ensures |PushLines(table)| == |NonEmpty(table)|
    ensures forall i :: 0 <= i < |PushLines(table)| ==> PushLines(table)[i] == FormatEntry(NonEmpty(table)[i])
  {
    if |table| > 0 {
      PushLinesAreNonEmptyEntries(table[1..]);
    }
  }

  lemma TokenLengthOfToken(name: string, rest: string)
    requires NoSpace(name) && |rest| > 0 && IsSpace(rest[0])
    ensures TokenLength(name + rest) == |name|
    decreases |name|
  {
    if |name| > 0 {
      assert (name + rest)[1..] == name[1..] + rest;
      TokenLengthOfToken(name[1..], rest);
    }
  }

  /** A line `name number\n` scans to its name and number. */
  lemma ScanNameNumber(name: string, v: int)
    requires Token(name)
    ensures ScanNameInt(name + " " + IntToString(v) + "\n") == NameAndNumber(name, v)
  {
    var tail := " " + IntToString(v) + "\n";
    var line := name + " " + IntToString(v) + "\n";
    assert line == name + tail;
    TokenLengthOfToken(name, tail);
    assert line[..|name|] == name;
    assert line[|name|..] == tail;
    ScanIntAfterBlank(v, "\n");
  }

  /** A pushed line scans back, under the readers' `"%s %d"`, to the slot it
      was printed from. */
  lemma ScanFormatEntry(e: ProgramConfig)
    requires Token(e.name)
    ensures ScanNameInt(FormatEntry(e)) == NameAndNumber(e.name, ToInt32(e.runtime))
    ensures Complete(FormatEntry(e)) && ParsedEntry(FormatEntry(e)) == e
  {
    ScanNameNumber(e.name, ToInt32(e.runtime));
    Int32RoundTrip(e.runtime);
  }

  /** Every pushed line is a `getline` chunk. */
  lemma FormatEntryIsChunk(e: ProgramConfig)
    requires NoSpace(e.name)
    ensures IsChunk(FormatEntry(e)) && FormatEntry(e)[|FormatEntry(e)| - 1] == '\n'
  {
    var l := FormatEntry(e);
    var num := IntToString(ToInt32(e.runtime));
    forall i | 0 <= i < |l| - 1 ensures l[i] != '\n' {
      if i < |e.name| { assert l[i] == e.name[i]; }
      else if i > |e.name| { assert l[i] == num[i - |e.name| - 1]; }
    }
  }

  /** `getline` on the pushed text gives back the pushed lines. */
  lemma PushLinesSplit(table: Table)
    requires WellFormed(table)
    ensures Lines(Concat(PushLines(table))) == PushLines(table)
  {
    var pl := PushLines(table);
    var ne := NonEmpty(table);
    PushLinesAreNonEmptyEntries(table);
    forall k | 0 <= k < |pl| ensures IsChunk(pl[k]) && pl[k][|pl[k]| - 1] == '\n' {
      assert ne[k] in table;
      FormatEntryIsChunk(ne[k]);
    }
    LinesOfConcat(pl);
  }

  /** Round trip of the configuration push: the text the server sends, split
      by `getline` and read by the client's reader into a cleared table, gives
      back every non-empty entry, in table order, with its runtime. */
  lemma PushRoundTrip(table: Table)
    requires |table| == CONFIG_FILE_LINES && WellFormed(table)
    ensures |NonEmpty(table)| <= CONFIG_FILE_LINES
    ensures var lines := Lines(Concat(PushLines(table)));
      |lines| <= CONFIG_FILE_LINES && ReadClient(ClearedTable(), lines) == Some(Success(Fill(NonEmpty(table))))
  {
    PushLinesSplit(table);
    PushLinesParse(table);
    ReadCompleteLines(PushLines(table), NonEmpty(table));
  }

  /** Every pushed line parses back to its entry. */
  lemma PushLinesParse(table: Table)
    requires WellFormed(table)
    ensures |PushLines(table)| == |NonEmpty(table)|
    ensures forall k :: 0 <= k < |PushLines(table)| ==>
      Complete(PushLines(table)[k]) && ParsedEntry(PushLines(table)[k]) == NonEmpty(table)[k]
  {
    var pl := PushLines(table);
    var ne := NonEmpty(table);
    PushLinesAreNonEmptyEntries(table);
    forall k | 0 <= k < |pl| ensures Complete(pl[k]) && ParsedEntry(pl[k]) == ne[k] {
      assert ne[k] in table;
      ScanFormatEntry(ne[k]);
    }
  }

  /** `entries` followed by empty slots: the table a client ends up with
      after reading a push into a cleared table. */
  function Fill(entries: seq<ProgramConfig>): (r: Table)
    requires |entries| <= CONFIG_FILE_LINES
    ensures |r| == CONFIG_FILE_LINES
  {
    entries + seq(CONFIG_FILE_LINES - |entries|, _ => EmptySlot)
  }

  /** Reading lines that all yield two items into a cleared table. */
  lemma ReadCompleteLines(lines: seq<string>, entries: seq<ProgramConfig>)
    requires |lines| == |entries| <= CONFIG_FILE_LINES
    requires forall k :: 0 <= k < |lines| ==> Complete(lines[k]) && ParsedEntry(lines[k]) == entries[k]
    ensures ReadClient(ClearedTable(), lines) == Some(Success(Fill(entries)))
  {
    var r := ReadClient(ClearedTable(), lines);
    assert r.Some? && r.value.Success?;
    assert r.value.value == Fill(entries);
  }
}

=== FILE: ctext.dfy ===
/** The C string handling the drafts share: `isspace`, `trimWhitespace`,
    `strstr`, NUL termination, `getline` line splitting, newline counting and
    `snprintf` truncation. Strings are `seq<char>` without a terminator. */
module CText {

  /** `isspace` in the C locale: space, `\t`, `\n`, `\v`, `\f` and `\r`. */
  predicate IsSpace(c: char) {
    c == ' ' || ('\t' <= c <= '\r')
  }

  predicate AllSpace(s: string) {
    forall i :: 0 <= i < |s| ==> IsSpace(s[i])
  }

  /** What a `%s` conversion can produce: a run of non-space characters. */
  predicate NoSpace(s: string) {
    forall i :: 0 <= i < |s| ==> !IsSpace(s[i])
  }

  predicate HasPrefix(s: string, p: string) {
    |p| <= |s| && s[..|p|] == p
  }

  /** Drops the leading white space (the first loop of `trimWhitespace`, and
      the white-space skipping of `sscanf` directives). */
  function TrimLeft(s: string): (r: string)
    ensures |r| <= |s| && r == s[|s| - |r|..]
    ensures AllSpace(s[..|s| - |r|])
    ensures |r| > 0 ==> !IsSpace(r[0])
  {
    if |s| > 0 && IsSpace(s[0]) then TrimLeft(s[1..]) else s
  }

  /** Drops the trailing white space (the second loop of `trimWhitespace`). */
  function TrimRight(s: string): (r: string)
    ensures |r| <= |s| && r == s[..|r|]
    ensures AllSpace(s[|r|..])
    ensures |r| > 0 ==> !IsSpace(r[|r| - 1])
  {
    if |s| > 0 && IsSpace(s[|s| - 1]) then TrimRight(s[..|s| - 1]) else s
  }

  /** `s[i..j]` is what is left of `s` once its leading and trailing white
      space is cut off. */
  predicate TrimmedAt(s: string, i: int, j: int) {
    && 0 <= i <= j <= |s|
    && AllSpace(s[..i])
    && AllSpace(s[j..])
    && (i < j ==> !IsSpace(s[i]) && !IsSpace(s[j - 1]))
  }

  /** `trimWhitespace`: the C code computes `strlen(str) - 1` in a `size_t`,
      which wraps around on the empty string, so the string must be non-empty. */
  function Trim(s: string): (r: string)
    requires |s| > 0
    ensures exists i, j :: TrimmedAt(s, i, j) && r == s[i..j]
  {
    var l := TrimLeft(s);
    var r := TrimRight(l);
    TrimLeftRight(s, l, r);
    r
  }

  /** The two trimming passes cut `s` at the points `TrimmedAt` describes. */
  lemma TrimLeftRight(s: string, l: string, r: string)
    requires |l| <= |s| && l == s[|s| - |l|..] && AllSpace(s[..|s| - |l|]) && (|l| > 0 ==> !IsSpace(l[0]))
    requires |r| <= |l| && r == l[..|r|] && AllSpace(l[|r|..]) && (|r| > 0 ==> !IsSpace(r[|r| - 1]))
    ensures TrimmedAt(s, |s| - |l|, |s| - |l| + |r|) && r == s[|s| - |l|..|s| - |l| + |r|]
  {
    var i := |s| - |l|;
    var j := i + |r|;
    forall k | j <= k < |s| ensures IsSpace(s[k]) {
      assert s[k] == l[k - i] == l[|r|..][k - j];
    }
    assert r == s[i..j];
    if i < j {
      assert s[i] == l[0];
      assert s[j - 1] == r[|r| - 1];
    }
  }

  /** Any two trims of the same string agree: the characterisation in `Trim`'s
      contract leaves no choice. */
  lemma TrimmedAtUnique(s: string, i: int, j: int, i': int, j': int)
    requires TrimmedAt(s, i, j) && TrimmedAt(s, i', j')
    ensures s[i..j] == s[i'..j']
  {
    forall k | 0 <= k < i ensures IsSpace(s[k]) { assert s[..i][k] == s[k]; }
    forall k | 0 <= k < i' ensures IsSpace(s[k]) { assert s[..i'][k] == s[k]; }
    forall k | j <= k < |s| ensures IsSpace(s[k]) { assert s[j..][k - j] == s[k]; }
    forall k | j' <= k < |s| ensures IsSpace(s[k]) { assert s[j'..][k - j'] == s[k]; }
  }

  /** `Trim` is the trim located by any pair of cut points. */
  lemma TrimAt(s: string, i: int, j: int)
    requires |s| > 0 && TrimmedAt(s, i, j)
    ensures Trim(s) == s[i..j]
  {
    var t := Trim(s);
    var i', j' :| TrimmedAt(s, i', j') && t == s[i'..j'];
    TrimmedAtUnique(s, i, j, i', j');
  }

  /** A `%s` token has no white space to trim, so trimming it changes nothing. */
  lemma TrimToken(s: string)
    requires |s| > 0 && NoSpace(s)
    ensures Trim(s) == s
  {
    assert TrimmedAt(s, 0, |s|);
    TrimAt(s, 0, |s|);
  }

  /** The loops of `trimWhitespace` as written: advance `begin` over leading
      white space (stopping at the terminator), move `end` back over trailing
      white space while `end >= begin`, then copy `str[begin..end]` to the front. */
  method TrimWhitespace(s: string) returns (r: string)
    requires |s| > 0
    ensures r == Trim(s)
  {
    var begin := 0;
    while begin < |s| && IsSpace(s[begin])
      invariant 0 <= begin <= |s|
      invariant AllSpace(s[..begin])
    {
      begin := begin + 1;
    }
    var end := |s| - 1;
    while end >= begin && IsSpace(s[end])
      invariant begin - 1 <= end <= |s| - 1
      invariant AllSpace(s[end + 1..])
    {
      end := end - 1;
    }
    r := [];
    var i := begin;
    while i <= end
      invariant begin <= i <= end + 1
      invariant r == s[begin..i]
    {
      r := r + [s[i]];
      i := i + 1;
    }
    TrimAt(s, begin, end + 1);
  }

  predicate OccursAt(s: string, pat: string, i: int) {
    0 <= i <= |s| - |pat| && s[i..i + |pat|] == pat
  }

  /** `strstr(s, pat) != NULL`. */
  function Contains(s: string, pat: string): (r: bool)
    ensures r <==> exists i :: OccursAt(s, pat, i)
    decreases |s|
  {
    if |pat| > |s| then false
    else if s[..|pat|] == pat then assert OccursAt(s, pat, 0); true
    else
      var r := Contains(s[1..], pat);
      assert r ==> exists i :: OccursAt(s, pat, i) by {
        if r {
          var i :| OccursAt(s[1..], pat, i);
          assert s[1..][i..i + |pat|] == s[i + 1..i + 1 + |pat|];
          assert OccursAt(s, pat, i + 1);
        }
      }
      assert (exists i :: OccursAt(s, pat, i)) ==> r by {
        if exists i :: OccursAt(s, pat, i) {
          var i :| OccursAt(s, pat, i);
          assert s[1..][i - 1..i - 1 + |pat|] == s[i..i + |pat|];
          assert OccursAt(s[1..], pat, i - 1);
        }
      }
      r
  }

  /** The part of a received buffer a C string function sees: everything
      before the first NUL. */
  function CString(b: string): (r: string)
    ensures |r| <= |b| && r == b[..|r|]
    ensures '\0' !in r
    ensures |r| < |b| ==> b[|r|] == '\0'
  {
    if |b| == 0 || b[0] == '\0' then [] else [b[0]] + CString(b[1..])
  }

  /** Index of the first `'\n'`, or `|s|` when there is none. */
  function NewlineIndex(s: string): (k: nat)
    ensures k <= |s|
    ensures '\n' !in s[..k]
    ensures k < |s| ==> s[k] == '\n'
  {
    if |s| == 0 then 0
    else if s[0] == '\n' then 0
    else 1 + NewlineIndex(s[1..])
  }

  /** One `getline` chunk: non-empty, no newline before its last character. */
  predicate IsChunk(l: string) {
    |l| > 0 && '\n' !in l[..|l| - 1]
  }

  /** The successive results of `getline`: every chunk keeps its `'\n'`;
      only the last may lack one. */
  function Lines(text: string): (r: seq<string>)
    ensures forall k :: 0 <= k < |r| ==> IsChunk(r[k]) && (k < |r| - 1 ==> r[k][|r[k]| - 1] == '\n')
    decreases |text|
  {
    if |text| == 0 then []
    else
      var k := NewlineIndex(text);
      if k == |text| then [text]
      else
        assert text[..k + 1][..k] == text[..k];
        [text[..k + 1]] + Lines(text[k + 1..])
  }

  lemma AppendAssoc<T>(x: seq<T>, y: seq<T>, z: seq<T>)
    ensures x + y + z == x + (y + z)
  {
  }

  function Concat(ls: seq<string>): string {
    if |ls| == 0 then [] else ls[0] + Concat(ls[1..])
  }

  /** Joining the chunks gives back the whole text: `getline` loses nothing. */
  lemma {:induction false} LinesConcat(text: string)
    ensures Concat(Lines(text)) == text
    decreases |text|
  {
    if |text| > 0 {
      var k := NewlineIndex(text);
      if k < |text| {
        LinesConcat(text[k + 1..]);
        assert text == text[..k + 1] + text[k + 1..];
      }
    }
  }

  /** A text made of terminated chunks splits back into exactly those chunks. */
  lemma {:induction false} LinesOfConcat(ls: seq<string>)
    requires forall k :: 0 <= k < |ls| ==> IsChunk(ls[k]) && ls[k][|ls[k]| - 1] == '\n'
    ensures Lines(Concat(ls)) == ls
  {
    if |ls| > 0 {
      var l := ls[0];
      var text := Concat(ls);
      assert text == l + Concat(ls[1..]);
      assert text[..|l|] == l;
      NewlineIndexPrefix(l, Concat(ls[1..]));
      assert text[|l|..] == Concat(ls[1..]);
      LinesOfConcat(ls[1..]);
    }
  }

  lemma NewlineIndexPrefix(l: string, rest: string)
    requires IsChunk(l) && l[|l| - 1] == '\n'
    ensures NewlineIndex(l + rest) == |l| - 1
  {
    var s := l + rest;
    assert s[|l| - 1] == '\n';
    forall m | 0 <= m < |l| - 1 ensures s[m] != '\n' {
      assert s[m] == l[..|l| - 1][m];
    }
  }

  /** `getNumberOfLines`: the number of `'\n'` characters read before EOF. */
  function CountNewlines(s: string): (n: nat)
    ensures n == multiset(s)['\n']
  {
    if |s| == 0 then 0
    else
      assert s == [s[0]] + s[1..];
      (if s[0] == '\n' then 1 else 0) + CountNewlines(s[1..])
  }

  /** A final line without `'\n'` is a `getline` chunk but is not counted by
      `getNumberOfLines`. */
  lemma {:induction false} LinesCount(text: string)
    ensures |Lines(text)| == CountNewlines(text) + (if |text| > 0 && text[|text| - 1] != '\n' then 1 else 0)
    decreases |text|
  {
    if |text| > 0 {
      var k := NewlineIndex(text);
      if k == |text| {
        assert '\n' !in text;
        assert multiset(text)['\n'] == 0;
      } else {
        var rest := text[k + 1..];
        LinesCount(rest);
        assert text == text[..k] + ['\n'] + rest;
        assert multiset(text[..k])['\n'] == 0;
        assert multiset(text) == multiset(text[..k]) + multiset(['\n']) + multiset(rest);
        if |rest| > 0 {
          assert text[|text| - 1] == rest[|rest| - 1];
        }
      }
    }
  }

  /** `snprintf(buf, size, ...)` keeps at most `size - 1` characters. */
  function Truncate(text: string, size: nat): (r: string)
    requires size > 0
    ensures |r| < size
    ensures HasPrefix(text, r)
    ensures |text| < size ==> r == text
  {
    if |text| < size then text else text[..size - 1]
  }
}

=== FILE: events.dfy ===
/** The log messages the client and the servers produce, and the servers'
    `logToFileSimple`, which counts a kill whenever a received message
    contains "killed after". */
module Events {
  import opened Limits
  import opened CText
  import opened CNum

  /** Whether a node is still in its loop, has called `exit` with a status,
      or has done something whose effect C leaves undefined (the model
      follows it no further). */
  datatype Status = Running | Exited(code: int) | Undefined

  /** `exit` statuses of the C library. */
  const EXIT_SUCCESS: int := 0
  const EXIT_FAILURE: int := 1

  /** One record appended to a log file: a `logToFile` line (its type and
      message; the timestamp is not modelled) or a verbatim `logToFileSimple`
      buffer. */
  datatype LogLine = Logged(kind: string, message: string) | Raw(text: string)

  /** The marker `logToFileSimple` looks for. */
  const Marker := "killed after"

  /** Action: "PID %d (%s) killed after exceeding %d seconds." */
  function KilledMessage(pid: int, name: string, runtime: Uint32): string {
    "PID " + IntToString(pid) + " (" + name + ") " + Marker + " exceeding " + IntToString(ToInt32(runtime)) + " seconds."
  }

  /** Info: "Initializing monitoring of process '%s' (PID %d)." */
  function InitializingMessage(name: string, pid: int): string {
    "Initializing monitoring of process '" + name + "' (PID " + IntToString(pid) + ")."
  }

  /** Info: "No '%s' processes found." */
  function NotFoundMessage(name: string): string {
    "No '" + name + "' processes found."
  }

  /** Info: "Caught SIGHUP. Configuration file '%s' re-read." */
  function RereadMessage(path: string): string {
    "Caught SIGHUP. Configuration file '" + path + "' re-read."
  }

  /** Info: "Caught SIGINT. Exiting cleanly. %d process(es) killed." */
  function ExitingMessage(killed: int): string {
    "Caught SIGINT. Exiting cleanly. " + IntToString(killed) + " process(es) killed."
  }

  /** Info: "Parent process is PID %d." */
  function ParentMessage(pid: int): string {
    "Parent process is PID " + IntToString(pid) + "."
  }

  /** "PID %d on node %s, port %d", logged by a server at start-up. */
  function ServerMessage(pid: int, host: string, port: int): string {
    "PID " + IntToString(pid) + " on node " + host + ", port " + IntToString(port)
  }

  /** Error: "Expected two configuration arguments at line %d of %s." */
  function BadLineMessage(index: int, path: string): string {
    "Expected two configuration arguments at line " + IntToString(index) + " of " + path + "."
  }

  /** Error when the configuration file cannot be opened. */
  const NoConfigMessage := "Could not read configuration file."

  /** `logToFile`'s line "[%s] %s: %s\n" cut to the `LogMessage` buffer; the
      time stamp is passed in. */
  function LogText(time: string, kind: string, message: string): (r: string)
    ensures |r| < LOG_MESSAGE_LENGTH
    ensures HasPrefix("[" + time + "] " + kind + ": " + message + "\n", r)
    ensures |time| + |kind| + |message| + 6 < LOG_MESSAGE_LENGTH ==> r == "[" + time + "] " + kind + ": " + message + "\n"
  {
    Truncate("[" + time + "] " + kind + ": " + message + "\n", LOG_MESSAGE_LENGTH)
  }

  /** `logToFileSimple` of the main server: the tally after one message. */
  function CountKill(killed: int, message: string): (r: int)
    ensures r == killed || r == killed + 1
    ensures r == killed + 1 <==> exists i :: OccursAt(message, Marker, i)
  {
    if Contains(message, Marker) then killed + 1 else killed
  }

  /** The Action message carries the marker. */
  lemma KilledMessageCounts(killed: int, pid: int, name: string, runtime: Uint32)
    ensures CountKill(killed, KilledMessage(pid, name, runtime)) == killed + 1
  {
    var pre := "PID " + IntToString(pid) + " (" + name + ") ";
    var post := " exceeding " + IntToString(ToInt32(runtime)) + " seconds.";
    var m := KilledMessage(pid, name, runtime);
    assert m == pre + Marker + post;
    assert m[|pre|..|pre| + |Marker|] == Marker;
    assert OccursAt(m, Marker, |pre|);
  }

  /** No blank is directly followed by 'a'; the marker has one, so a message
      with none cannot contain it. */
  predicate NoBlankA(s: string) {
    forall i :: 0 <= i < |s| - 1 ==> !(s[i] == ' ' && s[i + 1] == 'a')
  }

  lemma NoBlankAExcludesMarker(s: string)
    requires NoBlankA(s)
    ensures !Contains(s, Marker)
  {
    assert Marker[6] == ' ' && Marker[7] == 'a';
    forall i | 0 <= i && i + |Marker| <= |s| ensures !OccursAt(s, Marker, i) {
      assert !(s[i + 6] == ' ' && s[i + 7] == 'a');
      assert s[i..i + |Marker|][6] == s[i + 6] && s[i..i + |Marker|][7] == s[i + 7];
    }
  }

  lemma NoBlankAConcat(a: string, b: string)
    requires NoBlankA(a) && NoBlankA(b)
    requires |a| == 0 || |b| == 0 || a[|a| - 1] != ' ' || b[0] != 'a'
    ensures NoBlankA(a + b)
  {
    var s := a + b;
    forall i | 0 <= i < |s| - 1 ensures !(s[i] == ' ' && s[i + 1] == 'a') {
      if i + 1 < |a| {
        assert s[i] == a[i] && s[i + 1] == a[i + 1];
      } else if i >= |a| {
        assert s[i] == b[i - |a|] && s[i + 1] == b[i + 1 - |a|];
      }
    }
  }

  lemma NoBlankANumber(n: int)
    ensures NoBlankA(IntToString(n))
  {
  }

  lemma NoBlankAToken(s: string)
    requires NoSpace(s)
    ensures NoBlankA(s)
  {
  }

  /** The client's Info messages never count as a kill: names are `%s`
      tokens, so only the fixed text could hold the marker, and it does not. */
  lemma InitializingDoesNotCount(killed: int, name: string, pid: int)
    requires NoSpace(name)
    ensures CountKill(killed, InitializingMessage(name, pid)) == killed
  {
    NoBlankAToken(name);
    NoBlankANumber(pid);
    var p := IntToString(pid);
    var a1: string := "Initializing monitoring of process '";
    var a2: string := "' (PID ";
    var a3: string := ").";
    assert NoBlankA(a1) && NoBlankA(a2) && NoBlankA(a3);
    NoBlankAConcat(a1, name);
    NoBlankAConcat(a1 + name, a2);
    NoBlankAConcat(a1 + name + a2, p);
    NoBlankAConcat(a1 + name + a2 + p, a3);
    NoBlankAExcludesMarker(InitializingMessage(name, pid));
  }

  lemma NotFoundDoesNotCount(killed: int, name: string)
    requires NoSpace(name)
    ensures CountKill(killed, NotFoundMessage(name)) == killed
  {
    NoBlankAToken(name);
    var b1: string := "No '";
    var b2: string := "' processes found.";
    assert NoBlankA(b1) && NoBlankA(b2);
    NoBlankAConcat(b1, name);
    NoBlankAConcat(b1 + name, b2);
    NoBlankAExcludesMarker(NotFoundMessage(name));
  }

  /** The fixed parts of the SIGINT exit line hold no blank before an 'a'. */
  lemma ExitingTextsClean()
    ensures NoBlankA("Caught SIGINT. Exiting cleanly. ") && NoBlankA(" process(es) killed.")
  {
    var w1: string, w2: string, w3: string, w4: string := "Caught SIGINT.", " Exiting", " cleanly.", " ";
    assert NoBlankA(w1) && NoBlankA(w2) && NoBlankA(w3) && NoBlankA(w4);
    NoBlankAConcat(w1, w2);
    NoBlankAConcat(w1 + w2, w3);
    NoBlankAConcat(w1 + w2 + w3, w4);
    assert "Caught SIGINT. Exiting cleanly. " == w1 + w2 + w3 + w4;
    var v1: string, v2: string := " process(es)", " killed.";
    assert NoBlankA(v1) && NoBlankA(v2);
    NoBlankAConcat(v1, v2);
    assert " process(es) killed." == v1 + v2;
  }

  lemma ExitingDoesNotCount(killed: int, n: int)
    ensures CountKill(killed, ExitingMessage(n)) == killed
  {
    NoBlankANumber(n);
    ExitingTextsClean();
    var c1: string := "Caught SIGINT. Exiting cleanly. ";
    var c2: string := " process(es) killed.";
    NoBlankAConcat(c1, IntToString(n));
    NoBlankAConcat(c1 + IntToString(n), c2);
    NoBlankAExcludesMarker(ExitingMessage(n));
  }

  lemma ParentDoesNotCount(killed: int, pid: int)
    ensures CountKill(killed, ParentMessage(pid)) == killed
  {
    NoBlankANumber(pid);
    var d1: string := "Parent process is PID ";
    var d2: string := ".";
    var u1: string, u2: string, u3: string := "Parent process", " is", " PID ";
    assert NoBlankA(u1) && NoBlankA(u2) && NoBlankA(u3) && NoBlankA(d2);
    NoBlankAConcat(u1, u2);
    NoBlankAConcat(u1 + u2, u3);
    assert d1 == u1 + u2 + u3;
    NoBlankAConcat(d1, IntToString(pid));
    NoBlankAConcat(d1 + IntToString(pid), d2);
    NoBlankAExcludesMarker(ParentMessage(pid));
  }
}

=== FILE: first_draft.dfy ===
/** The first draft of procnanny. Its configuration file holds the monitor
    time on the first line and one program name on each later line. The
    draft forks one monitor per name, and each monitor kills what is still
    alive after the sleep. This draft's own bounds are 128 configuration
    lines and 512 pids per lookup. */
module FirstDraft {
  import opened Wrappers
  import opened Limits
  import opened CText
  import opened CNum
  import opened Lookup
  import opened Events
  import A2 = Assignment2
  import LL = LinkedList

  // ---------------------------------------------------------------------------
  // processConfigFile

  /** Outcome of `processConfigFile`.
      - `CannotOpen`: `fopen` failed and the program exits with `EXIT_FAILURE`.
      - `Overrun`: the file has more lines than `configLines` has slots, so
        the `getline` loop stores a line past its end.
      - `NoFirstLine`: the file is empty, so `atoi(configLines[0])` reads a
        NULL pointer.
      - `ForkFailed`: a `fork` returned -1 and the program exits with
        `EXIT_FAILURE`; `started` holds the monitors forked before it.
      - `Launched`: the shared monitor time, the names handed to the
        monitors in order, and the `childPids` array. */
  datatype Launch =
    | CannotOpen
    | Overrun
    | NoFirstLine
    | ForkFailed(started: seq<int>)
    | Launched(monitorTime: Uint32, watched: seq<string>, childPids: seq<int>)

  /** `configLines` after the `getline` loop: every line trimmed. */
  function ConfigLines(text: string): (r: seq<string>)
    ensures |r| == |Lines(text)|
    ensures forall i :: 0 <= i < |r| ==> r[i] == Trim(Lines(text)[i])
  {
    var ls := Lines(text);
    seq(|ls|, i requires 0 <= i < |ls| => Trim(ls[i]))
  }

  /** Index of the first failed fork among the first `n`, or `n`. */
  function FirstFailure(forks: seq<int>, n: nat): (k: nat)
    requires n <= |forks|
    ensures k <= n
    ensures forall j :: 0 <= j < k ==> forks[j] != -1
    ensures k < n ==> forks[k] == -1
  {
    if n == 0 then 0
    else
      var k := FirstFailure(forks, n - 1);
      if k < n - 1 then k else if forks[n - 1] == -1 then n - 1 else n
  }

  /** What `processConfigFile` does with the trimmed lines: `atoi` of the
      first is the shared monitor time, and each later line `i` is handed to
      a forked monitor whose pid goes to `childPids[i - 1]`. `forks`
      supplies what each successive `fork` returns in the parent. */
  function LaunchMonitors(lines: seq<string>, forks: seq<int>): (r: Launch)
    requires |lines| <= FIRST_DRAFT_CONFIG_FILE_LINES && |lines| <= |forks| + 1
    ensures !r.CannotOpen? && !r.Overrun?
    ensures r.NoFirstLine? <==> lines == []
    ensures r.ForkFailed? <==> exists j :: 0 <= j < |lines| - 1 && forks[j] == -1
    ensures r.ForkFailed? ==> -1 !in r.started && |r.started| < |forks| && forks[|r.started|] == -1
    ensures r.ForkFailed? ==> r.started == forks[..|r.started|]
    ensures r.Launched? ==> r.monitorTime == ToUint32(Atoi(lines[0])) && r.watched == lines[1..]
    ensures r.Launched? ==> |r.childPids| == FIRST_DRAFT_CONFIG_FILE_LINES
    ensures r.Launched? ==> forall j :: 0 <= j < |lines| - 1 ==> r.childPids[j] == forks[j]
    ensures r.Launched? ==> forall j :: |lines| - 1 <= j < FIRST_DRAFT_CONFIG_FILE_LINES ==> r.childPids[j] == (if j == 0 then -1 else 0)
  {
    if |lines| == 0 then NoFirstLine
    else
      var n := |lines| - 1;
      var k := FirstFailure(forks, n);
      if k < n then
        assert forall j :: 0 <= j < k ==> forks[..k][j] == forks[j];
        ForkFailed(forks[..k])
      else
        var a := PidArray(forks[..n], FIRST_DRAFT_CONFIG_FILE_LINES);
        assert forall j :: 0 <= j < n ==> a[j] == a[..n][j] == forks[..n][j];
        Launched(ToUint32(Atoi(lines[0])), lines[1..], a)
  }

  /** `processConfigFile`. The `getline` loop has no bound, so a file with
      more than `FIRST_DRAFT_CONFIG_FILE_LINES` lines overruns `configLines`;
      a file that fits is handed to the monitors. `forks` must supply a
      `fork` result for every name. */
  function ProcessConfigFile(file: Option<string>, forks: seq<int>): (r: Launch)
    requires file.Some? && |Lines(file.value)| <= FIRST_DRAFT_CONFIG_FILE_LINES ==> |Lines(file.value)| <= |forks| + 1
    ensures file.None? <==> r.CannotOpen?
    ensures r.Overrun? <==> file.Some? && FIRST_DRAFT_CONFIG_FILE_LINES < |Lines(file.value)|
    ensures file.Some? && |Lines(file.value)| <= FIRST_DRAFT_CONFIG_FILE_LINES ==> r == LaunchMonitors(ConfigLines(file.value), forks)
  {
    match file
    case None => CannotOpen
    case Some(text) =>
      if FIRST_DRAFT_CONFIG_FILE_LINES < |Lines(text)| then Overrun
      else LaunchMonitors(ConfigLines(text), forks)
  }

  /** The file the first draft expects, written out: the monitor time, then
      one name per line. */
  function FormatConfig(monitorTime: nat, names: seq<string>): string {
    NatToString(monitorTime) + "\n" + Concat(NameLines(names))
  }

  /** One terminated line per name. */
  function NameLines(names: seq<string>): (r: seq<string>)
    ensures |r| == |names| && forall i :: 0 <= i < |names| ==> r[i] == names[i] + "\n"
  {
    seq(|names|, i requires 0 <= i < |names| => names[i] + "\n")
  }

  lemma TrimTerminatedToken(s: string, name: string)
    requires |name| > 0 && NoSpace(name) && s == name + "\n"
    ensures Trim(s) == name
  {
    assert s[..0] == [] && s[|name|..] == "\n" && s[0..|name|] == name;
    assert TrimmedAt(s, 0, |name|);
    TrimAt(s, 0, |name|);
  }

  /** The lines `getline` returns for a written configuration. */
  lemma FormatConfigLines(monitorTime: nat, names: seq<string>)
    requires forall i :: 0 <= i < |names| ==> NoSpace(names[i])
    ensures Lines(FormatConfig(monitorTime, names))
            == [NatToString(monitorTime) + "\n"] + NameLines(names)
  {
    var first := NatToString(monitorTime) + "\n";
    var rest := NameLines(names);
    var ls := [first] + rest;
    forall k | 0 <= k < |ls| ensures IsChunk(ls[k]) && ls[k][|ls[k]| - 1] == '\n' {
      var body := if k == 0 then NatToString(monitorTime) else names[k - 1];
      assert ls[k] == body + "\n";
      forall m | 0 <= m < |ls[k]| - 1 ensures ls[k][m] != '\n' {
        assert ls[k][m] == body[m];
        if k > 0 {
          assert !IsSpace(names[k - 1][m]);
        }
      }
    }
    assert ls[1..] == rest;
    assert Concat(ls) == first + Concat(rest);
    LinesOfConcat(ls);
  }

  /** The first line of a written configuration trims to the number. */
  lemma MonitorTimeLine(monitorTime: nat)
    requires monitorTime < TWO_31
    ensures |NatToString(monitorTime) + "\n"| > 0
    ensures ToUint32(Atoi(Trim(NatToString(monitorTime) + "\n"))) == monitorTime
  {
    var d := NatToString(monitorTime);
    var first := d + "\n";
    assert first[..|d|] == d && first[|d|..] == "\n" && first[..0] == [];
    assert TrimmedAt(first, 0, |d|);
    TrimAt(first, 0, |d|);
    ScanIntToString(monitorTime, "");
    assert d + "" == d;
  }

  /** The later lines of a written configuration trim to the names. */
  lemma TrimmedNames(text: string, first: string, names: seq<string>)
    requires forall i :: 0 <= i < |names| ==> |names[i]| > 0 && NoSpace(names[i])
    requires Lines(text) == [first] + NameLines(names)
    ensures |ConfigLines(text)| == |names| + 1
    ensures ConfigLines(text)[1..] == names
  {
    var lines := ConfigLines(text);
    forall i | 0 <= i < |names| ensures lines[1..][i] == names[i] {
      TrimmedName(text, first, names, i);
    }
  }

  /** One name line of a written configuration trims back to the name. */
  lemma TrimmedName(text: string, first: string, names: seq<string>, i: nat)
    requires i < |names| && |names[i]| > 0 && NoSpace(names[i])
    requires Lines(text) == [first] + NameLines(names)
    ensures |ConfigLines(text)| == |names| + 1
    ensures ConfigLines(text)[i + 1] == names[i]
  {
    var ls := Lines(text);
    assert ls[i + 1] == names[i] + "\n";
    TrimTerminatedToken(ls[i + 1], names[i]);
  }

  /** The first line of a written configuration gives back the monitor
      time. */
  lemma TrimmedMonitorTime(monitorTime: nat, names: seq<string>)
    requires monitorTime < TWO_31
    requires forall i :: 0 <= i < |names| ==> NoSpace(names[i])
    ensures |ConfigLines(FormatConfig(monitorTime, names))| > 0
    ensures ToUint32(Atoi(ConfigLines(FormatConfig(monitorTime, names))[0])) == monitorTime
  {
    FormatConfigLines(monitorTime, names);
    MonitorTimeLine(monitorTime);
  }

  /** Reading back a written configuration gives the monitor time and the
      names it was written with, each name going to its own monitor. */
  lemma ConfigRoundTrip(monitorTime: nat, names: seq<string>, forks: seq<int>)
    requires monitorTime < TWO_31
    requires |names| < FIRST_DRAFT_CONFIG_FILE_LINES && |names| <= |forks|
    requires forall i :: 0 <= i < |names| ==> |names[i]| > 0 && NoSpace(names[i])
    requires forall j :: 0 <= j < |names| ==> forks[j] != -1
    ensures var text := FormatConfig(monitorTime, names);
            |Lines(text)| == |names| + 1
            && var r := ProcessConfigFile(Some(text), forks);
               r.Launched? && r.monitorTime == monitorTime && r.watched == names
  {
    FormatConfigLines(monitorTime, names);
    TrimmedNames(FormatConfig(monitorTime, names), NatToString(monitorTime) + "\n", names);
    TrimmedMonitorTime(monitorTime, names);
    var text := FormatConfig(monitorTime, names);
    var lines := ConfigLines(text);
    var r := LaunchMonitors(lines, forks);
    assert forall j :: 0 <= j < |lines| - 1 ==> forks[j] != -1;
    assert r.Launched?;
    assert ProcessConfigFile(Some(text), forks) == r;
  }

  // ---------------------------------------------------------------------------
  // monitorProcess

  /** Whether signalling `p` ends the monitor itself: pid 0 addresses its
      own process group and `self` is its own pid. The loop has no
      `!= getpid()` test, and `pgrep` matches by pattern, so a configured name
      can find the monitor. */
  predicate Fatal(p: int, self: int) {
    p == 0 || p == self
  }

  /** The monitor's last signal ended it. */
  predicate Dies(killed: seq<int>, self: int) {
    |killed| > 0 && Fatal(killed[|killed| - 1], self)
  }

  /** The entries the loop does not signal: the -1 filler and the pids the
      `kill(pid, 0)` probe rejects. */
  function Skipped(alive: int -> bool): int -> bool {
    p => p == -1 || !alive(p)
  }

  /** Some entry the loop does not skip is fatal. */
  predicate FatalIn(pids: seq<int>, self: int) {
    exists p :: p in pids && p != -1 && Fatal(p, self)
  }

  /** The `kill(pid, SIGKILL)` calls of the second loop of `monitorProcess`, in
      order. The loop skips -1 entries and probes the rest with
      `kill(pid, 0)`. The probe of a fatal pid succeeds and its kill ends the
      monitor, and nothing after it runs. `alive` answers the probe for every
      other pid. */
  function SignalsAsWritten(pids: seq<int>, self: int, alive: int -> bool): (r: seq<int>)
    ensures forall j :: 0 <= j < |r| ==> r[j] in pids && r[j] != -1 && (Fatal(r[j], self) || alive(r[j]))
    ensures forall j :: 0 <= j < |r| - 1 ==> !Fatal(r[j], self)
    ensures Dies(r, self) <==> FatalIn(pids, self)
    ensures !Dies(r, self) ==> r == LL.Keep(pids, Skipped(alive))
    decreases |pids|
  {
    if |pids| == 0 then []
    else if pids[0] == -1 then
      var r := SignalsAsWritten(pids[1..], self, alive);
      assert pids == [pids[0]] + pids[1..];
      r
    else if Fatal(pids[0], self) then [pids[0]]
    else
      var rest := SignalsAsWritten(pids[1..], self, alive);
      assert pids == [pids[0]] + pids[1..];
      if alive(pids[0]) then [pids[0]] + rest else rest
  }

  /** The signalling stops at the first fatal entry of the array: the pids
      before it that the probe accepts are killed in order, then the fatal
      one. */
  lemma {:induction false} SignalsStopAtFirstFatal(pre: seq<int>, f: int, post: seq<int>, self: int, alive: int -> bool)
    requires f != -1 && Fatal(f, self) && !FatalIn(pre, self)
    ensures SignalsAsWritten(pre + [f] + post, self, alive) == LL.Keep(pre, Skipped(alive)) + [f]
    decreases |pre|
  {
    var pids := pre + [f] + post;
    if |pre| == 0 {
      assert pids[0] == f;
    } else {
      assert pids[0] == pre[0] && pids[1..] == pre[1..] + [f] + post;
      assert !FatalIn(pre[1..], self) by {
        forall p | p in pre[1..] ensures p in pre { }
      }
      SignalsStopAtFirstFatal(pre[1..], f, post, self, alive);
      assert pre[0] == -1 || !Fatal(pre[0], self) by {
        assert pre[0] in pre;
      }
    }
  }

  /** Past the lookup's pids the array holds only the `{-1}` filler. */
  lemma PidArrayMembers(found: seq<int>, cap: nat)
    requires 0 < cap && |found| <= cap
    ensures forall p :: p in PidArray(found, cap) ==> p in found || p == 0 || p == -1
  {
    var a := PidArray(found, cap);
    forall p | p in a ensures p in found || p == 0 || p == -1 {
      var j :| 0 <= j < |a| && a[j] == p;
      if j < |found| {
        assert a[..|found|][j] == p;
      }
    }
  }

  /** `monitorProcess` as written: the lookup lands in a `{-1}`-initialised
      array of `FIRST_DRAFT_MAX_PROCESSES` pids and every non-`-1` entry the
      probe accepts is killed. A fatal signal kills the monitor before it can
      log that kill, so the log ends with the kills before it; the count line
      is written only when the monitor survives its own loop. `self` is
      `getpid()`. */
  function MonitorAsWritten(name: string, monitorTime: Uint32, found: seq<int>, self: int, alive: int -> bool): (r: A2.Monitor)
    requires |found| <= FIRST_DRAFT_MAX_PROCESSES
    ensures r.count.Some? <==> !Dies(r.killed, self)
    ensures r.count.Some? ==> r.count.value == IntToString(|r.killed|) + "\n"
    ensures !Dies(r.killed, self) ==> r.log == A2.Initializing(name, Positives(found)) + A2.Killings(name, monitorTime, r.killed)
    ensures Dies(r.killed, self) ==> r.log == A2.Initializing(name, Positives(found)) + A2.Killings(name, monitorTime, r.killed[..|r.killed| - 1])
    ensures forall p :: p in r.killed ==> Fatal(p, self) || (p in found && p != -1 && alive(p))
  {
    var pids := PidArray(found, FIRST_DRAFT_MAX_PROCESSES);
    PidArrayPositives(found, FIRST_DRAFT_MAX_PROCESSES);
    PidArrayMembers(found, FIRST_DRAFT_MAX_PROCESSES);
    var killed := SignalsAsWritten(pids, self, alive);
    var dies := |killed| > 0 && Fatal(killed[|killed| - 1], self);
    var logged := if dies then killed[..|killed| - 1] else killed;
    A2.Monitor(A2.Initializing(name, Positives(pids)) + A2.Killings(name, monitorTime, logged), killed,
            if dies then None else Some(IntToString(|killed|) + "\n"))
  }

  /** Unless the lookup filled the whole array, an entry the `{-1}`
      initialiser left at 0 passes the `!= -1` test. The monitor then
      signals its own process group, or itself before that, and never
      writes its count. */
  lemma AsWrittenKillsOwnGroup(name: string, monitorTime: Uint32, found: seq<int>, self: int, alive: int -> bool)
    requires |found| < FIRST_DRAFT_MAX_PROCESSES
    ensures Dies(MonitorAsWritten(name, monitorTime, found, self, alive).killed, self)
    ensures MonitorAsWritten(name, monitorTime, found, self, alive).count.None?
  {
    var pids := PidArray(found, FIRST_DRAFT_MAX_PROCESSES);
    var j := if |found| == 0 then 1 else |found|;
    assert pids[j] == 0 && Fatal(pids[j], self);
  }

  /** When `pgrep` reports the monitor's own pid before any other fatal
      entry, the monitor kills the live pids before it and then itself: no
      kill after it, no Action line for it, no count. */
  lemma AsWrittenKillsItself(name: string, monitorTime: Uint32, found: seq<int>, self: int, alive: int -> bool, k: nat)
    requires |found| <= FIRST_DRAFT_MAX_PROCESSES && self > 0
    requires k < |found| && found[k] == self && !FatalIn(found[..k], self)
    ensures var r := MonitorAsWritten(name, monitorTime, found, self, alive);
      var before := LL.Keep(found[..k], Skipped(alive));
      r.killed == before + [self] && r.count.None?
      && r.log == A2.Initializing(name, Positives(found)) + A2.Killings(name, monitorTime, before)
  {
    LookupKillsItself(found, self, alive, k);
    var before := LL.Keep(found[..k], Skipped(alive));
    assert (before + [self])[..|before|] == before;
  }

  /** The signals of `AsWrittenKillsItself`, on the `{-1}`-initialised array. */
  lemma LookupKillsItself(found: seq<int>, self: int, alive: int -> bool, k: nat)
    requires |found| <= FIRST_DRAFT_MAX_PROCESSES && self > 0
    requires k < |found| && found[k] == self && !FatalIn(found[..k], self)
    ensures SignalsAsWritten(PidArray(found, FIRST_DRAFT_MAX_PROCESSES), self, alive)
      == LL.Keep(found[..k], Skipped(alive)) + [self]
  {
    var pids := PidArray(found, FIRST_DRAFT_MAX_PROCESSES);
    assert pids[..k] == found[..k] && pids[k] == self by {
      assert pids[..|found|] == found;
      assert pids[..|found|][k] == found[k];
    }
    assert pids == pids[..k] + [pids[k]] + pids[k + 1..];
    SignalsStopAtFirstFatal(found[..k], self, pids[k + 1..], self, alive);
  }

  /** The monitor's own pid 777 found ahead of a live 888: it kills itself
      first, so 888 is never signalled, and it logs only the Initializing
      lines. */
  lemma AsWrittenFindsItself(name: string, monitorTime: Uint32)
    ensures var r := MonitorAsWritten(name, monitorTime, [777, 888], 777, _ => true);
      r.killed == [777] && r.count.None? && r.log == A2.Initializing(name, [777, 888])
  {
    var pids := PidArray([777, 888], FIRST_DRAFT_MAX_PROCESSES);
    assert pids[0] == 777;
    assert SignalsAsWritten(pids, 777, _ => true) == [777];
    assert Positives([777, 888]) == [777, 888] by {
      assert [777, 888] == [777] + [888];
      PositivesAppend([777], [888]);
    }
  }

  /** One live process found, the monitor's pid elsewhere: the monitor kills
      it and then its own group. */
  lemma AsWrittenExample(name: string, monitorTime: Uint32)
    ensures MonitorAsWritten(name, monitorTime, [4242], 100, _ => true).killed == [4242, 0]
  {
    var pids := PidArray([4242], FIRST_DRAFT_MAX_PROCESSES);
    var alive: int -> bool := _ => true;
    assert pids[0] == 4242 && pids[1] == 0;
    assert pids[1..][0] == 0;
    assert SignalsAsWritten(pids[1..], 100, alive) == [0];
    assert SignalsAsWritten(pids, 100, alive) == [4242] + SignalsAsWritten(pids[1..], 100, alive);
  }

  /** `monitorProcess` with the kill loop guarded by `pids[i] > 0 &&
      pids[i] != getpid()`, as assignment2's loop is: it kills exactly the
      live processes the lookup found other than itself and always writes
      the count. */
  function GuardedMonitor(name: string, monitorTime: Uint32, found: seq<int>, self: int, alive: int -> bool): (r: A2.Monitor)
    requires |found| <= FIRST_DRAFT_MAX_PROCESSES
    ensures r.count == Some(IntToString(|r.killed|) + "\n")
    ensures r.log == A2.Initializing(name, Positives(found)) + A2.Killings(name, monitorTime, r.killed)
    ensures |r.killed| <= |Positives(found)|
    ensures forall p :: p in r.killed <==> p in found && p > 0 && p != self && alive(p)
  {
    var pids := PidArray(found, FIRST_DRAFT_MAX_PROCESSES);
    PidArrayPositives(found, FIRST_DRAFT_MAX_PROCESSES);
    var killed := LL.Keep(Positives(pids), p => p == self || !alive(p));
    A2.Monitor(A2.Initializing(name, Positives(pids)) + A2.Killings(name, monitorTime, killed), killed,
            Some(IntToString(|killed|) + "\n"))
  }

  /** The corrected monitor reports like the assignment2 monitors, so the
      assignment2 tally applies to it. */
  lemma MonitorReported(name: string, monitorTime: Uint32, found: seq<int>, self: int, alive: int -> bool)
    requires |found| <= FIRST_DRAFT_MAX_PROCESSES
    ensures A2.Reported(GuardedMonitor(name, monitorTime, found, self, alive))
  {
  }

  // ---------------------------------------------------------------------------
  // freeConfigLines

  /** `configLines` after a call: every slot NULL, and the lines that were
      freed, in slot order. */
  datatype Freed = Freed(slots: seq<Option<string>>, freed: seq<string>)

  /** The lines a table of slots holds, in slot order. */
  function Present(slots: seq<Option<string>>): (r: seq<string>)
    ensures |r| <= |slots|
  {
    if |slots| == 0 then []
    else (if slots[0].Some? then [slots[0].value] else []) + Present(slots[1..])
  }

  /** `freeConfigLines`: frees every non-NULL slot and sets it to NULL. */
  function FreeConfigLines(slots: seq<Option<string>>): (r: Freed)
    ensures |r.slots| == |slots|
    ensures forall i :: 0 <= i < |r.slots| ==> r.slots[i].None?
    ensures r.freed == Present(slots)
    decreases |slots|
  {
    if |slots| == 0 then Freed([], [])
    else
      var rest := FreeConfigLines(slots[1..]);
      Freed([None] + rest.slots, (if slots[0].Some? then [slots[0].value] else []) + rest.freed)
  }

  lemma {:induction false} PresentOfNone(slots: seq<Option<string>>)
    requires forall i :: 0 <= i < |slots| ==> slots[i].None?
    ensures Present(slots) == []
    decreases |slots|
  {
    if |slots| > 0 {
      PresentOfNone(slots[1..]);
    }
  }

  /** Freeing is idempotent: a call on the table a previous call cleared
      frees nothing and leaves it cleared, so within one process no line is
      freed twice. */
  lemma FreeTwiceFreesNothing(slots: seq<Option<string>>)
    ensures FreeConfigLines(FreeConfigLines(slots).slots).freed == []
    ensures FreeConfigLines(FreeConfigLines(slots).slots).slots == FreeConfigLines(slots).slots
  {
    var once := FreeConfigLines(slots).slots;
    PresentOfNone(once);
    var twice := FreeConfigLines(once).slots;
    assert |twice| == |once|;
    forall i | 0 <= i < |once| ensures twice[i] == once[i] {
    }
  }
}

=== FILE: limits.dfy ===
/** Compile-time bounds of the drafts' headers and the C integer conversions
    the drafts rely on. */
module Limits {

  // assignment2/proc_nanny.h (mirrored by the client's header)
  const REFRESH_RATE: nat := 5
  const MAX_PROCESSES: nat := 1024
  const CONFIG_FILE_LINES: nat := 256
  const LOG_MESSAGE_LENGTH: nat := 512
  const PROGRAM_NAME_LENGTH: nat := 128
  const READ_PIPE: nat := 0
  const WRITE_PIPE: nat := 1

  // assignment3/proc_nanny_server.h
  const PORT: nat := 8888
  const MAXCLIENTS: nat := 32

  // proc_nanny.h and proc_nanny.c of the first draft
  const FIRST_DRAFT_MAX_PROCESSES: nat := 512
  const FIRST_DRAFT_CONFIG_FILE_LINES: nat := 128

  /** Size of the buffer each server read lands in. */
  const READ_BUFFER: nat := 1024

  const TWO_32: int := 0x1_0000_0000
  const TWO_31: int := 0x8000_0000

  /** C `unsigned int`. */
  type Uint32 = x: int | 0 <= x < TWO_32

  /** C `int` (and `pid_t`). */
  predicate IsInt32(x: int) {
    -TWO_31 <= x < TWO_31
  }

  /** Storing an `int` through an `unsigned int *` (what `%d` does to the
      `runtime` fields): the value modulo 2^32. */
  function ToUint32(x: int): (r: Uint32)
    ensures IsInt32(x) && x >= 0 ==> r == x
    ensures IsInt32(x) && x < 0 ==> r == x + TWO_32
  {
    x % TWO_32
  }

  /** Passing an `unsigned int` where `%d` expects an `int`: values above
      INT_MAX come out negative. */
  function ToInt32(u: Uint32): (r: int)
    ensures IsInt32(r)
    ensures u < TWO_31 ==> r == u
    ensures u >= TWO_31 ==> r < 0
  {
    if u < TWO_31 then u else u - TWO_32
  }

  /** Printing an unsigned runtime with `%d` and reading it back with `%d`
      into an unsigned field restores it, for every 32-bit value. */
  lemma Int32RoundTrip(u: Uint32)
    ensures ToUint32(ToInt32(u)) == u
  {
  }
}

=== FILE: linked_list.dfy ===
/** The generic singly linked list: the node-level implementation of
    assignment2 (`ll_init`, `ll_add`, `ll_forEach`, `ll_removeIf`, `ll_free`)
    and the operations the assignment3 header adds (`ll_add_unique`,
    `ll_remove`, `ll_getIf`, `ll_size`), whose bodies are not part of this
    model and are stated from the header's contracts.

    A list is the data reachable from `head`, in order, together with the
    bookkeeping fields `length` and `tail`, which the implementation keeps
    separately and which can fall out of step with the nodes. */
module LinkedList {
  import opened Wrappers

  /** Where `tail` points: `NULL`, the last node reachable from `head`, or a
      node not reachable from `head` (one that has been freed or unlinked). */
  datatype TailRef = Null | Last | Dangling

  /** `List`: node data from head to tail plus the struct's own fields.
      `comparator` is "true if the two items are equal in value". */
  datatype List<!T> = List(items: seq<T>, length: int, tail: TailRef, nodeSize: nat,
                          comparator: Option<(T, T) -> bool>)

  /** The representation invariant a correct list keeps: `length` counts the
      nodes and `tail` is the last one (`NULL` for an empty list). */
  predicate Valid<T>(l: List<T>) {
    l.length == |l.items| && (if |l.items| == 0 then l.tail == Null else l.tail == Last)
  }

  /** What every reachable state of the assignment2 implementation keeps, even
      after the defective operations: `length` never undercounts, a
      non-empty chain has a real tail, and `tail` is `NULL` only before the
      first `ll_add`. */
  predicate Consistent<T>(l: List<T>) {
    |l.items| <= l.length
    && (|l.items| > 0 <==> l.tail == Last)
    && (l.tail == Null <==> l.length == 0)
  }

  /** `ll_init`. */
  function Init<T>(nodeSize: nat, comparator: Option<(T, T) -> bool>): (l: List<T>)
    ensures Valid(l) && l.items == [] && l.length == 0 && l.tail == Null
    ensures l.nodeSize == nodeSize && l.comparator == comparator
  {
    List([], 0, Null, nodeSize, comparator)
  }

  /** `ll_add`: on an empty-by-`length` list the node becomes head and tail;
      otherwise it is linked after `tail`. When `tail` has been freed the new
      node is written into freed memory and is not reachable from `head`. */
  function Add<T>(l: List<T>, x: T): (r: List<T>)
    requires Consistent(l)
    ensures Consistent(r) && r.length == l.length + 1
    ensures r.nodeSize == l.nodeSize && r.comparator == l.comparator
    ensures Valid(l) ==> Valid(r) && r.items == l.items + [x]
    ensures l.tail == Dangling ==> r.items == l.items
  {
    if l.length == 0 then l.(items := [x], tail := Last, length := 1)
    else if l.tail == Last then l.(items := l.items + [x], length := l.length + 1)
    else l.(length := l.length + 1)
  }

  /** `ll_size`. */
  function Size<T>(l: List<T>): (n: int)
    ensures Valid(l) ==> n == |l.items|
  {
    l.length
  }

  /** Folding a `NodeOperation` over the data from head to tail; the
      operation's effects are threaded through a state `s`. */
  function Visit<S, T>(items: seq<T>, op: (S, T) -> S, s: S): S {
    if |items| == 0 then s else Visit(items[1..], op, op(s, items[0]))
  }

  /** `ll_forEach`: a `NULL` operation does nothing. */
  function ForEach<S, T>(l: List<T>, op: Option<(S, T) -> S>, s: S): (r: S)
    ensures op.None? ==> r == s
  {
    match op
    case None => s
    case Some(f) => Visit(l.items, f, s)
  }

  /** Visiting is in order: the first part of the list, then the rest. */
  lemma {:induction false} VisitAppend<S, T>(a: seq<T>, b: seq<T>, op: (S, T) -> S, s: S)
    ensures Visit(a + b, op, s) == Visit(b, op, Visit(a, op, s))
    decreases |a|
  {
    if |a| > 0 {
      assert (a + b)[0] == a[0] && (a + b)[1..] == a[1..] + b;
      VisitAppend(a[1..], b, op, op(s, a[0]));
    } else {
      assert a + b == b;
    }
  }

  /** The operation runs once per element: counting visits gives the size. */
  lemma {:induction false} VisitCounts<T>(items: seq<T>, n: int)
    ensures Visit(items, (c: int, _: T) => c + 1, n) == n + |items|
    decreases |items|
  {
    if |items| > 0 {
      VisitCounts(items[1..], n + 1);
    }
  }

  /** The elements a predicate does not select, in their original order. */
  function Keep<T(==)>(s: seq<T>, p: T -> bool): (r: seq<T>)
    ensures |r| <= |s|
    ensures forall i :: 0 <= i < |r| ==> r[i] in s && !p(r[i])
    ensures forall i :: 0 <= i < |s| && !p(s[i]) ==> s[i] in r
  {
    if |s| == 0 then []
    else (if p(s[0]) then [] else [s[0]]) + Keep(s[1..], p)
  }

  /** `Keep` preserves order: it distributes over concatenation. */
  lemma {:induction false} KeepAppend<T>(a: seq<T>, b: seq<T>, p: T -> bool)
    ensures Keep(a + b, p) == Keep(a, p) + Keep(b, p)
    decreases |a|
  {
    if |a| > 0 {
      assert (a + b)[0] == a[0] && (a + b)[1..] == a[1..] + b;
      KeepAppend(a[1..], b, p);
      assert Keep(a + b, p) == (if p(a[0]) then [] else [a[0]]) + Keep(a[1..] + b, p);
    } else {
      assert a + b == b;
    }
  }

  /** `ll_removeIf` as written: the chain is relinked correctly, but `length`
      is never decremented, and when the last remaining node is removed
      through the head branch `tail` is left on the freed node. */
  function RemoveIfAsWritten<T(==)>(l: List<T>, p: Option<T -> bool>): (r: List<T>)
    requires Consistent(l)
    ensures Consistent(r) && r.length == l.length
    ensures p.None? ==> r == l
    ensures p.Some? ==> r.items == Keep(l.items, p.value)
    ensures p.Some? && |l.items| > 0 && |r.items| == 0 ==> r.tail == Dangling
  {
    match p
    case None => l
    case Some(f) =>
      var kept := Keep(l.items, f);
      l.(items := kept, tail := if |kept| > 0 then Last else if |l.items| > 0 then Dangling else l.tail)
  }

  /** `ll_removeIf` with the count and the tail kept in step. */
  function RemoveIf<T(==)>(l: List<T>, p: Option<T -> bool>): (r: List<T>)
    requires Valid(l)
    ensures Valid(r)
    ensures p.None? ==> r == l
    ensures p.Some? ==> r.items == Keep(l.items, p.value)
  {
    match p
    case None => l
    case Some(f) =>
      var kept := Keep(l.items, f);
      l.(items := kept, length := |kept|, tail := if |kept| > 0 then Last else Null)
  }

  /** Removing by predicate and then adding loses the added node when the
      removal emptied the list: `tail` still points at the freed node. */
  lemma RemoveIfThenAddLosesNode(a: int, b: int)
    ensures var l := RemoveIfAsWritten(Add(Init<int>(1, None), a), Some((x: int) => true));
      l.length == 1 && l.items == [] && !Valid(l) && Add(l, b).items == []
    ensures var l := RemoveIf(Add(Init<int>(1, None), a), Some((x: int) => true));
      Valid(l) && Add(l, b).items == [b]
  {
  }

  /** `ll_free` as written: every node is released and `head` set to `NULL`;
      `length` and `tail` keep their old values. */
  function FreeAsWritten<T>(l: List<T>): (r: List<T>)
    requires Consistent(l)
    ensures Consistent(r) && r.items == [] && r.length == l.length
    ensures |l.items| > 0 ==> r.tail == Dangling
  {
    l.(items := [], tail := if |l.items| > 0 then Dangling else l.tail)
  }

  /** `ll_free` leaving the list as `ll_init` made it. */
  function Free<T>(l: List<T>): (r: List<T>)
    ensures Valid(r) && r.items == []
    ensures r.nodeSize == l.nodeSize && r.comparator == l.comparator
  {
    Init(l.nodeSize, l.comparator)
  }

  /** Freeing a non-empty list as written breaks the representation
      invariant; the corrected free is idempotent. */
  lemma FreeKeepsStaleFields<T>(l: List<T>)
    requires Valid(l) && |l.items| > 0
    ensures !Valid(FreeAsWritten(l))
    ensures Free(Free(l)) == Free(l)
  {
  }

  /** Whether some element is equal in value to `x` under `eq`. */
  predicate Member<T>(items: seq<T>, eq: (T, T) -> bool, x: T) {
    exists i :: 0 <= i < |items| && eq(items[i], x)
  }

  /** `ll_add_unique`: with no comparator it is `ll_add`; with one it adds `x`
      only when no element is equal in value to it. */
  function AddUnique<T>(l: List<T>, x: T): (r: List<T>)
    requires Valid(l)
    ensures Valid(r)
    ensures l.comparator.None? ==> r == Add(l, x)
    ensures l.comparator.Some? && Member(l.items, l.comparator.value, x) ==> r == l
    ensures l.comparator.Some? && !Member(l.items, l.comparator.value, x) ==> r.items == l.items + [x]
  {
    match l.comparator
    case None => Add(l, x)
    case Some(eq) => if Member(l.items, eq, x) then l else Add(l, x)
  }

  /** The predicate "equal in value to `x`" built from a comparator. */
  function EqualTo<T>(eq: (T, T) -> bool, x: T): T -> bool {
    (y: T) => eq(y, x)
  }

  /** `ll_remove`: with no comparator nothing is removed; with one, the
      elements equal in value to `x` are unlinked. */
  function Remove<T(==)>(l: List<T>, x: T): (r: List<T>)
    requires Valid(l)
    ensures Valid(r)
    ensures l.comparator.None? ==> r == l
    ensures l.comparator.Some? ==> !Member(r.items, l.comparator.value, x)
    ensures l.comparator.Some? ==> r.items == Keep(l.items, EqualTo(l.comparator.value, x))
    ensures l.comparator.Some? ==> forall i :: 0 <= i < |r.items| ==> r.items[i] in l.items
    ensures l.comparator.Some? ==> forall i :: 0 <= i < |l.items| && !l.comparator.value(l.items[i], x) ==> l.items[i] in r.items
  {
    match l.comparator
    case None => l
    case Some(eq) =>
      RemoveIf(l, Some(EqualTo(eq, x)))
  }

  /** `ll_getIf`: the position of the first element the predicate selects,
      or `None` for `NULL`. */
  function GetIf<T>(items: seq<T>, p: T -> bool): (r: Option<nat>)
    ensures r.None? <==> forall i :: 0 <= i < |items| ==> !p(items[i])
    ensures r.Some? ==> r.value < |items| && p(items[r.value])
    ensures r.Some? ==> forall i :: 0 <= i < r.value ==> !p(items[i])
  {
    if |items| == 0 then None
    else if p(items[0]) then Some(0)
    else match GetIf(items[1..], p)
      case None => None
      case Some(i) => Some(i + 1)
  }
}

=== FILE: lookup.dfy ===
/** Process lookup as the drafts see it: `getPids` turns the lines printed by
    `pgrep` into pids with `atoi` and stores them at the front of an array
    the caller initialised with `{-1}`, which sets element 0 to -1 and every
    other element to 0. Running `pgrep` is not modelled: its output is an
    input. */
module Lookup {
  import opened Limits
  import opened CText
  import opened CNum

  /** `getPids`: one `atoi` per line of the output, in order. */
  function PgrepPids(output: string): (r: seq<int>)
    ensures |r| == |Lines(output)|
  {
    var ls := Lines(output);
    seq(|ls|, k requires 0 <= k < |ls| => Atoi(ls[k]))
  }

  /** What `pgrep` prints for a list of pids: one decimal per line. */
  function PgrepOutput(pids: seq<int>): string {
    Concat(seq(|pids|, k requires 0 <= k < |pids| => IntToString(pids[k]) + "\n"))
  }

  /** Reading back `pgrep`'s output gives the pids it printed. */
  lemma PgrepRoundTrip(pids: seq<int>)
    ensures PgrepPids(PgrepOutput(pids)) == pids
  {
    var ls := seq(|pids|, k requires 0 <= k < |pids| => IntToString(pids[k]) + "\n");
    forall k | 0 <= k < |ls| ensures IsChunk(ls[k]) && ls[k][|ls[k]| - 1] == '\n' {
      var d := IntToString(pids[k]);
      assert forall m :: 0 <= m < |d| ==> ls[k][m] == d[m];
    }
    LinesOfConcat(ls);
    forall k | 0 <= k < |pids| ensures Atoi(ls[k]) == pids[k] {
      ScanIntToString(pids[k], "\n");
    }
  }

  /** The array after `pid_t pids[cap] = {-1}` and `getPids`. */
  function PidArray(found: seq<int>, cap: nat): (a: seq<int>)
    requires 0 < cap && |found| <= cap
    ensures |a| == cap && a[..|found|] == found
    ensures |found| == 0 ==> a[0] == -1
    ensures forall j :: |found| <= j < cap && j > 0 ==> a[j] == 0
  {
    found + seq(cap - |found|, j => if |found| + j == 0 then -1 else 0)
  }

  /** The entries a `pids[j] > 0` scan visits, in order. */
  function Positives(s: seq<int>): (r: seq<int>)
    ensures |r| <= |s|
    ensures forall k :: 0 <= k < |r| ==> r[k] > 0 && r[k] in s
    ensures forall k :: 0 <= k < |s| && s[k] > 0 ==> s[k] in r
  {
    if |s| == 0 then [] else (if s[0] > 0 then [s[0]] else []) + Positives(s[1..])
  }

  lemma {:induction false} PositivesAppend(a: seq<int>, b: seq<int>)
    ensures Positives(a + b) == Positives(a) + Positives(b)
    decreases |a|
  {
    if |a| > 0 {
      assert (a + b)[0] == a[0] && (a + b)[1..] == a[1..] + b;
      PositivesAppend(a[1..], b);
    } else {
      assert a + b == b;
    }
  }

  lemma {:induction false} PositivesOfNonPositive(s: seq<int>)
    requires forall k :: 0 <= k < |s| ==> s[k] <= 0
    ensures Positives(s) == []
    decreases |s|
  {
    if |s| > 0 {
      PositivesOfNonPositive(s[1..]);
    }
  }

  /** The `-1` and `0` filler adds nothing to a `> 0` scan: it visits exactly
      the positive pids the lookup found. */
  lemma PidArrayPositives(found: seq<int>, cap: nat)
    requires 0 < cap && |found| <= cap
    ensures Positives(PidArray(found, cap)) == Positives(found)
  {
    var a := PidArray(found, cap);
    assert a == found + a[|found|..];
    PositivesAppend(found, a[|found|..]);
    PositivesOfNonPositive(a[|found|..]);
  }
}

=== FILE: pairing.dfy ===
/** The client's central invariant: the watch-list entries being monitored
    and the busy workers correspond one to one, by pid, and each busy worker
    holds the name and runtime of its entry. Stated over the two lists'
    contents, with one lemma per kind of change the client makes. */
module Pairing {
  import opened Limits
  import opened Records
  import LL = LinkedList

  /** An assignment: what a busy worker was told to watch. */
  datatype Job = Job(pid: int, name: string, runtime: Uint32)

  function EntryJob(e: MonitoredProcess): Job {
    Job(e.pid, e.name, e.runtime)
  }

  function WorkerJob(c: ChildProcess): Job {
    Job(c.pid, c.name, c.runtime)
  }

  /** The watch-list holds each pid at most once. */
  predicate UniquePids(items: seq<MonitoredProcess>) {
    forall i, j :: 0 <= i < j < |items| ==> PidAt(items, i) != PidAt(items, j)
  }

  /** The pid at position `i`: uniqueness is stated over these terms only, so
      that it is used where a proof names two positions. */
  function PidAt(items: seq<MonitoredProcess>, i: nat): int
    requires i < |items|
  {
    items[i].pid
  }

  /** Two different positions of a list with unique pids hold different pids. */
  lemma UniqueAt(items: seq<MonitoredProcess>, a: nat, b: nat)
    requires UniquePids(items) && a < |items| && b < |items| && a != b
    ensures items[a].pid != items[b].pid
  {
    if a < b {
      assert PidAt(items, a) != PidAt(items, b);
    } else {
      assert PidAt(items, b) != PidAt(items, a);
    }
  }

  /** No two busy workers watch the same pid. */
  predicate BusyDistinct(pool: seq<ChildProcess>) {
    forall i, j :: 0 <= i < j < |pool| && !pool[i].isAvailable && !pool[j].isAvailable ==> pool[i].pid != pool[j].pid
  }

  function MonitoredJobs(items: seq<MonitoredProcess>): (r: set<Job>)
    ensures forall k :: 0 <= k < |items| && items[k].beingMonitored ==> EntryJob(items[k]) in r
  {
    set k | 0 <= k < |items| && items[k].beingMonitored :: EntryJob(items[k])
  }

  function BusyJobs(pool: seq<ChildProcess>): (r: set<Job>)
    ensures forall i :: 0 <= i < |pool| && !pool[i].isAvailable ==> WorkerJob(pool[i]) in r
  {
    set i | 0 <= i < |pool| && !pool[i].isAvailable :: WorkerJob(pool[i])
  }

  /** The invariant. With both sides free of repeated pids, equal job sets
      mean a one-to-one correspondence. */
  predicate Paired(items: seq<MonitoredProcess>, pool: seq<ChildProcess>) {
    UniquePids(items) && BusyDistinct(pool) && MonitoredJobs(items) == BusyJobs(pool)
  }

  /** The entry after `initializeChild`. */
  function Mark(e: MonitoredProcess): MonitoredProcess {
    e.(beingMonitored := true)
  }

  /** The worker after `initializeChild` gave it entry `e`. */
  function Busy(c: ChildProcess, e: MonitoredProcess): (r: ChildProcess)
    ensures !r.isAvailable && WorkerJob(r) == EntryJob(e) && r.childPid == c.childPid
  {
    c.(isAvailable := false, pid := e.pid, name := e.name, runtime := e.runtime)
  }

  /** The worker after `checkChild` read its result. */
  function Idle(c: ChildProcess): (r: ChildProcess)
    ensures r.isAvailable && r.childPid == c.childPid && WorkerJob(r) == WorkerJob(c)
  {
    c.(isAvailable := true)
  }

  /** The key `ll_remove` is given: only the pid is set. */
  function Probe(pid: int): MonitoredProcess {
    MonitoredProcess(pid, "", 0, false)
  }

  // ---------------------------------------------------------------------------
  // How the job sets change.

  lemma MonitoredJobsMark(items: seq<MonitoredProcess>, k: nat)
    requires k < |items| && !items[k].beingMonitored
    ensures MonitoredJobs(items[k := Mark(items[k])]) == MonitoredJobs(items) + {EntryJob(items[k])}
  {
    var items' := items[k := Mark(items[k])];
    forall x | x in MonitoredJobs(items') ensures x in MonitoredJobs(items) + {EntryJob(items[k])} {
      var j :| 0 <= j < |items'| && items'[j].beingMonitored && EntryJob(items'[j]) == x;
      if j != k { assert items'[j] == items[j]; }
    }
    forall x | x in MonitoredJobs(items) + {EntryJob(items[k])} ensures x in MonitoredJobs(items') {
      if x == EntryJob(items[k]) {
        assert EntryJob(items'[k]) == x;
      } else {
        var j :| 0 <= j < |items| && items[j].beingMonitored && EntryJob(items[j]) == x;
        assert items'[j] == items[j];
      }
    }
  }

  lemma BusyJobsAssign(pool: seq<ChildProcess>, w: nat, e: MonitoredProcess)
    requires w < |pool| && pool[w].isAvailable
    ensures BusyJobs(pool[w := Busy(pool[w], e)]) == BusyJobs(pool) + {EntryJob(e)}
  {
    var pool' := pool[w := Busy(pool[w], e)];
    forall x | x in BusyJobs(pool') ensures x in BusyJobs(pool) + {EntryJob(e)} {
      var j :| 0 <= j < |pool'| && !pool'[j].isAvailable && WorkerJob(pool'[j]) == x;
      if j != w { assert pool'[j] == pool[j]; }
    }
    forall x | x in BusyJobs(pool) + {EntryJob(e)} ensures x in BusyJobs(pool') {
      if x == EntryJob(e) {
        assert WorkerJob(pool'[w]) == x;
      } else {
        var j :| 0 <= j < |pool| && !pool[j].isAvailable && WorkerJob(pool[j]) == x;
        assert pool'[j] == pool[j];
      }
    }
  }

  lemma BusyJobsRelease(pool: seq<ChildProcess>, i: nat)
    requires i < |pool| && !pool[i].isAvailable && BusyDistinct(pool)
    ensures BusyJobs(pool[i := Idle(pool[i])]) == BusyJobs(pool) - {WorkerJob(pool[i])}
  {
    var pool' := pool[i := Idle(pool[i])];
    forall x | x in BusyJobs(pool') ensures x in BusyJobs(pool) - {WorkerJob(pool[i])} {
      var j :| 0 <= j < |pool'| && !pool'[j].isAvailable && WorkerJob(pool'[j]) == x;
      assert j != i && pool'[j] == pool[j];
      assert pool[j].pid != pool[i].pid by {
        if j < i { assert pool[j].pid != pool[i].pid; } else { assert pool[i].pid != pool[j].pid; }
      }
    }
    forall x | x in BusyJobs(pool) - {WorkerJob(pool[i])} ensures x in BusyJobs(pool') {
      var j :| 0 <= j < |pool| && !pool[j].isAvailable && WorkerJob(pool[j]) == x;
      assert j != i && pool'[j] == pool[j];
    }
  }

  lemma MonitoredJobsAppend(items: seq<MonitoredProcess>, e: MonitoredProcess)
    requires !e.beingMonitored
    ensures MonitoredJobs(items + [e]) == MonitoredJobs(items)
  {
    var items' := items + [e];
    forall x | x in MonitoredJobs(items') ensures x in MonitoredJobs(items) {
      var j :| 0 <= j < |items'| && items'[j].beingMonitored && EntryJob(items'[j]) == x;
      assert j < |items| && items'[j] == items[j];
    }
    forall x | x in MonitoredJobs(items) ensures x in MonitoredJobs(items') {
      var j :| 0 <= j < |items| && items[j].beingMonitored && EntryJob(items[j]) == x;
      assert items'[j] == items[j];
    }
  }

  lemma BusyJobsAppend(pool: seq<ChildProcess>, c: ChildProcess)
    requires c.isAvailable
    ensures BusyJobs(pool + [c]) == BusyJobs(pool)
  {
    var pool' := pool + [c];
    forall x | x in BusyJobs(pool') ensures x in BusyJobs(pool) {
      var j :| 0 <= j < |pool'| && !pool'[j].isAvailable && WorkerJob(pool'[j]) == x;
      assert j < |pool| && pool'[j] == pool[j];
    }
    forall x | x in BusyJobs(pool) ensures x in BusyJobs(pool') {
      var j :| 0 <= j < |pool| && !pool[j].isAvailable && WorkerJob(pool[j]) == x;
      assert pool'[j] == pool[j];
    }
  }

  // ---------------------------------------------------------------------------
  // Removal by pid.

  /** The predicate `ll_remove` unlinks with, for the client's comparator. */
  function HasPid(pid: int): MonitoredProcess -> bool {
    LL.EqualTo(SamePid, Probe(pid))
  }

  lemma HasPidMeans(pid: int, e: MonitoredProcess)
    ensures HasPid(pid)(e) <==> e.pid == pid
  {
    assert HasPid(pid)(e) == SamePid(e, Probe(pid));
  }

  /** Dropping the head keeps the pids unique. */
  lemma UniqueTail(items: seq<MonitoredProcess>)
    requires UniquePids(items) && |items| > 0
    ensures UniquePids(items[1..])
  {
    var tail := items[1..];
    forall a, b | 0 <= a < b < |tail| ensures PidAt(tail, a) != PidAt(tail, b) {
      UniqueAt(items, a + 1, b + 1);
    }
  }

  lemma {:induction false} KeepUnique(items: seq<MonitoredProcess>, p: MonitoredProcess -> bool)
    requires UniquePids(items)
    ensures UniquePids(LL.Keep(items, p))
    decreases |items|
  {
    if |items| > 0 {
      var tail := items[1..];
      UniqueTail(items);
      var rest := LL.Keep(tail, p);
      KeepUnique(tail, p);
      var r := LL.Keep(items, p);
      if !p(items[0]) {
        assert r == [items[0]] + rest;
        forall a, b | 0 <= a < b < |r| ensures PidAt(r, a) != PidAt(r, b) {
          if a == 0 {
            var m :| 0 <= m < |tail| && tail[m] == rest[b - 1];
            UniqueAt(items, 0, m + 1);
          } else {
            UniqueAt(rest, a - 1, b - 1);
          }
        }
      } else {
        assert r == rest;
      }
    }
  }

  /** Removing the entries with `pid` from a watch-list with unique pids takes
      exactly that pid's job out of the monitored set, when it is there. */
  lemma MonitoredJobsRemove(items: seq<MonitoredProcess>, t: Job)
    requires UniquePids(items) && t in MonitoredJobs(items)
    ensures MonitoredJobs(LL.Keep(items, HasPid(t.pid))) == MonitoredJobs(items) - {t}
  {
    var p := HasPid(t.pid);
    var r := LL.Keep(items, p);
    var k :| 0 <= k < |items| && items[k].beingMonitored && EntryJob(items[k]) == t;
    forall x | x in MonitoredJobs(r) ensures x in MonitoredJobs(items) - {t} {
      var j :| 0 <= j < |r| && r[j].beingMonitored && EntryJob(r[j]) == x;
      assert r[j] in items && !p(r[j]);
      HasPidMeans(t.pid, r[j]);
      var m :| 0 <= m < |items| && items[m] == r[j];
      assert EntryJob(items[m]) == x;
    }
    forall x | x in MonitoredJobs(items) - {t} ensures x in MonitoredJobs(r) {
      var j :| 0 <= j < |items| && items[j].beingMonitored && EntryJob(items[j]) == x;
      assert j != k;
      UniqueAt(items, j, k);
      HasPidMeans(t.pid, items[j]);
      var m :| 0 <= m < |r| && r[m] == items[j];
    }
  }

  // ---------------------------------------------------------------------------
  // The invariant under each change.

  /** Dispatch: an unmonitored entry bound to an idle worker. */
  lemma PairedAfterBind(items: seq<MonitoredProcess>, pool: seq<ChildProcess>, k: nat, w: nat)
    requires Paired(items, pool)
    requires k < |items| && !items[k].beingMonitored
    requires w < |pool| && pool[w].isAvailable
    ensures Paired(items[k := Mark(items[k])], pool[w := Busy(pool[w], items[k])])
  {
    var e := items[k];
    var items' := items[k := Mark(e)];
    var pool' := pool[w := Busy(pool[w], e)];
    MonitoredJobsMark(items, k);
    BusyJobsAssign(pool, w, e);
    assert UniquePids(items') by {
      forall i, j | 0 <= i < j < |items'| ensures PidAt(items', i) != PidAt(items', j) {
        assert items'[i].pid == items[i].pid && items'[j].pid == items[j].pid;
        UniqueAt(items, i, j);
      }
    }
    forall i, j | 0 <= i < j < |pool'| && !pool'[i].isAvailable && !pool'[j].isAvailable
      ensures pool'[i].pid != pool'[j].pid
    {
      if i != w && j != w {
        assert pool'[i] == pool[i] && pool'[j] == pool[j];
      } else {
        var o := if i == w then j else i;
        assert pool'[o] == pool[o] && !pool[o].isAvailable;
        assert WorkerJob(pool[o]) in MonitoredJobs(items);
        var m :| 0 <= m < |items| && items[m].beingMonitored && EntryJob(items[m]) == WorkerJob(pool[o]);
        assert m != k;
        UniqueAt(items, m, k);
      }
    }
  }

  /** Result draining: a busy worker goes idle and its entry is removed. */
  lemma PairedAfterRelease(items: seq<MonitoredProcess>, pool: seq<ChildProcess>, i: nat)
    requires Paired(items, pool)
    requires i < |pool| && !pool[i].isAvailable
    ensures Paired(LL.Keep(items, HasPid(pool[i].pid)), pool[i := Idle(pool[i])])
  {
    var t := WorkerJob(pool[i]);
    assert t in BusyJobs(pool);
    KeepUnique(items, HasPid(pool[i].pid));
    MonitoredJobsRemove(items, t);
    BusyJobsRelease(pool, i);
    var pool' := pool[i := Idle(pool[i])];
    forall a, b | 0 <= a < b < |pool'| && !pool'[a].isAvailable && !pool'[b].isAvailable
      ensures pool'[a].pid != pool'[b].pid
    {
      assert pool'[a] == pool[a] && pool'[b] == pool[b];
    }
  }

  /** Discovery: a fresh, unmonitored entry appended. */
  lemma PairedAfterAppend(items: seq<MonitoredProcess>, pool: seq<ChildProcess>, e: MonitoredProcess)
    requires Paired(items, pool) && !e.beingMonitored
    requires forall k :: 0 <= k < |items| ==> items[k].pid != e.pid
    ensures Paired(items + [e], pool)
  {
    MonitoredJobsAppend(items, e);
    var items' := items + [e];
    forall a, b | 0 <= a < b < |items'| ensures PidAt(items', a) != PidAt(items', b) {
      if b < |items| { assert items'[a] == items[a] && items'[b] == items[b]; UniqueAt(items, a, b); }
      else { assert items'[a] == items[a]; }
    }
  }

  /** Spawning: an idle worker appended. */
  lemma PairedAfterSpawn(items: seq<MonitoredProcess>, pool: seq<ChildProcess>, c: ChildProcess)
    requires Paired(items, pool) && c.isAvailable
    ensures Paired(items, pool + [c])
  {
    BusyJobsAppend(pool, c);
    var pool' := pool + [c];
    forall a, b | 0 <= a < b < |pool'| && !pool'[a].isAvailable && !pool'[b].isAvailable
      ensures pool'[a].pid != pool'[b].pid
    {
      assert pool'[a] == pool[a] && pool'[b] == pool[b];
    }
  }

  /** Each busy worker has exactly one monitored entry, with its job. */
  lemma PairedIsOneToOne(items: seq<MonitoredProcess>, pool: seq<ChildProcess>, i: nat)
    requires Paired(items, pool) && i < |pool| && !pool[i].isAvailable
    ensures exists k :: 0 <= k < |items| && items[k].beingMonitored && EntryJob(items[k]) == WorkerJob(pool[i])
    ensures forall k, m :: 0 <= k < m < |items| ==> items[k].pid != items[m].pid
  {
    assert WorkerJob(pool[i]) in MonitoredJobs(items);
    forall k, m | 0 <= k < m < |items| ensures items[k].pid != items[m].pid {
      UniqueAt(items, k, m);
    }
  }
}

=== FILE: records.dfy ===
/** The records the client keeps in its two lists. Pipe descriptors are
    not modelled: a worker is identified by its position in the pool, and
    the bytes written to or read from its pipes are events of the model. */
module Records {
  import opened Limits

  /** `MonitoredProcess`: a process found by name and the runtime limit of
      the configuration entry it was found for. */
  datatype MonitoredProcess = MonitoredProcess(pid: int, name: string, runtime: Uint32, beingMonitored: bool)

  /** `ChildProcess`: a worker's pid, whether it is idle, and the assignment
      it holds (pid, name and runtime of the process it watches). */
  datatype ChildProcess = ChildProcess(childPid: int, isAvailable: bool, pid: int, name: string, runtime: Uint32)

  /** `monitoredProcessComparator`: equal in value means the same pid. */
  function SamePid(a: MonitoredProcess, b: MonitoredProcess): bool {
    a.pid == b.pid
  }

  /** `getChildPredicate`. */
  function IsAvailable(c: ChildProcess): bool {
    c.isAvailable
  }

  /** A fresh worker right after `fork`: idle, no assignment yet. */
  function NewWorker(childPid: int): (c: ChildProcess)
    ensures c.isAvailable && c.childPid == childPid
  {
    ChildProcess(childPid, true, 0, "", 0)
  }
}

=== FILE: server.dfy ===
/** The assignment3 main server: `beginProcNanny` as a reactor over the
    client table. The operating system is abstract: what `select` reports,
    the descriptor `accept` returns, the bytes a client socket yields and
    the content of the configuration file are inputs; what the server sends,
    closes and logs is recorded in the state. */
module ServerNode {
  import opened Wrappers
  import opened Limits
  import opened CText
  import opened Config
  import opened Events
  import opened SlotTable

  /** The server's globals and the locals of `beginProcNanny`. `newSocket`
      is `None` until the first `accept`; `pipe` counts the bytes waiting in
      the self-pipe. */
  datatype Server = Server(
    path: string,
    config: Table,
    slots: seq<int>,
    newSocket: Option<int>,
    killed: int,
    hup: bool,
    interrupt: bool,
    pipe: nat,
    sent: seq<Send>,
    closed: seq<int>,
    log: seq<LogLine>,
    status: Status)

  /** A full table of `%s` names, `MAXCLIENTS` slots, and no occupied slot
      before the first `accept`. */
  predicate Inv(s: Server) {
    && |s.config| == CONFIG_FILE_LINES && WellFormed(s.config)
    && |s.slots| == MAXCLIENTS
    && (s.newSocket.None? ==> forall i :: 0 <= i < |s.slots| ==> s.slots[i] == 0)
  }

  // ---------------------------------------------------------------------------
  // Configuration.

  /** `readConfigurationFile` of the main server: the table it leaves, or
      the Error line it logs before the server exits. Every slot is cleared
      first; a line with only a name is an error, a blank line leaves its
      slot empty, and lines past `CONFIG_FILE_LINES` are not read. */
  function ReadTable(path: string, file: Option<seq<string>>): (r: Result<Table, LogLine>)
    ensures file.None? ==> r == Failure(Logged("Error", NoConfigMessage))
    ensures file.Some? ==>
      (r.Success? <==> forall i :: 0 <= i < |file.value| && i < CONFIG_FILE_LINES ==> !ScanNameInt(file.value[i]).NameOnly?)
    ensures r.Success? ==> file.Some? && |r.value| == CONFIG_FILE_LINES && WellFormed(r.value)
    ensures r.Success? ==> forall i :: 0 <= i < CONFIG_FILE_LINES ==>
      r.value[i] == (if i < |file.value| && Complete(file.value[i]) then ParsedEntry(file.value[i]) else EmptySlot)
    ensures r.Failure? && file.Some? ==>
      exists k :: 0 <= k < |file.value| && k < CONFIG_FILE_LINES && ScanNameInt(file.value[k]).NameOnly?
        && r.error == Logged("Error", BadLineMessage(k, path))
  {
    match file
    case None => Failure(Logged("Error", NoConfigMessage))
    case Some(lines) =>
      match ReadServer(lines)
      case Success(t) =>
        ReadServerWellFormed(lines);
        Success(t)
      case Failure(k) => Failure(Logged("Error", BadLineMessage(k, path)))
  }

  /** A table the server's reader fills holds only `%s` names. */
  lemma ReadServerWellFormed(lines: seq<string>)
    requires ReadServer(lines).Success?
    ensures WellFormed(ReadServer(lines).value)
  {
    var t := ReadServer(lines).value;
    forall i | 0 <= i < |t| ensures t[i].name == [] || NoSpace(t[i].name) {
      if i < |lines| && Complete(lines[i]) {
        assert t[i].name == ScanNameInt(lines[i]).name;
      }
    }
  }

  // ---------------------------------------------------------------------------
  // Signals.

  /** The two signals the server installs `signalHandler` for. */
  datatype Signal = SigInt | SigHup

  /** `signalHandler`: raise the signal's flag and write one byte to the
      self-pipe; nothing else. */
  function Deliver(s: Server, sig: Signal): (r: Server)
    ensures r.interrupt == (s.interrupt || sig == SigInt)
    ensures r.hup == (s.hup || sig == SigHup)
    ensures r.pipe == s.pipe + 1
    ensures r.(interrupt := s.interrupt, hup := s.hup, pipe := s.pipe) == s
  {
    match sig
    case SigInt => s.(interrupt := true, pipe := s.pipe + 1)
    case SigHup => s.(hup := true, pipe := s.pipe + 1)
  }

  /** The SIGHUP branch: the file is re-read; on success every occupied slot
      triggers a push of the new table to `newSocket` and the re-read is
      logged; on an error the line is logged and the server exits. */
  function Reload(s: Server, file: Option<seq<string>>): (r: Server)
    requires Inv(s) && s.status == Running
    ensures Inv(r) && !r.hup
    ensures r.status == Running <==> ReadTable(s.path, file).Success?
    ensures r.status != Running ==>
      r.status == Exited(EXIT_FAILURE) && r.log == s.log + [ReadTable(s.path, file).error]
    ensures r.status == Running ==>
      && r.config == ReadTable(s.path, file).value
      && r.slots == s.slots && r.killed == s.killed && r.closed == s.closed && r.newSocket == s.newSocket
      && r.log == s.log + [Logged("Info", RereadMessage(s.path))]
      && r.sent == s.sent + (if s.newSocket.None? then [] else RebroadcastAsWritten(s.slots, r.config, s.newSocket.value, 0))
  {
    match ReadTable(s.path, file)
    case Failure(line) => s.(hup := false, log := s.log + [line], status := Exited(EXIT_FAILURE))
    case Success(t) =>
      var pushes := if s.newSocket.None? then [] else RebroadcastAsWritten(s.slots, t, s.newSocket.value, 0);
      s.(hup := false, config := t, sent := s.sent + pushes,
         log := s.log + [Logged("Info", RereadMessage(s.path))])
  }

  /** The SIGINT branch: the sentinel goes to the descriptor of every slot,
      free ones (descriptor 0) included, every slot's descriptor is closed,
      the tally is logged and the server exits with `EXIT_SUCCESS`. */
  function Shutdown(s: Server): (r: Server)
    requires Inv(s)
    ensures Inv(r) && !r.interrupt
    ensures r.status == Exited(EXIT_SUCCESS)
    ensures |r.sent| == |s.sent| + MAXCLIENTS && r.sent[..|s.sent|] == s.sent
    ensures forall i :: 0 <= i < MAXCLIENTS ==> r.sent[|s.sent| + i] == Send(s.slots[i], KillSentinel)
    ensures r.closed == s.closed + s.slots
    ensures r.killed == s.killed && r.log == s.log + [Logged("Info", ExitingMessage(s.killed))]
  {
    s.(interrupt := false, sent := s.sent + Broadcast(s.slots, KillSentinel), closed := s.closed + s.slots,
       log := s.log + [Logged("Info", ExitingMessage(s.killed))], status := Exited(EXIT_SUCCESS))
  }

  /** The self-pipe branch: the pipe is drained, then SIGHUP is handled if
      its flag is up, then SIGINT. */
  function OnSignal(s: Server, file: Option<seq<string>>): (r: Server)
    requires Inv(s) && s.status == Running
    ensures Inv(r) && r.pipe == 0 && !r.hup
    ensures r.status == Running ==> !r.interrupt && !s.interrupt
    ensures r.status == Running || r.status == Exited(EXIT_SUCCESS) || r.status == Exited(EXIT_FAILURE)
    ensures r.status == Exited(EXIT_SUCCESS) <==> s.interrupt && (s.hup ==> ReadTable(s.path, file).Success?)
    ensures r.status == Exited(EXIT_FAILURE) ==> s.hup
    ensures r.killed == s.killed && r.slots == s.slots
    ensures !s.hup ==> r.config == s.config
  {
    var s0 := s.(pipe := 0);
    var s1 := if s0.hup then Reload(s0, file) else s0;
    if s1.status != Running then s1
    else if s1.interrupt then Shutdown(s1)
    else s1
  }

  // ---------------------------------------------------------------------------
  // Connections and client data.

  /** The new-connection branch: a failed `accept` ends the server with
      `EXIT_FAILURE`; otherwise the descriptor becomes `newSocket`, takes
      the lowest free slot if there is one, and receives the table. */
  function Accept(s: Server, sock: int): (r: Server)
    requires Inv(s)
    ensures Inv(r)
    ensures sock < 0 ==> r.status == Exited(EXIT_FAILURE) && r.sent == s.sent && r.log == s.log
    ensures sock >= 0 ==>
      && r.status == s.status && r.newSocket == Some(sock)
      && r.slots == Store(s.slots, sock)
      && r.sent == s.sent + Push(s.config, sock)
      && r.config == s.config && r.killed == s.killed && r.log == s.log && r.closed == s.closed
  {
    if sock < 0 then s.(status := Exited(EXIT_FAILURE))
    else s.(newSocket := Some(sock), slots := Store(s.slots, sock), sent := s.sent + Push(s.config, sock))
  }

  /** The client-data branch: every ready client slot is read; an end of
      stream closes and frees the slot, anything else is logged verbatim and
      counted when it reports a kill. A read that fills the buffer makes the
      pass undefined. */
  function Serve(s: Server, ready: map<nat, Received>): (r: Server)
    requires Inv(s)
    ensures Inv(r)
    ensures !ReadsFit(s.slots, ready) ==> r == s.(status := Undefined)
    ensures ReadsFit(s.slots, ready) ==>
      && (forall i :: 0 <= i < MAXCLIENTS ==>
            r.slots[i] == (if s.slots[i] != 0 && i in ready && ready[i].Closed? then 0 else s.slots[i]))
      && r.log == s.log + AsRaw(Messages(s.slots, ready, 0))
      && r.killed == s.killed + Kills(Messages(s.slots, ready, 0))
      && r.sent == s.sent && r.config == s.config && r.status == s.status && r.newSocket == s.newSocket
  {
    if !ReadsFit(s.slots, ready) then s.(status := Undefined)
    else
      var d := ReadFrom(Served(s.slots, s.killed, s.log, s.closed), ready, true, 0);
      s.(slots := d.slots, killed := d.killed, log := d.log, closed := d.closed)
  }

  /** What `select` reports: an error (the loop starts over), or readiness
      of the listening socket, with the descriptor `accept` will return, and
      what `read` returns on each ready client slot. The self-pipe is
      readable exactly when it holds a byte. */
  datatype Wake = SelectFailed | Ready(listening: bool, accepted: int, ready: map<nat, Received>)

  /** One pass of the `while (1)` loop. Exactly one branch runs, by
      priority: the self-pipe, else a new connection, else client data. */
  function Step(s: Server, w: Wake, file: Option<seq<string>>): (r: Server)
    requires Inv(s) && s.status == Running
    ensures Inv(r)
    ensures w.SelectFailed? ==> r == s
    ensures w.Ready? && s.pipe > 0 ==>
      && r.pipe == 0 && !r.hup && r.killed == s.killed && r.slots == s.slots
      && (r.status == Running ==> !r.interrupt)
    ensures w.Ready? && s.pipe == 0 && w.listening ==>
      && r.killed == s.killed && r.log == s.log && r.closed == s.closed && r.config == s.config
      && (r.status == Running <==> w.accepted >= 0)
    ensures w.Ready? && s.pipe == 0 && !w.listening ==>
      && (r.status == Running <==> ReadsFit(s.slots, w.ready))
      && (r.status != Running ==> r.status == Undefined && r.killed == s.killed && r.log == s.log)
      && r.sent == s.sent && r.config == s.config
      && (r.status == Running ==> r.killed == s.killed + Kills(Messages(s.slots, w.ready, 0)))
    ensures s.killed <= r.killed
  {
    match w
    case SelectFailed => s
    case Ready(listening, sock, ready) =>
      if s.pipe > 0 then OnSignal(s, file)
      else if listening then Accept(s, sock)
      else Serve(s, ready)
  }

  /** The start of `main` and `beginProcNanny`: the file is read into the
      zeroed table, then the listening socket is set up; when that fails
      (`listening` false) `beginProcNanny` returns and `main` exits with
      `EXIT_SUCCESS`; otherwise the server logs its pid, host and port. */
  function Start(path: string, file: Option<seq<string>>, self: int, host: string, listening: bool): (r: Server)
    ensures Inv(r) && r.slots == EmptySlots() && r.killed == 0 && r.sent == [] && r.pipe == 0
    ensures r.status == Running <==> ReadTable(path, file).Success? && listening
    ensures r.status == Running ==>
      r.config == ReadTable(path, file).value && r.log == [Logged("procnanny server", ServerMessage(self, host, PORT))]
  {
    var s0 := Server(path, ClearedTable(), EmptySlots(), None, 0, false, false, 0, [], [], [], Running);
    match ReadTable(path, file)
    case Failure(line) => s0.(log := [line], status := Exited(EXIT_FAILURE))
    case Success(t) =>
      if !listening then s0.(config := t, status := Exited(EXIT_SUCCESS))
      else s0.(config := t, log := [Logged("procnanny server", ServerMessage(self, host, PORT))])
  }

  /** Something that happens to a running server: a signal arrives, or the
      loop makes one pass, with the configuration file as it is then. */
  datatype Event = Arrive(sig: Signal) | Pass(w: Wake, file: Option<seq<string>>)

  /** A run of the server; events after it exits are ignored. */
  function Run(s: Server, events: seq<Event>): (r: Server)
    requires Inv(s)
    ensures Inv(r)
    ensures s.status != Running ==> r == s
    ensures s.killed <= r.killed
    decreases |events|
  {
    if |events| == 0 || s.status != Running then s
    else
      var s1 := match events[0]
        case Arrive(sig) => Deliver(s, sig)
        case Pass(w, file) => Step(s, w, file);
      Run(s1, events[1..])
  }

  // ---------------------------------------------------------------------------
  // Properties of the reactor.

  /** A signal is acted on at the next wake-up `select` reports: the byte
      in the self-pipe makes the signal branch run; after it the flags are
      down, and SIGINT ends the server. */
  lemma SignalHandledAtNextWake(s: Server, sig: Signal, w: Wake, file: Option<seq<string>>)
    requires Inv(s) && s.status == Running && w.Ready?
    ensures var r := Step(Deliver(s, sig), w, file);
      !r.hup && r.pipe == 0 && (r.status == Running ==> !r.interrupt)
      && (sig == SigInt ==> r.status != Running)
  {
  }

  /** On a re-read, a connected client on any descriptor other than
      `newSocket` receives nothing. */
  lemma ReloadMissesClients(s: Server, file: Option<seq<string>>, r: Server, i: nat)
    requires Inv(s) && s.status == Running && r == Reload(s, file)
    requires i < MAXCLIENTS && s.slots[i] != 0 && s.newSocket != Some(s.slots[i])
    ensures SentTo(r.sent, s.slots[i]) == SentTo(s.sent, s.slots[i])
  {
    if r.status == Running && s.newSocket.Some? {
      var pushes := RebroadcastAsWritten(s.slots, r.config, s.newSocket.value, 0);
      SentToAppend(s.sent, pushes, s.slots[i]);
      RebroadcastMissesClients(s.slots, r.config, s.newSocket.value, i);
    }
  }

  /** On a re-read, `newSocket` receives the whole table once per occupied
      slot. */
  lemma ReloadFloodsNewSocket(s: Server, file: Option<seq<string>>, r: Server)
    requires Inv(s) && s.status == Running && r == Reload(s, file)
    requires s.newSocket.Some? && r.status == Running
    ensures |SentTo(r.sent, s.newSocket.value)| == |SentTo(s.sent, s.newSocket.value)| + Occupied(s.slots, 0) * |NonEmpty(r.config)|
  {
    var pushes := RebroadcastAsWritten(s.slots, r.config, s.newSocket.value, 0);
    SentToAppend(s.sent, pushes, s.newSocket.value);
    SentToAll(pushes, s.newSocket.value);
    RebroadcastAsWrittenCount(s.slots, r.config, s.newSocket.value, 0);
  }

  /** On accept the new descriptor receives exactly the table's non-empty
      lines, which a client reading them into a cleared table turns back
      into the same entries. */
  lemma AcceptDeliversTable(s: Server, sock: int)
    requires Inv(s) && sock >= 0
    ensures var r := Accept(s, sock);
      var lines := Lines(Concat(PushLines(s.config)));
      SentTo(r.sent, sock) == SentTo(s.sent, sock) + PushLines(s.config)
      && |lines| <= CONFIG_FILE_LINES && ReadClient(ClearedTable(), lines) == Some(Success(Fill(NonEmpty(s.config))))
  {
    SentToAppend(s.sent, Push(s.config, sock), sock);
    PushSentTo(s.config, sock);
    PushRoundTrip(s.config);
  }

  /** On SIGINT every connected client receives the sentinel exactly once,
      when no descriptor sits in two slots. */
  lemma ShutdownReachesEveryClient(s: Server, i: nat)
    requires Inv(s) && DistinctOccupied(s.slots) && i < MAXCLIENTS && s.slots[i] != 0
    ensures SentTo(Shutdown(s).sent, s.slots[i]) == SentTo(s.sent, s.slots[i]) + [KillSentinel]
  {
    SentToAppend(s.sent, Broadcast(s.slots, KillSentinel), s.slots[i]);
    BroadcastOnce(s.slots, KillSentinel, i);
  }

  /** A client's Action line counts one kill; its Info lines count none.
      A message that fills the read buffer is undefined and counts none. */
  lemma TallyCountsClientKills(s: Server, i: nat, message: string)
    requires Inv(s) && i < MAXCLIENTS && s.slots[i] != 0
    requires '\0' !in message
    ensures var r := Serve(s, map[i := Data(message)]);
      && (|message| < READ_BUFFER ==> r.killed == s.killed + (if Contains(message, Marker) then 1 else 0))
      && (READ_BUFFER <= |message| ==> r.status == Undefined && r.killed == s.killed)
  {
    if |message| < READ_BUFFER {
      TallyFitting(s, i, message);
    } else {
      TallyOverlong(s, i, message);
    }
  }

  lemma TallyFitting(s: Server, i: nat, message: string)
    requires Inv(s) && i < MAXCLIENTS && s.slots[i] != 0
    requires '\0' !in message && |message| < READ_BUFFER
    ensures Serve(s, map[i := Data(message)]).killed == s.killed + (if Contains(message, Marker) then 1 else 0)
  {
    ReadsFitOne(s.slots, i, message);
    KillsOne(s.slots, i, message);
    ServeTally(s, map[i := Data(message)]);
  }

  lemma TallyOverlong(s: Server, i: nat, message: string)
    requires Inv(s) && i < MAXCLIENTS && s.slots[i] != 0 && READ_BUFFER <= |message|
    ensures Serve(s, map[i := Data(message)]) == s.(status := Undefined)
  {
    ReadsNotFitOne(s.slots, i, message);
  }

  /** One message on one occupied slot counts once iff it reports a kill. */
  lemma KillsOne(slots: seq<int>, i: nat, message: string)
    requires i < |slots| && slots[i] != 0 && '\0' !in message
    ensures Kills(Messages(slots, map[i := Data(message)], 0)) == (if Contains(message, Marker) then 1 else 0)
  {
    MessagesOne(slots, i, message, 0);
    assert CString(message) == message;
    assert Kills([message]) == (if Contains(message, Marker) then 1 else 0);
  }

  lemma ServeTally(s: Server, ready: map<nat, Received>)
    requires Inv(s) && ReadsFit(s.slots, ready)
    ensures Serve(s, ready).killed == s.killed + Kills(Messages(s.slots, ready, 0))
  {
  }

  lemma ReadsFitOne(slots: seq<int>, i: nat, message: string)
    requires |message| < READ_BUFFER
    ensures ReadsFit(slots, map[i := Data(message)])
  {
  }

  lemma ReadsNotFitOne(slots: seq<int>, i: nat, message: string)
    requires i < |slots| && slots[i] != 0 && READ_BUFFER <= |message|
    ensures !ReadsFit(slots, map[i := Data(message)])
  {
    assert map[i := Data(message)][i].Data?;
  }
}

=== FILE: server_variant.dfy ===
/** The procnanny_server variant of the assignment3 server: the signal
    flags are polled at the top of every pass of the loop (there is no
    self-pipe), `select` waits at most one second, new connections and
    client data are handled in the same pass, and `logToFileSimple` keeps
    no tally. The operating system is abstract as in `ServerNode`. */
module VariantNode {
  import opened Wrappers
  import opened Limits
  import opened CText
  import opened Config
  import opened Events
  import opened SlotTable

  /** The variant's globals and the locals of `beginProcNanny`. `alarm` is
      `receivedSIGALARM`, which the handler raises and nothing reads. */
  datatype Server = Server(
    path: string,
    config: Table,
    slots: seq<int>,
    newSocket: Option<int>,
    killed: int,
    hup: bool,
    interrupt: bool,
    alarm: bool,
    sent: seq<Send>,
    closed: seq<int>,
    log: seq<LogLine>,
    status: Status)

  /** A full table of `%s` names, 32 slots, no occupied slot before the
      first `accept`, and a tally nothing ever raises. */
  predicate Inv(s: Server) {
    && |s.config| == CONFIG_FILE_LINES && WellFormed(s.config)
    && |s.slots| == MAXCLIENTS
    && (s.newSocket.None? ==> forall i :: 0 <= i < |s.slots| ==> s.slots[i] == 0)
    && s.killed == 0
  }

  /** `readConfigurationFile` of the variant on a zeroed table (the zeroed
      global at start-up, the loop that clears every slot on SIGHUP): every
      line up to `CONFIG_FILE_LINES` must yield a name and a number, blank
      lines included, or the Error line is logged and the server exits. */
  function ReadTable(path: string, file: Option<seq<string>>): (r: Result<Table, LogLine>)
    ensures file.None? ==> r == Failure(Logged("Error", NoConfigMessage))
    ensures file.Some? ==>
      (r.Success? <==> forall i :: 0 <= i < |file.value| && i < CONFIG_FILE_LINES ==> Complete(file.value[i]))
    ensures r.Success? ==> file.Some? && |r.value| == CONFIG_FILE_LINES && WellFormed(r.value)
    ensures r.Success? ==> forall i :: 0 <= i < CONFIG_FILE_LINES ==>
      r.value[i] == (if i < |file.value| then ParsedEntry(file.value[i]) else EmptySlot)
    ensures r.Failure? && file.Some? ==>
      exists k :: 0 <= k < |file.value| && k < CONFIG_FILE_LINES && !Complete(file.value[k])
        && (forall i :: 0 <= i < k ==> Complete(file.value[i]))
        && r.error == Logged("Error", BadLineMessage(k, path))
  {
    match file
    case None => Failure(Logged("Error", NoConfigMessage))
    case Some(lines) =>
      match ReadVariant(ClearedTable(), lines)
      case Success(t) =>
        ReadVariantWellFormed(lines);
        Success(t)
      case Failure(k) => Failure(Logged("Error", BadLineMessage(k, path)))
  }

  /** A table the variant's reader fills holds only `%s` names. */
  lemma ReadVariantWellFormed(lines: seq<string>)
    requires ReadVariant(ClearedTable(), lines).Success?
    ensures WellFormed(ReadVariant(ClearedTable(), lines).value)
  {
    var t := ReadVariant(ClearedTable(), lines).value;
    forall i | 0 <= i < |t| ensures t[i].name == [] || NoSpace(t[i].name) {
      if i < |lines| {
        assert t[i].name == ScanNameInt(lines[i]).name;
      }
    }
  }

  /** The three signals the variant installs `signalHandler` for. */
  datatype Signal = SigInt | SigHup | SigAlrm

  /** `signalHandler`: raise the signal's flag (SIGALRM also re-arms the
      alarm, which is not modelled); nothing else. */
  function Deliver(s: Server, sig: Signal): (r: Server)
    ensures r.interrupt == (s.interrupt || sig == SigInt)
    ensures r.hup == (s.hup || sig == SigHup)
    ensures r.alarm == (s.alarm || sig == SigAlrm)
    ensures r.(interrupt := s.interrupt, hup := s.hup, alarm := s.alarm) == s
  {
    match sig
    case SigInt => s.(interrupt := true)
    case SigHup => s.(hup := true)
    case SigAlrm => s.(alarm := true)
  }

  /** The SIGHUP block: every slot is zeroed and the file re-read; on
      success every occupied slot triggers a push of the new table to
      `newSocket` and the re-read is logged. */
  function Reload(s: Server, file: Option<seq<string>>): (r: Server)
    requires Inv(s) && s.status == Running
    ensures Inv(r) && !r.hup
    ensures r.status == Running <==> ReadTable(s.path, file).Success?
    ensures r.status != Running ==>
      r.status == Exited(EXIT_FAILURE) && r.log == s.log + [ReadTable(s.path, file).error]
    ensures r.status == Running ==>
      && r.config == ReadTable(s.path, file).value
      && r.slots == s.slots && r.closed == s.closed && r.newSocket == s.newSocket && r.interrupt == s.interrupt
      && r.log == s.log + [Logged("Info", RereadMessage(s.path))]
      && r.sent == s.sent + (if s.newSocket.None? then [] else RebroadcastAsWritten(s.slots, r.config, s.newSocket.value, 0))
  {
    match ReadTable(s.path, file)
    case Failure(line) => s.(hup := false, log := s.log + [line], status := Exited(EXIT_FAILURE))
    case Success(t) =>
      var pushes := if s.newSocket.None? then [] else RebroadcastAsWritten(s.slots, t, s.newSocket.value, 0);
      s.(hup := false, config := t, sent := s.sent + pushes,
         log := s.log + [Logged("Info", RereadMessage(s.path))])
  }

  /** The SIGINT block: the sentinel, without a newline, goes to the
      descriptor of every one of the 32 slots, each is closed, the tally
      (always 0) is logged and the server exits with `EXIT_SUCCESS`. */
  function Shutdown(s: Server): (r: Server)
    requires Inv(s)
    ensures Inv(r) && !r.interrupt
    ensures r.status == Exited(EXIT_SUCCESS)
    ensures |r.sent| == |s.sent| + MAXCLIENTS && r.sent[..|s.sent|] == s.sent
    ensures forall i :: 0 <= i < MAXCLIENTS ==> r.sent[|s.sent| + i] == Send(s.slots[i], VariantKillSentinel)
    ensures r.closed == s.closed + s.slots
    ensures r.log == s.log + [Logged("Info", ExitingMessage(0))]
  {
    s.(interrupt := false, sent := s.sent + Broadcast(s.slots, VariantKillSentinel), closed := s.closed + s.slots,
       log := s.log + [Logged("Info", ExitingMessage(s.killed))], status := Exited(EXIT_SUCCESS))
  }

  /** The new-connection block, as in the main server. */
  function Accept(s: Server, sock: int): (r: Server)
    requires Inv(s)
    ensures Inv(r)
    ensures sock < 0 ==> r.status == Exited(EXIT_FAILURE) && r.sent == s.sent && r.log == s.log
    ensures sock >= 0 ==>
      && r.status == s.status && r.newSocket == Some(sock)
      && r.slots == Store(s.slots, sock)
      && r.sent == s.sent + Push(s.config, sock)
      && r.config == s.config && r.log == s.log && r.closed == s.closed
  {
    if sock < 0 then s.(status := Exited(EXIT_FAILURE))
    else s.(newSocket := Some(sock), slots := Store(s.slots, sock), sent := s.sent + Push(s.config, sock))
  }

  /** The read loop: an end of stream closes and frees the slot; anything
      else is logged verbatim and never counted. A read that fills the
      buffer makes the pass undefined. */
  function Serve(s: Server, ready: map<nat, Received>): (r: Server)
    requires Inv(s)
    ensures Inv(r)
    ensures !ReadsFit(s.slots, ready) ==> r == s.(status := Undefined)
    ensures ReadsFit(s.slots, ready) ==>
      && r.slots == Cleared(s.slots, ready, 0)
      && r.log == s.log + AsRaw(Messages(s.slots, ready, 0))
      && r.sent == s.sent && r.config == s.config && r.status == s.status && r.newSocket == s.newSocket
  {
    if !ReadsFit(s.slots, ready) then s.(status := Undefined)
    else
      var d := ReadFrom(Served(s.slots, s.killed, s.log, s.closed), ready, false, 0);
      s.(slots := d.slots, log := d.log, closed := d.closed)
  }

  /** What the descriptor sets hold after `select`: whether the listening
      socket is readable, with the descriptor `accept` will return, and
      what `read` returns on each ready client slot. `activity` is never
      looked at, so a `select` that a signal interrupts is a wake too (see
      `InterruptedWake`). */
  datatype Wake = Wake(listening: bool, accepted: int, ready: map<nat, Received>)

  /** The wake after a signal interrupts `select`: on failure `select`
      leaves the sets as they were built, so the listening socket and every
      occupied slot test ready. `accepted` is what the `accept` that then
      waits for a connection returns, and `results[i]` what slot `i`'s read,
      which waits for that client, returns. */
  function InterruptedWake(slots: seq<int>, accepted: int, results: seq<Received>): (w: Wake)
    requires |results| == |slots|
    ensures w.listening && w.accepted == accepted
    ensures forall i :: i in w.ready <==> 0 <= i < |slots| && slots[i] != 0
    ensures forall i :: i in w.ready ==> w.ready[i] == results[i]
  {
    Wake(true, accepted, map i | 0 <= i < |slots| && slots[i] != 0 :: results[i])
  }

  /** One pass of the `while (1)` loop: SIGHUP, then SIGINT, then `select`;
      a new connection is accepted, and then every client slot that was in
      the set given to `select` is read, in the same pass. */
  function Step(s: Server, w: Wake, file: Option<seq<string>>): (r: Server)
    requires Inv(s) && s.status == Running
    ensures Inv(r)
    ensures r.status == Running ==> !r.hup && !r.interrupt
    ensures s.interrupt ==> r.status != Running
    ensures r.status == Exited(EXIT_SUCCESS) ==> |r.log| > 0 && r.log[|r.log| - 1] == Logged("Info", ExitingMessage(0))
    ensures !s.hup && !s.interrupt && (w.listening ==> w.accepted >= 0) ==>
      && (r.status == Running <==> ReadsFit(s.slots, w.ready))
      && r.newSocket == (if w.listening then Some(w.accepted) else s.newSocket)
      && r.sent == s.sent + (if w.listening then Push(s.config, w.accepted) else [])
      && (r.status != Running ==> r.status == Undefined && r.log == s.log)
      && (r.status == Running ==>
            && r.slots == Cleared(if w.listening then Store(s.slots, w.accepted) else s.slots, ReadySince(s.slots, w.ready), 0)
            && r.log == s.log + AsRaw(Messages(s.slots, w.ready, 0)))
  {
    var s1 := if s.hup then Reload(s, file) else s;
    if s1.status != Running then s1
    else if s1.interrupt then Shutdown(s1)
    else AfterSelect(s1, w)
  }

  /** The part of a pass after `select`: the new connection, then the
      reads on the slots that were in the set. */
  function AfterSelect(s: Server, w: Wake): (r: Server)
    requires Inv(s) && s.status == Running
    ensures Inv(r) && r.hup == s.hup && r.interrupt == s.interrupt
    ensures w.listening && w.accepted < 0 ==> r.status == Exited(EXIT_FAILURE)
    ensures r.status != Exited(EXIT_SUCCESS)
    ensures (w.listening ==> w.accepted >= 0) ==>
      && (r.status == Running <==> ReadsFit(s.slots, w.ready))
      && r.newSocket == (if w.listening then Some(w.accepted) else s.newSocket)
      && r.sent == s.sent + (if w.listening then Push(s.config, w.accepted) else [])
      && (r.status != Running ==> r.status == Undefined && r.log == s.log)
      && (r.status == Running ==>
            && r.slots == Cleared(if w.listening then Store(s.slots, w.accepted) else s.slots, ReadySince(s.slots, w.ready), 0)
            && r.log == s.log + AsRaw(Messages(s.slots, w.ready, 0)))
  {
    var s2 := if w.listening then Accept(s, w.accepted) else s;
    if s2.status != Running then s2
    else
      StoreKeepsOccupied(s.slots, w.accepted);
      MessagesSince(s.slots, s2.slots, w.ready, 0);
      ReadsFitSince(s.slots, s2.slots, w.ready);
      Serve(s2, ReadySince(s.slots, w.ready))
  }

  /** The pass with `activity` checked, as the main server checks it: a
      failed `select` (`None`) starts the loop over before `accept`, so only
      the flags at the top of the pass are acted on. */
  function CheckedStep(s: Server, w: Option<Wake>, file: Option<seq<string>>): (r: Server)
    requires Inv(s) && s.status == Running
    ensures Inv(r)
    ensures w.Some? ==> r == Step(s, w.value, file)
    ensures r.status == Running ==> !r.hup && !r.interrupt
    ensures s.interrupt ==> r.status != Running
    ensures w.None? && !s.hup && !s.interrupt ==> r == s
    ensures w.None? && r.status == Running ==> r.slots == s.slots && r.newSocket == s.newSocket && r.closed == s.closed
  {
    match w
    case Some(wake) => Step(s, wake, file)
    case None =>
      var s1 := if s.hup then Reload(s, file) else s;
      if s1.status != Running then s1
      else if s1.interrupt then Shutdown(s1)
      else s1
  }

  /** `Store` only fills a free slot. */
  lemma StoreKeepsOccupied(slots: seq<int>, sock: int)
    ensures forall i :: 0 <= i < |slots| && slots[i] != 0 ==> Store(slots, sock)[i] == slots[i]
  {
  }

  /** The start of `pnMain` and `beginProcNanny`, as in the main server;
      the server's pid, host and port are logged. */
  function Start(path: string, file: Option<seq<string>>, self: int, host: string, listening: bool): (r: Server)
    ensures Inv(r) && r.slots == EmptySlots() && r.sent == []
    ensures r.status == Running <==> ReadTable(path, file).Success? && listening
    ensures r.status == Running ==>
      r.config == ReadTable(path, file).value && r.log == [Logged("procnanny server", ServerMessage(self, host, PORT))]
  {
    var s0 := Server(path, ClearedTable(), EmptySlots(), None, 0, false, false, false, [], [], [], Running);
    match ReadTable(path, file)
    case Failure(line) => s0.(log := [line], status := Exited(EXIT_FAILURE))
    case Success(t) =>
      if !listening then s0.(config := t, status := Exited(EXIT_SUCCESS))
      else s0.(config := t, log := [Logged("procnanny server", ServerMessage(self, host, PORT))])
  }

  datatype Event = Arrive(sig: Signal) | Pass(w: Wake, file: Option<seq<string>>)

  /** A run of the variant; events after it exits are ignored. */
  function Run(s: Server, events: seq<Event>): (r: Server)
    requires Inv(s)
    ensures Inv(r)
    ensures s.status != Running ==> r == s
    ensures s.status == Running && r.status == Exited(EXIT_SUCCESS) ==>
      |r.log| > 0 && r.log[|r.log| - 1] == Logged("Info", ExitingMessage(0))
    decreases |events|
  {
    if |events| == 0 || s.status != Running then s
    else
      var s1 := match events[0]
        case Arrive(sig) => Deliver(s, sig)
        case Pass(w, file) => Step(s, w, file);
      Run(s1, events[1..])
  }

  // ---------------------------------------------------------------------------
  // Properties of the variant.

  /** A signal whose flag is up when a pass starts is acted on in that
      pass: after it the flags are down, and SIGINT ends the server. A
      signal that interrupts `select` gets there only once the interrupted
      pass has finished (see `InterruptedPassWaitsForClients`). */
  lemma SignalHandledAtNextPass(s: Server, sig: Signal, w: Wake, file: Option<seq<string>>)
    requires Inv(s) && s.status == Running
    ensures var r := Step(Deliver(s, sig), w, file);
      (r.status == Running ==> !r.hup && !r.interrupt) && (sig == SigInt ==> r.status != Running)
  {
  }

  /** As written, a pass whose `select` a signal interrupts does not start
      over: it finishes only once `accept` has returned a new connection,
      which then receives the table, and every connected client's read has
      returned; only the pass after it looks at the flags. */
  lemma InterruptedPassWaitsForClients(s: Server, accepted: int, results: seq<Received>, file: Option<seq<string>>)
    requires Inv(s) && s.status == Running && !s.hup && !s.interrupt
    requires |results| == MAXCLIENTS && accepted >= 0
    ensures var w := InterruptedWake(s.slots, accepted, results);
      var r := Step(s, w, file);
      && (forall i :: 0 <= i < MAXCLIENTS && s.slots[i] != 0 ==> i in w.ready)
      && r.newSocket == Some(accepted) && r.sent == s.sent + Push(s.config, accepted)
      && (ReadsFit(s.slots, w.ready) ==> r.status == Running && r.log == s.log + AsRaw(Messages(s.slots, w.ready, 0)))
  {
  }

  /** With `activity` checked, the interrupted pass accepts nothing, reads
      nothing and sends nothing, and the signal is acted on in the very
      next pass, whatever the clients do. */
  lemma CheckedSignalDuringSelect(s: Server, sig: Signal, file: Option<seq<string>>, w: Option<Wake>, next: Option<seq<string>>)
    requires Inv(s) && s.status == Running && !s.hup && !s.interrupt
    ensures CheckedStep(s, None, file) == s
    ensures var r := CheckedStep(Deliver(s, sig), w, next);
      (r.status == Running ==> !r.hup && !r.interrupt) && (sig == SigInt ==> r.status != Running)
  {
  }

  /** On a re-read, a connected client on any descriptor other than
      `newSocket` receives nothing, as in the main server. */
  lemma ReloadMissesClients(s: Server, file: Option<seq<string>>, r: Server, i: nat)
    requires Inv(s) && s.status == Running && r == Reload(s, file)
    requires i < MAXCLIENTS && s.slots[i] != 0 && s.newSocket != Some(s.slots[i])
    ensures SentTo(r.sent, s.slots[i]) == SentTo(s.sent, s.slots[i])
  {
    if r.status == Running && s.newSocket.Some? {
      var pushes := RebroadcastAsWritten(s.slots, r.config, s.newSocket.value, 0);
      SentToAppend(s.sent, pushes, s.slots[i]);
      RebroadcastMissesClients(s.slots, r.config, s.newSocket.value, i);
    }
  }

  /** On SIGINT every connected client receives the sentinel exactly once,
      when no descriptor sits in two slots. */
  lemma ShutdownReachesEveryClient(s: Server, i: nat)
    requires Inv(s) && DistinctOccupied(s.slots) && i < MAXCLIENTS && s.slots[i] != 0
    ensures SentTo(Shutdown(s).sent, s.slots[i]) == SentTo(s.sent, s.slots[i]) + [VariantKillSentinel]
  {
    SentToAppend(s.sent, Broadcast(s.slots, VariantKillSentinel), s.slots[i]);
    BroadcastOnce(s.slots, VariantKillSentinel, i);
  }
}

=== FILE: slot_table.dfy ===
/** The servers' client table: `int clientSockets[MAXCLIENTS]`, where 0 marks
    a free slot, and what the servers send to and read from the sockets in
    it. Shared by the main server and the procnanny_server variant. */
module SlotTable {
  import opened Wrappers
  import opened Limits
  import opened CText
  import opened CNum
  import opened Config
  import opened Events

  /** One `send` of `text` on descriptor `dest`. */
  datatype Send = Send(dest: int, text: string)

  /** What `read` returned on a client socket `select` reported ready: zero
      bytes (the client closed the connection) or some bytes. */
  datatype Received = Closed | Data(bytes: string)

  /** `read` is asked for at most 1024 bytes, and `buffer[valread] = '\0'`
      stays inside the 1024-byte buffer only when it returned fewer: a
      read that fills the buffer writes one byte past it. Only occupied
      slots are read. */
  predicate ReadsFit(slots: seq<int>, ready: map<nat, Received>) {
    forall i :: 0 <= i < |slots| && slots[i] != 0 && i in ready && ready[i].Data? ==> |ready[i].bytes| < READ_BUFFER
  }

  /** The table at start-up: every slot free. */
  function EmptySlots(): (r: seq<int>)
    ensures |r| == MAXCLIENTS && forall i :: 0 <= i < |r| ==> r[i] == 0
  {
    seq(MAXCLIENTS, _ => 0)
  }

  // ---------------------------------------------------------------------------
  // Accept: first fit.

  /** The lowest free slot from `k` on. */
  function FirstFree(slots: seq<int>, k: nat): (r: Option<nat>)
    requires k <= |slots|
    ensures r.None? <==> forall i :: k <= i < |slots| ==> slots[i] != 0
    ensures r.Some? ==> k <= r.value < |slots| && slots[r.value] == 0
    ensures r.Some? ==> forall i :: k <= i < r.value ==> slots[i] != 0
    decreases |slots| - k
  {
    if k == |slots| then None
    else if slots[k] == 0 then Some(k)
    else FirstFree(slots, k + 1)
  }

  /** The loop that stores the accepted socket: the lowest free slot takes
      it; when every slot is taken the socket is not stored anywhere. */
  function Store(slots: seq<int>, sock: int): (r: seq<int>)
    ensures |r| == |slots|
    ensures (forall i :: 0 <= i < |slots| ==> slots[i] != 0) ==> r == slots
    ensures forall f :: 0 <= f < |slots| && slots[f] == 0 && (forall i :: 0 <= i < f ==> slots[i] != 0) ==>
      r == slots[f := sock]
  {
    match FirstFree(slots, 0)
    case None => slots
    case Some(f) => slots[f := sock]
  }

  /** The configuration push: one `send` of `name runtime\n` per non-empty
      slot of the table, in table order, to `dest`. */
  function Push(config: Table, dest: int): (r: seq<Send>)
    ensures |r| == |NonEmpty(config)|
    ensures forall k :: 0 <= k < |r| ==> r[k] == Send(dest, FormatEntry(NonEmpty(config)[k]))
  {
    var lines := PushLines(config);
    PushLinesAreNonEmptyEntries(config);
    seq(|lines|, k requires 0 <= k < |lines| => Send(dest, lines[k]))
  }

  /** The texts sent to `dest`, in order. */
  function SentTo(sends: seq<Send>, dest: int): (r: seq<string>)
    ensures |r| <= |sends|
  {
    if |sends| == 0 then []
    else (if sends[0].dest == dest then [sends[0].text] else []) + SentTo(sends[1..], dest)
  }

  lemma {:induction false} SentToAppend(a: seq<Send>, b: seq<Send>, dest: int)
    ensures SentTo(a + b, dest) == SentTo(a, dest) + SentTo(b, dest)
    decreases |a|
  {
    if |a| > 0 {
      assert (a + b)[1..] == a[1..] + b;
      SentToAppend(a[1..], b, dest);
    } else {
      assert a + b == b;
    }
  }

  /** Nothing in `sends` goes to `dest`. */
  lemma {:induction false} SentToNone(sends: seq<Send>, dest: int)
    requires forall k :: 0 <= k < |sends| ==> sends[k].dest != dest
    ensures SentTo(sends, dest) == []
    decreases |sends|
  {
    if |sends| > 0 {
      SentToNone(sends[1..], dest);
    }
  }

  /** The push to a socket carries exactly the table's non-empty lines. */
  lemma {:induction false} PushSentTo(config: Table, dest: int)
    ensures SentTo(Push(config, dest), dest) == PushLines(config)
  {
    var p := Push(config, dest);
    PushLinesAreNonEmptyEntries(config);
    SentToAll(p, dest);
    assert forall k :: 0 <= k < |p| ==> p[k].text == PushLines(config)[k];
  }

  /** When every send goes to `dest`, `dest` receives all their texts. */
  lemma {:induction false} SentToAll(sends: seq<Send>, dest: int)
    requires forall k :: 0 <= k < |sends| ==> sends[k].dest == dest
    ensures |SentTo(sends, dest)| == |sends|
    ensures forall k :: 0 <= k < |sends| ==> SentTo(sends, dest)[k] == sends[k].text
    decreases |sends|
  {
    if |sends| > 0 {
      SentToAll(sends[1..], dest);
    }
  }

  /** A client that connects to a server holding a well-formed table and
      reads what it receives into a cleared table, as the client does, ends
      up with the server's non-empty entries, in order, then empty slots. */
  lemma AcceptDeliversConfig(config: Table, dest: int)
    requires |config| == CONFIG_FILE_LINES && WellFormed(config)
    ensures var lines := Lines(Concat(SentTo(Push(config, dest), dest)));
      |lines| <= CONFIG_FILE_LINES && ReadClient(ClearedTable(), lines) == Some(Success(Fill(NonEmpty(config))))
  {
    PushSentTo(config, dest);
    PushRoundTrip(config);
  }

  // ---------------------------------------------------------------------------
  // The SIGHUP rebroadcast and the SIGINT sentinel.

  /** The SIGHUP loop as written: for every occupied slot from `k` on, the
      whole push goes to `newSocket`, the last accepted socket, instead of
      the slot's own descriptor. */
  function RebroadcastAsWritten(slots: seq<int>, config: Table, newSocket: int, k: nat): (r: seq<Send>)
    requires k <= |slots|
    ensures forall m :: 0 <= m < |r| ==> r[m].dest == newSocket
    decreases |slots| - k
  {
    if k == |slots| then []
    else (if slots[k] == 0 then [] else Push(config, newSocket)) + RebroadcastAsWritten(slots, config, newSocket, k + 1)
  }

  /** As written, a connected client other than the last accepted one
      receives nothing of the re-read configuration. */
  lemma RebroadcastMissesClients(slots: seq<int>, config: Table, newSocket: int, i: nat)
    requires i < |slots| && slots[i] != 0 && slots[i] != newSocket
    ensures SentTo(RebroadcastAsWritten(slots, config, newSocket, 0), slots[i]) == []
  {
    SentToNone(RebroadcastAsWritten(slots, config, newSocket, 0), slots[i]);
  }

  /** An instance: two clients on descriptors 4 and 5, the second accepted
      last, and one configured program. Client 4 gets no line, and client 5
      gets the line twice. */
  lemma RebroadcastExample()
    ensures var config := ClearedTable()[0 := ProgramConfig("sleep", 10)];
      var slots := EmptySlots()[0 := 4][1 := 5];
      var sends := RebroadcastAsWritten(slots, config, 5, 0);
      SentTo(sends, 4) == [] && |SentTo(sends, 5)| == 2
  {
    var config := ClearedTable()[0 := ProgramConfig("sleep", 10)];
    var slots := EmptySlots()[0 := 4][1 := 5];
    RebroadcastMissesClients(slots, config, 5, 0);
    var sends := RebroadcastAsWritten(slots, config, 5, 0);
    assert NonEmpty(config) == [ProgramConfig("sleep", 10)] by {
      NonEmptyOfFirst(config);
    }
    RebroadcastAsWrittenCount(slots, config, 5, 0);
    SentToAll(sends, 5);
    OccupiedExample(slots);
  }

  /** The table `config` has one non-empty slot, the first. */
  lemma NonEmptyOfFirst(config: Table)
    requires |config| > 0 && config[0].name != []
    requires forall i :: 1 <= i < |config| ==> config[i].name == []
    ensures NonEmpty(config) == [config[0]]
  {
    NonEmptyNone(config[1..]);
  }

  lemma {:induction false} NonEmptyNone(config: Table)
    requires forall i :: 0 <= i < |config| ==> config[i].name == []
    ensures NonEmpty(config) == []
    decreases |config|
  {
    if |config| > 0 {
      NonEmptyNone(config[1..]);
    }
  }

  /** The number of occupied slots from `k` on. */
  function Occupied(slots: seq<int>, k: nat): (n: nat)
    requires k <= |slots|
    ensures n <= |slots| - k
    decreases |slots| - k
  {
    if k == |slots| then 0 else (if slots[k] != 0 then 1 else 0) + Occupied(slots, k + 1)
  }

  lemma OccupiedExample(slots: seq<int>)
    requires slots == EmptySlots()[0 := 4][1 := 5]
    ensures Occupied(slots, 0) == 2
  {
    OccupiedNone(slots, 2);
  }

  lemma {:induction false} OccupiedNone(slots: seq<int>, k: nat)
    requires k <= |slots| && forall i :: k <= i < |slots| ==> slots[i] == 0
    ensures Occupied(slots, k) == 0
    decreases |slots| - k
  {
    if k < |slots| {
      OccupiedNone(slots, k + 1);
    }
  }

  /** As written, `newSocket` receives the push once per occupied slot. */
  lemma {:induction false} RebroadcastAsWrittenCount(slots: seq<int>, config: Table, newSocket: int, k: nat)
    requires k <= |slots|
    ensures |RebroadcastAsWritten(slots, config, newSocket, k)| == Occupied(slots, k) * |NonEmpty(config)|
    decreases |slots| - k
  {
    if k < |slots| {
      RebroadcastAsWrittenCount(slots, config, newSocket, k + 1);
      var p := Push(config, newSocket);
      var b := RebroadcastAsWritten(slots, config, newSocket, k + 1);
      var o := Occupied(slots, k + 1);
      if slots[k] == 0 {
        assert RebroadcastAsWritten(slots, config, newSocket, k) == [] + b;
        assert Occupied(slots, k) == o;
      } else {
        assert RebroadcastAsWritten(slots, config, newSocket, k) == p + b;
        assert Occupied(slots, k) == 1 + o;
        MulStep(o, |p|);
      }
    }
  }

  lemma MulStep(o: nat, n: nat)
    ensures (1 + o) * n == n + o * n
  {
  }

  /** No descriptor is in two occupied slots. */
  predicate DistinctOccupied(slots: seq<int>) {
    forall i, j :: 0 <= i < j < |slots| && slots[i] != 0 ==> slots[i] != slots[j]
  }

  /** The rebroadcast as evidently intended: every occupied slot from `k`
      on gets the push on its own descriptor. */
  function Rebroadcast(slots: seq<int>, config: Table, k: nat): (r: seq<Send>)
    requires k <= |slots|
    ensures forall m :: 0 <= m < |r| ==> exists i :: k <= i < |slots| && slots[i] != 0 && r[m].dest == slots[i]
    decreases |slots| - k
  {
    if k == |slots| then []
    else
      var here := if slots[k] == 0 then [] else Push(config, slots[k]);
      var rest := Rebroadcast(slots, config, k + 1);
      assert forall m :: 0 <= m < |here| ==> here[m].dest == slots[k];
      here + rest
  }

  /** With the correction, every connected client receives exactly the
      re-read configuration once. */
  lemma {:induction false} RebroadcastReachesEveryClient(slots: seq<int>, config: Table, k: nat, i: nat)
    requires DistinctOccupied(slots) && k <= i < |slots| && slots[i] != 0
    ensures SentTo(Rebroadcast(slots, config, k), slots[i]) == PushLines(config)
    decreases |slots| - k
  {
    var here := if slots[k] == 0 then [] else Push(config, slots[k]);
    var rest := Rebroadcast(slots, config, k + 1);
    SentToAppend(here, rest, slots[i]);
    if k == i {
      PushSentTo(config, slots[i]);
      forall m | 0 <= m < |rest| ensures rest[m].dest != slots[i] {
        var j :| k + 1 <= j < |slots| && slots[j] != 0 && rest[m].dest == slots[j];
      }
      SentToNone(rest, slots[i]);
    } else {
      if slots[k] != 0 {
        forall m | 0 <= m < |here| ensures here[m].dest != slots[i] {
        }
      }
      SentToNone(here, slots[i]);
      RebroadcastReachesEveryClient(slots, config, k + 1, i);
    }
  }

  /** The SIGINT loop: the same text to the descriptor of every slot index,
      a free slot's 0 included. */
  function Broadcast(slots: seq<int>, text: string): (r: seq<Send>)
    ensures |r| == |slots|
    ensures forall i :: 0 <= i < |slots| ==> r[i] == Send(slots[i], text)
  {
    seq(|slots|, i requires 0 <= i < |slots| => Send(slots[i], text))
  }

  /** The shutdown sentinel of the main server, and the variant's, which
      has no newline. */
  const KillSentinel := "___KILL___ 0\n"
  const VariantKillSentinel := "___KILL___ 0"

  /** Under the readers' `"%s %d"` the sentinel reads as a program named
      `___KILL___` with runtime 0. */
  lemma SentinelScans()
    ensures ScanNameInt(KillSentinel) == NameAndNumber("___KILL___", 0)
  {
    var zero := IntToString(0);
    assert zero == "0";
    assert KillSentinel == "___KILL___" + " " + zero + "\n";
    ScanNameNumber("___KILL___", 0);
  }

  /** The variant's sentinel reads the same without its newline. */
  lemma VariantSentinelScans()
    ensures ScanNameInt(VariantKillSentinel) == NameAndNumber("___KILL___", 0)
  {
    var zero := IntToString(0);
    assert zero == "0";
    assert VariantKillSentinel == "___KILL___" + " " + zero;
    ScanNameNumberAtEnd("___KILL___", 0);
  }

  /** `name number` at the end of the input scans to its name and number. */
  lemma ScanNameNumberAtEnd(name: string, v: int)
    requires Token(name)
    ensures ScanNameInt(name + " " + IntToString(v)) == NameAndNumber(name, v)
  {
    var tail := " " + IntToString(v);
    var line := name + " " + IntToString(v);
    assert line == name + tail;
    TokenLengthOfToken(name, tail);
    assert line[..|name|] == name;
    assert line[|name|..] == tail;
    assert tail == " " + IntToString(v) + "";
    ScanIntAfterBlank(v, "");
  }

  /** A descriptor that sits in one occupied slot receives the broadcast
      text exactly once. */
  lemma BroadcastOnce(slots: seq<int>, text: string, i: nat)
    requires DistinctOccupied(slots) && i < |slots| && slots[i] != 0
    ensures SentTo(Broadcast(slots, text), slots[i]) == [text]
  {
    var b := Broadcast(slots, text);
    forall k | 0 <= k < |b| && k != i ensures b[k].dest != slots[i] {
      if k < i {
        assert slots[k] == 0 || slots[k] != slots[i];
      }
    }
    SentToSingle(b, slots[i], i);
  }

  /** Only the send at index `i` goes to `dest`. */
  lemma SentToSingle(sends: seq<Send>, dest: int, i: nat)
    requires i < |sends| && sends[i].dest == dest
    requires forall k :: 0 <= k < |sends| && k != i ==> sends[k].dest != dest
    ensures SentTo(sends, dest) == [sends[i].text]
  {
    var a, m, c := sends[..i], [sends[i]], sends[i + 1..];
    assert sends == a + m + c;
    SentToAppend(a + m, c, dest);
    SentToAppend(a, m, dest);
    SentToNone(a, dest);
    assert forall k :: 0 <= k < |c| ==> c[k] == sends[i + 1 + k];
    SentToNone(c, dest);
    assert SentTo(m, dest) == [sends[i].text] by {
      assert m[1..] == [];
    }
  }

  // ---------------------------------------------------------------------------
  // Reading from clients.

  /** What the read loop leaves: the table, the kill tally, the log, and the
      descriptors it closed. */
  datatype Served = Served(slots: seq<int>, killed: int, log: seq<LogLine>, closed: seq<int>)

  /** The messages the loop passes to `logToFileSimple` from slot `k` on:
      each ready, occupied slot's data up to the first NUL. */
  function Messages(slots: seq<int>, ready: map<nat, Received>, k: nat): seq<string>
    requires k <= |slots|
    decreases |slots| - k
  {
    if k == |slots| then []
    else (if slots[k] != 0 && k in ready && ready[k].Data? then [CString(ready[k].bytes)] else []) + Messages(slots, ready, k + 1)
  }

  /** How many messages contain the "killed after" marker. */
  function Kills(msgs: seq<string>): (n: nat)
    ensures n <= |msgs|
  {
    if |msgs| == 0 then 0 else (if Contains(msgs[0], Marker) then 1 else 0) + Kills(msgs[1..])
  }

  function AsRaw(msgs: seq<string>): (r: seq<LogLine>)
    ensures |r| == |msgs| && forall k :: 0 <= k < |msgs| ==> r[k] == Raw(msgs[k])
  {
    seq(|msgs|, k requires 0 <= k < |msgs| => Raw(msgs[k]))
  }

  /** The table once every ready slot from `k` on whose read returned 0
      bytes has been zeroed; every other slot keeps its descriptor. */
  function Cleared(slots: seq<int>, ready: map<nat, Received>, k: nat): (r: seq<int>)
    ensures |r| == |slots|
  {
    seq(|slots|, i requires 0 <= i < |slots| =>
      if k <= i && slots[i] != 0 && i in ready && ready[i].Closed? then 0 else slots[i])
  }

  lemma ClearedStep(slots: seq<int>, ready: map<nat, Received>, k: nat)
    requires k < |slots|
    ensures Cleared(if slots[k] != 0 && k in ready && ready[k].Closed? then slots[k := 0] else slots, ready, k + 1)
      == Cleared(slots, ready, k)
  {
  }

  /** The read loop from slot `k` on. A ready slot whose read returns 0
      bytes is closed and zeroed; no other slot changes. Every other ready
      slot's message is logged verbatim, and with `tally` (the main server's
      `logToFileSimple`) the tally grows by the number of logged messages
      holding "killed after"; without it (the variant's) it stays. */
  function ReadFrom(d: Served, ready: map<nat, Received>, tally: bool, k: nat): (r: Served)
    requires k <= |d.slots|
    ensures r.slots == Cleared(d.slots, ready, k)
    ensures r.log == d.log + AsRaw(Messages(d.slots, ready, k))
    ensures r.killed == d.killed + (if tally then Kills(Messages(d.slots, ready, k)) else 0)
    decreases |d.slots| - k
  {
    if k == |d.slots| then
      assert Cleared(d.slots, ready, k) == d.slots;
      d
    else
      var d1 := ReadOne(d, ready, tally, k);
      var r := ReadFrom(d1, ready, tally, k + 1);
      ReadFromStep(d, ready, tally, k, d1, r);
      r
  }

  /** Slot `k`'s read followed by the loop from `k + 1` is the loop from `k`. */
  lemma ReadFromStep(d: Served, ready: map<nat, Received>, tally: bool, k: nat, d1: Served, r: Served)
    requires k < |d.slots| && d1 == ReadOne(d, ready, tally, k)
    requires r.slots == Cleared(d1.slots, ready, k + 1)
    requires r.log == d1.log + AsRaw(Messages(d1.slots, ready, k + 1))
    requires r.killed == d1.killed + (if tally then Kills(Messages(d1.slots, ready, k + 1)) else 0)
    ensures r.slots == Cleared(d.slots, ready, k)
    ensures r.log == d.log + AsRaw(Messages(d.slots, ready, k))
    ensures r.killed == d.killed + (if tally then Kills(Messages(d.slots, ready, k)) else 0)
  {
    ClearedStep(d.slots, ready, k);
    var here := if d.slots[k] != 0 && k in ready && ready[k].Data? then [CString(ready[k].bytes)] else [];
    var later := Messages(d.slots, ready, k + 1);
    assert Messages(d.slots, ready, k) == here + later;
    MessagesFrame(d.slots, d1.slots, ready, k + 1);
    KillsAppend(here, later);
    assert AsRaw(here + later) == AsRaw(here) + AsRaw(later);
    assert d1.log == d.log + AsRaw(here);
    assert d1.killed == d.killed + (if tally then Kills(here) else 0);
    AppendAssoc(d.log, AsRaw(here), AsRaw(later));
  }

  /** The loop body for slot `k`. */
  function ReadOne(d: Served, ready: map<nat, Received>, tally: bool, k: nat): (r: Served)
    requires k < |d.slots|
    ensures r.slots == (if d.slots[k] != 0 && k in ready && ready[k].Closed? then d.slots[k := 0] else d.slots)
    ensures d.slots[k] != 0 && k in ready && ready[k].Data? ==>
      r.log == d.log + [Raw(CString(ready[k].bytes))]
      && r.killed == (if tally then d.killed + Kills([CString(ready[k].bytes)]) else d.killed)
    ensures !(d.slots[k] != 0 && k in ready && ready[k].Data?) ==> r.log == d.log && r.killed == d.killed
  {
    var sd := d.slots[k];
    if sd == 0 || k !in ready then d
    else match ready[k]
      case Closed => d.(slots := d.slots[k := 0], closed := d.closed + [sd])
      case Data(bytes) =>
        var msg := CString(bytes);
        assert Kills([msg]) == (if Contains(msg, Marker) then 1 else 0);
        d.(log := d.log + [Raw(msg)], killed := if tally then CountKill(d.killed, msg) else d.killed)
  }

  lemma {:induction false} KillsAppend(a: seq<string>, b: seq<string>)
    ensures Kills(a + b) == Kills(a) + Kills(b)
    decreases |a|
  {
    if |a| > 0 {
      assert (a + b)[1..] == a[1..] + b;
      KillsAppend(a[1..], b);
    } else {
      assert a + b == b;
    }
  }

  /** The part of `ready` that `select` can report when its set was built
      from `slots`: occupied slots only. */
  function ReadySince(slots: seq<int>, ready: map<nat, Received>): (r: map<nat, Received>)
    ensures forall i :: i in r <==> i in ready && i < |slots| && slots[i] != 0
    ensures forall i :: i in r ==> r[i] == ready[i]
  {
    map i | i in ready && i < |slots| && slots[i] != 0 :: ready[i]
  }

  /** Reading with the set built before an accept that filled only a free
      slot reads exactly what reading the old table would have read. */
  lemma ReadsFitSince(before: seq<int>, after: seq<int>, ready: map<nat, Received>)
    requires |before| == |after|
    requires forall i :: 0 <= i < |before| && before[i] != 0 ==> after[i] == before[i]
    ensures ReadsFit(after, ReadySince(before, ready)) <==> ReadsFit(before, ready)
  {
  }

  /** Reading with the set built before an accept that filled only a free
      slot logs what reading the old table would have logged. */
  lemma {:induction false} MessagesSince(before: seq<int>, after: seq<int>, ready: map<nat, Received>, k: nat)
    requires k <= |before| == |after|
    requires forall i :: 0 <= i < |before| && before[i] != 0 ==> after[i] == before[i]
    ensures Messages(after, ReadySince(before, ready), k) == Messages(before, ready, k)
    decreases |before| - k
  {
    if k < |before| {
      MessagesSince(before, after, ready, k + 1);
    }
  }

  /** With data on one occupied slot only, that slot's message is the only one. */
  lemma {:induction false} MessagesOne(slots: seq<int>, i: nat, bytes: string, k: nat)
    requires k <= i < |slots| && slots[i] != 0
    ensures Messages(slots, map[i := Data(bytes)], k) == [CString(bytes)]
    decreases |slots| - k
  {
    var ready := map[i := Data(bytes)];
    if k < i {
      MessagesOne(slots, i, bytes, k + 1);
    } else {
      MessagesNone(slots, ready, k + 1);
    }
  }

  /** No ready slot from `k` on: no message. */
  lemma {:induction false} MessagesNone(slots: seq<int>, ready: map<nat, Received>, k: nat)
    requires k <= |slots| && forall i :: k <= i < |slots| ==> i !in ready
    ensures Messages(slots, ready, k) == []
    decreases |slots| - k
  {
    if k < |slots| {
      MessagesNone(slots, ready, k + 1);
    }
  }

  lemma {:induction false} MessagesFrame(a: seq<int>, b: seq<int>, ready: map<nat, Received>, k: nat)
    requires k <= |a| == |b| && forall i :: k <= i < |a| ==> a[i] == b[i]
    ensures Messages(a, ready, k) == Messages(b, ready, k)
    decreases |a| - k
  {
    if k < |a| {
      MessagesFrame(a, b, ready, k + 1);
    }
  }
}

=== FILE: worker.dfy ===
/** The parent-to-worker protocol of the client: the command line the
    parent writes, the worker's `sscanf` of it, what the worker does with it,
    and the count it writes back and the parent reads. */
module Worker {
  import opened Wrappers
  import opened Limits
  import opened CText
  import opened CNum

  /** What a worker is asked to do: watch `pid` for `runtime` seconds. */
  datatype Assignment = Assignment(pid: int, runtime: Uint32)

  /** `snprintf(buff, 255, "PID: %d, RUNTIME: %d\n", pid, runtime)`; the
      runtime is an `unsigned int` printed with `%d`. */
  function FormatCommand(pid: int, runtime: Uint32): string {
    "PID: " + IntToString(pid) + ", RUNTIME: " + IntToString(ToInt32(runtime)) + "\n"
  }

  /** A literal directive of a `scanf` format: the input must continue with
      exactly these characters. */
  function MatchLiteral(s: string, lit: string): (r: Option<string>)
    ensures r.Some? <==> HasPrefix(s, lit)
    ensures r.Some? ==> s == lit + r.value
  {
    if HasPrefix(s, lit) then
      assert s == s[..|lit|] + s[|lit|..];
      Some(s[|lit|..])
    else None
  }

  /** `sscanf(command, "PID: %d, RUNTIME: %d\n", &pid, &runtime)` with the
      worker's initial values -1 and 0 for whatever is not matched. A blank
      in the format skips any white space, and so does `%d`. */
  function ScanCommand(cmd: string): (a: Assignment)
    ensures !HasPrefix(cmd, "PID:") ==> a == Assignment(-1, 0)
  {
    match MatchLiteral(cmd, "PID:")
    case None => Assignment(-1, 0)
    case Some(t1) =>
      match ScanInt(t1)
      case None => Assignment(-1, 0)
      case Some(p) => Assignment(p.value, ScanRuntime(p.rest))
  }

  /** The rest of the format after the pid: ",", a blank, "RUNTIME:", a blank
      and `%d`; 0 when any of it does not match. */
  function ScanRuntime(s: string): Uint32 {
    match MatchLiteral(s, ",")
    case None => 0
    case Some(t2) =>
      match MatchLiteral(TrimLeft(t2), "RUNTIME:")
      case None => 0
      case Some(t3) =>
        match ScanInt(t3)
        case None => 0
        case Some(r) => ToUint32(r.value)
  }

  lemma HasPrefixOf(a: string, b: string)
    ensures HasPrefix(a + b, a) && (a + b)[|a|..] == b
  {
    assert (a + b)[..|a|] == a;
  }

  /** The pid part of a command: after "PID:" the blank and `%d`. */
  lemma ScanCommandPid(pid: int, rest: string)
    requires |rest| > 0 && rest[0] == ','
    ensures ScanCommand("PID: " + IntToString(pid) + rest) == Assignment(pid, ScanRuntime(rest))
  {
    var t1 := " " + IntToString(pid) + rest;
    assert "PID: " + IntToString(pid) + rest == "PID:" + t1;
    MatchPrefix("PID:", t1);
    ScanIntAfterBlank(pid, rest);
    ScanCommandOf("PID:" + t1, t1, Scan(pid, rest));
  }

  lemma MatchPrefix(lit: string, t: string)
    ensures MatchLiteral(lit + t, lit) == Some(t)
  {
    HasPrefixOf(lit, t);
  }

  lemma ScanCommandOf(cmd: string, t1: string, p: Scan)
    requires MatchLiteral(cmd, "PID:") == Some(t1) && ScanInt(t1) == Some(p)
    ensures ScanCommand(cmd) == Assignment(p.value, ScanRuntime(p.rest))
  {
  }

  /** The runtime part: the ',', a blank, "RUNTIME:", a blank and `%d`. */
  lemma ScanRuntimeOf(v: int)
    ensures ScanRuntime(", RUNTIME: " + IntToString(v) + "\n") == ToUint32(v)
  {
    var t3 := " " + IntToString(v) + "\n";
    var t2 := " " + ("RUNTIME:" + t3);
    assert ", RUNTIME: " + IntToString(v) + "\n" == "," + t2;
    MatchPrefix(",", t2);
    TrimLeftSkipsBlank("RUNTIME:" + t3);
    TrimLeftNoSpace("RUNTIME:" + t3);
    MatchPrefix("RUNTIME:", t3);
    ScanIntAfterBlank(v, "\n");
    ScanRuntimeSteps("," + t2, t2, t3, Scan(v, "\n"));
  }

  lemma ScanRuntimeSteps(s: string, t2: string, t3: string, r: Scan)
    requires MatchLiteral(s, ",") == Some(t2)
    requires MatchLiteral(TrimLeft(t2), "RUNTIME:") == Some(t3) && ScanInt(t3) == Some(r)
    ensures ScanRuntime(s) == ToUint32(r.value)
  {
  }

  /** The worker reads back exactly the pid and runtime the parent wrote. */
  lemma CommandRoundTrip(pid: int, runtime: Uint32)
    ensures ScanCommand(FormatCommand(pid, runtime)) == Assignment(pid, runtime)
  {
    var rest := ", RUNTIME: " + IntToString(ToInt32(runtime)) + "\n";
    assert FormatCommand(pid, runtime) == "PID: " + IntToString(pid) + rest;
    ScanCommandPid(pid, rest);
    ScanRuntimeOf(ToInt32(runtime));
    Int32RoundTrip(runtime);
  }

  /** Whether `kill -9 target`, run by `system` in a child shell of the
      worker, kills the worker too: its own pid, 0 (the shell's process
      group, which is the worker's), -1 (every process the user may signal)
      and minus the worker's process group `group`. The `kill(target, 0)`
      probe succeeds for each of them. */
  predicate KillsWorker(target: int, self: int, group: int) {
    target == self || target == 0 || target == -1 || target == -group
  }

  /** What one command makes the worker do: sleep for the runtime, probe the
      pid with signal 0, kill it when the probe succeeds, and write the
      number killed. `alive` is the probe's answer for a target other than
      the worker itself; a kill that ends the worker leaves no report. */
  datatype Outcome = Outcome(sleep: Uint32, target: int, kill: bool, report: Option<string>)

  function Handle(cmd: string, self: int, group: int, alive: bool): (o: Outcome)
    ensures o.target == ScanCommand(cmd).pid && o.sleep == ScanCommand(cmd).runtime
    ensures o.kill <==> KillsWorker(o.target, self, group) || alive
    ensures o.report.None? <==> KillsWorker(o.target, self, group)
    ensures o.report.Some? ==> o.report.value == (if alive then "1" else "0")
  {
    var a := ScanCommand(cmd);
    if KillsWorker(a.pid, self, group) then Outcome(a.runtime, a.pid, true, None)
    else
      var numKilled := if alive then 1 else 0;
      Outcome(a.runtime, a.pid, alive, Some(IntToString(numKilled)))
  }

  /** `checkChild`'s `sscanf(command, "%d\n", &numKilled)` with the initial 0. */
  function ParseCount(report: string): int {
    match ScanInt(report)
    case Some(sc) => sc.value
    case None => 0
  }

  /** One assignment end to end: the worker watches exactly the process the
      parent named and kills at most once. Unless that kill ends the worker,
      the parent reads back 1 for a kill and 0 otherwise. */
  lemma AssignmentRoundTrip(pid: int, runtime: Uint32, self: int, group: int, alive: bool)
    ensures var o := Handle(FormatCommand(pid, runtime), self, group, alive);
      o.target == pid && o.sleep == runtime
      && (o.report.None? <==> KillsWorker(pid, self, group))
      && (o.report.Some? ==> ParseCount(o.report.value) == (if alive then 1 else 0))
  {
    CommandRoundTrip(pid, runtime);
    ScanIntToString(if alive then 1 else 0, "");
    assert IntToString(if alive then 1 else 0) + "" == IntToString(if alive then 1 else 0);
  }
}

=== FILE: wrappers.dfy ===
/** Failure-carrying values shared by the whole model. */
module Wrappers {

  /** A value that may be absent; the model's stand-in for a C NULL pointer. */
  datatype Option<+T> = None | Some(value: T)

  /** The outcome of an operation that the C code aborts with `exit(EXIT_FAILURE)`
      on failure; `Failure` carries what the error message reports. */
  datatype Result<+R, +E> = Success(value: R) | Failure(error: E)
}
